=== FILE: README.md ===
# vcvc podcast site: a Dafny model of its core

The site is a podcast front end with a small server. The server answers four things:

- `/api/summary/:videoId` writes an AI summary of a YouTube episode. It reads the watch page, the caption track and the video metadata, and asks Perplexity first and Gemini second. Summaries are kept in a file cache.
- `/api/video/:videoId` returns the video data.
- `/api/cache` lists the cached summaries.
- `/api/channel-stats` returns the channel's subscriber, view and video counts, scraped from the channel page. A serverless copy of this route also exists.

The front end lists episodes on the home page, using either the uploads playlist or the RSS feed. It animates a hero typewriter. An episode page shows an AI summary, with timestamped topics, a description typewriter and related episodes.

This project models the pure logic of these pieces as Dafny functions over immutable data, and proves what they promise.

| module | models |
|---|---|
| `CountParser` | `parseYouTubeCount` ("1.2K", "10,234 views", "63 subscribers"); backend/server.js:112-124 and api/channel-stats.js:72-84 hold the same text, so one model serves both |
| `ChannelStats` | the channel-stats scrape, its defaults 63/520/20, and both deployments' response policies |
| `HtmlEntities` | `decodeHtmlEntities`: six named passes with `&amp;` first, then numeric entities |
| `Captions` | `fetchCaptions`: extract `<text>` elements, decode, drop blanks, join, collapse white space, trim, cap at 30000 characters |
| `VideoPage` | `getVideoData`: the player response, the caption-track choice and the `<title>` fallback |
| `SummaryGenerator` | `buildPrompt`, `parseJsonResponse`, the two generators and their stamping of the summary |
| `SummaryRoute` | the summary route's cache and provider fallback, `/api/video`, `/api/cache` |
| `HomePage` | `parseDuration`, the shorts and duration filters, description excerpts, the featured/grid split |
| `HeroTypewriter` | the home page's word typewriter |
| `DescriptionTypewriter` | the episode page's one-character-per-tick typewriter |
| `EpisodePage` | `parseTimestamp`, topic normalisation and timestamp links, API defaulting, the episode source choice, related episodes |

Shared support is in `Wrappers` (`Option`, `Result`), `Text` (the string methods used), `JsNumber`, `Json` (JSON values and property access), `Http` (replies) and `Scan` (leftmost-match scanning for the fixed regexes).

How the model represents the program:

- **Numbers.** A JavaScript number is `JsNum`: either `NaN` or an exact real. `parseFloat`, `parseInt`, `Number` and `Math.round` are written out over decimal numerals.
- **Regexes.** Each regex the code uses is a dedicated scanner. Each scanner is proved to find the leftmost match and to read back the text it matches.
- **Network.** A network request is a parameter. It is either a function from URL to reply (`Http.Web`), or the reply itself.
- **Parsing and the clock.** `JSON.parse` and `new Date().toISOString()` are parameters too.
- **File cache.** The cache directory is a map from video id to the stored summary.
- **Summary route.** The route returns the list of outside calls it made. This makes "no call happens" a provable statement.

The behaviour of the code is modelled as written, including these quirks:

- **`parseYouTubeCount`:**
  - The `b` of "subscribers" survives cleaning, so "63 subscribers" is read as 63 billion.
  - The magnitude letters are tried in the order K, M, B.
  - A magnitude letter with no digit gives `NaN`, not `null`. For example, "garbage" gives `NaN`.
- **`decodeHtmlEntities`:** it decodes `&amp;` first, so a doubly escaped entity is decoded twice.
- **`parseDuration`:** it reads only the time part after `PT`. A duration of a day or more reads as 0.
- **`/api/cache`:** the listing removes the first ".json" of a file name, so an id that contains ".json" is listed under a different id.
- **Stamping:** a `videoId` key in the model's JSON replaces the real video id. The generator's `hasTranscript`, `generatedAt` and `model` always win.
- **Provider fallback:** any Perplexity failure, including "No valid JSON found in response", falls back to Gemini.
- **The `cached` flag:** a fresh summary answers with `cached: false` and the same summary asked again answers with `cached: true`, so two consecutive responses differ in that flag.

## Model

| member | source | states |
|---|---|---|
| CountParser.ParseYouTubeCount | backend/server.js:112-124 | empty input gives null; null only without a magnitude letter; NaN only with one; a value is never negative, and a value from the plain branch is positive |
| CountParser.CleanKeepsLetters | backend/server.js:114 | cleaning keeps K, M or B exactly when the input holds that letter in either case, and drops every minus sign |
| CountParser.GroupedRoundTrip | backend/server.js:112-124 | every positive number written with thousands separators ("10,234") reads back as itself |
| CountParser.ViewsLabelRoundTrip | backend/server.js:112-124 | a view label "N views", with N written with separators, reads as N |
| CountParser.AbbreviatedRoundTrip | backend/server.js:116-121 | a label `a.dL` reads as (a + d/10) times 1000, 10^6 or 10^9 for L = K, M, B; "1.2K" reads as 1200 |
| CountParser.ThousandsLetterWins | backend/server.js:116-121 | K is tried before M: "1M2K" drops only the K and reads as 1000 |
| CountParser.SubscribersLabelReadsAsBillions | backend/server.js:114-121 | "N subscribers" takes the B branch and reads as N times 10^9 |
| CountParser.LetterWithoutDigitsIsNaN | backend/server.js:116-121 | a magnitude letter without any digit gives NaN, not null |
| CountParser.NoDigitsIsNull | backend/server.js:123 | input with neither digits nor magnitude letters gives null |
| CountParser.GarbageIsNaN | backend/server.js:112-124 | "garbage" reads as NaN, because its `b` survives cleaning |
| CountParser.Scaled | backend/server.js:117 | scaling is NaN exactly when `parseFloat` is NaN, and never negative |
| ChannelStats.VideoCount | api/channel-stats.js:45-48 | the video count is null or a non-zero integer, never NaN |
| ChannelStats.Scrape | api/channel-stats.js:29-48 | each field depends only on its own pattern; a missing pattern leaves only that field null, and a found one is parsed |
| ChannelStats.Report | api/channel-stats.js:52-57 | the success body holds each truthy value or its default 63/520/20, and no error |
| ChannelStats.FetchStats | api/channel-stats.js:13-67 | the counts are always truthy; the error is absent exactly when the fetch is OK; an OK page is answered with the scraped counts, each replaced by its default when falsy (`Report`); a throw or a non-OK reply gives the three defaults and the message |
| ChannelStats.ExpressHandler | backend/server.js:51-110 | the server's route always answers 200; subscribers and views are positive and the video count is non-zero (a negative count is passed on); an OK page gives the scraped counts with their defaults, anything else the defaults and an error |
| ChannelStats.VercelHandler | api/channel-stats.js:4-68 | status is always 200; OPTIONS gives an empty body and fetches nothing; any other verb answers as the server's route does |
| ChannelStats.FailureReportsDefaults | api/channel-stats.js:59-67 | any failure answers 200 with all three defaults and the error message |
| ChannelStats.ScrapedSubscribers | api/channel-stats.js:29-34 | a page carrying a subscriber fragment reports the count written there |
| ChannelStats.ScrapedViews | api/channel-stats.js:36-41 | a page carrying "N views" reports N |
| ChannelStats.ScrapedVideos | api/channel-stats.js:43-48 | a page carrying a grouped video count reports it |
| ChannelStats.EmptyPageReportsDefaults | api/channel-stats.js:29-57 | a page with none of the fragments reports 63/520/20 and no error |
| Scan.FindFirst | backend/server.js:237 | the leftmost position where a matcher succeeds, with its capture; nothing matches earlier, and no result means no position matches |
| Scan.MatchRendered | api/channel-stats.js:31 | every rendering of a well-formed pattern, whatever follows it, is matched in full |
| Scan.ScrapeRendered | api/channel-stats.js:31-33 | a value written after a fragment is captured back exactly, when nothing before it starts a match |
| HtmlEntities.Decode | backend/server.js:322-331 | decoding never lengthens text and leaves text without `&` alone |
| HtmlEntities.DecodeEscape | backend/server.js:322-331 | decoding undoes HTML escaping of any text without `&` |
| HtmlEntities.NumericEntity | backend/server.js:330 | `&#n;` decodes to `String.fromCharCode(n)`: the character with code n modulo 2^16 whenever that is not a surrogate code |
| HtmlEntities.EntityWrapsAround | backend/server.js:330 | codes wrap around modulo 2^16: `&#n;` and `&#(n + 65536);` decode alike |
| HtmlEntities.ApostropheEntity | backend/server.js:328 | `&#39;` is decoded by its named pass to an apostrophe |
| HtmlEntities.DoubleEscaped | backend/server.js:324-330 | `&amp;#n;` decodes all the way to the character n, because `&amp;` is decoded first |
| HtmlEntities.CharOf | backend/server.js:330 | `String.fromCharCode` takes the code modulo 2^16 and keeps it whenever it is not a surrogate code; a surrogate code becomes U+FFFD |
| Captions.TextElements | backend/server.js:298 | every element the global match reads is well formed |
| Captions.ElementsOfDocument | backend/server.js:298 | the global match of a caption document gives back exactly its elements, in order |
| Captions.InnerOfMarkup | backend/server.js:303-304 | re-reading a matched element gives back its text |
| Captions.SegmentsOfTags | backend/server.js:301-305 | each segment is the decoded text of its element |
| Captions.Tidy | backend/server.js:306-309 | the joined text has no run of white space and no white space at either end |
| Captions.Truncate | backend/server.js:311-314 | text up to 30000 characters is kept; longer text keeps its first 30000 and gains "..." |
| Captions.Transcript | backend/server.js:298-314 | null exactly when no element matches; otherwise collapsed, not starting with white space, at most 30003 long |
| Captions.TranscriptKeepsText | backend/server.js:301-309 | the transcript holds exactly the visible characters of the decoded segments, in order |
| Captions.TranscriptOfWords | backend/server.js:298-314 | captions of plain words give those words joined by single spaces |
| Captions.FetchCaptions | backend/server.js:286-320 | the URL gets `&fmt=srv3`; a non-OK reply gives null; an OK one gives the transcript of its body |
| VideoPage.LazyObject | backend/server.js:237 | the lazy object ends at the first `};`: no `};` occurs inside it; none exactly when no `};` follows |
| VideoPage.PlayerJson | backend/server.js:237 | a captured player response starts with `{` and ends with `}` |
| VideoPage.PlayerRoundTrip | backend/server.js:237 | a player response written into a page is captured in full |
| VideoPage.TextOr | backend/server.js:245-246 | the text is non-empty exactly when the value is a non-empty string |
| VideoPage.FindEnglish | backend/server.js:251 | `find` returns the first English track when no null track comes before it; a null track before any English one throws; none found means no track is English |
| VideoPage.ChooseTrack | backend/server.js:251 | the first English track when no null track precedes it; the first track when no track is English; none only when `find` threw |
| VideoPage.EnglishTrackChosen | backend/server.js:251 | with an English track at i and no null track before it, the chosen track is the first English one, at or before i; when none precedes i it is the one at i |
| VideoPage.TrackTranscript | backend/server.js:249-254 | no tracks, a `find` that throws, or a chosen track without a `baseUrl` gives an empty transcript; otherwise the captions fetched from the chosen track's `baseUrl` |
| VideoPage.ReadPlayer | backend/server.js:241-259 | an unparsable or null player response yields no title, description or transcript; otherwise the title and description are read from `videoDetails` and the transcript is the chosen caption track's (`TrackTranscript`) |
| VideoPage.PageTitle | backend/server.js:262-267 | the `<title>` text with the first " - YouTube" removed and trimmed, or empty when there is none |
| VideoPage.TitleRoundTrip | backend/server.js:263-265 | a page title "name - YouTube" reads back as the trimmed name |
| VideoPage.GetVideoData | backend/server.js:218-284 | null exactly when the watch page is not OK; the id is kept; `hasTranscript` holds exactly when the transcript is non-empty; without a player response the description and transcript are empty and the `<title>` is used; with one, its description and transcript are used, and its title unless empty, when the `<title>` is used |
| VideoPage.EnglishTrackTranscript | backend/server.js:241-256 | the transcript of a page is the captions fetched from the `baseUrl` of the first English caption track of its player response |
| VideoPage.PlayerTitleWins | backend/server.js:244-267 | a title in the player response wins over the page's `<title>` |
| SummaryGenerator.BuildPrompt | backend/server.js:337-363 | the prompt ends with the chosen content |
| SummaryGenerator.PromptCarriesSource | backend/server.js:337-363 | for video data as `getVideoData` builds it, the prompt ends with the transcript when there is one, and otherwise with the description |
| SummaryGenerator.PromptOpens | backend/server.js:341 | the prompt opens with "You are analyzing a podcast/video transcript." when the video has a transcript, and with "… description." otherwise |
| SummaryGenerator.StripFences | backend/server.js:436-440 | stripping never lengthens; the result has no white space at either end; it is the reply with only white space and fence characters cut from its two ends; a reply with no fence at either end is only trimmed |
| SummaryGenerator.JsonSpan | backend/server.js:442 | a span, when there is one, is at least two characters long, opens with `{` and closes with `}` |
| SummaryGenerator.JsonSpanPlace | backend/server.js:442 | the span is a piece of the text with no `{` before it and no `}` after it, so it runs from the first `{` to the last `}`; there is none exactly when no `{` comes before a `}` |
| SummaryGenerator.SpanOfPrefixed | backend/server.js:442 | text without `{` in front of a reply does not move its span |
| SummaryGenerator.SpanOfSuffixed | backend/server.js:442 | text without `}` behind a reply does not move its span |
| SummaryGenerator.StripFencesSpan | backend/server.js:436-442 | the clean-up before the search never changes the span: the span of the stripped reply is the span of the reply itself |
| SummaryGenerator.SpanOfCut | backend/server.js:436-442 | cutting brace-free white space and fence characters from the ends of a text leaves its span unchanged |
| SummaryGenerator.ParseJsonResponse | backend/server.js:434-447 | "No valid JSON found in response" exactly when the reply itself has no span (`JsonSpan`); otherwise the parse of the reply's own span, whatever fences surround it |
| SummaryGenerator.SpanOfEmbedded | backend/server.js:442 | an object between text without braces is found exactly |
| SummaryGenerator.FencedReply | backend/server.js:434-447 | a fenced reply "```json … ```" with surrounding white space gives back the object inside |
| SummaryGenerator.Stamp | backend/server.js:405-411 | the keys are the parsed ones plus the four stamps; `hasTranscript`, `generatedAt`, `model` come from the generator; `videoId` comes from the parsed JSON when it has one; other keys are kept |
| SummaryGenerator.StampOverridesModel | backend/server.js:405-411 | keys the model wrote for `model`, `generatedAt`, `hasTranscript` are replaced |
| SummaryGenerator.ModelOverridesVideoId | backend/server.js:406-407 | a `videoId` in the model's JSON replaces the real id |
| SummaryGenerator.ChoiceContent | backend/server.js:395 | the read throws exactly on a null body or a missing or null `choices`; an array of choices gives the first one's `message.content`, and none when it is empty |
| SummaryGenerator.GenerateWithPerplexity | backend/server.js:365-412 | with no key it fails with "Perplexity API key not configured" before any request; a success had a key and is the object parsed from the first choice of the OK reply to the prompt, stamped with the Perplexity model; with a key the outcome is what the reply to the prompt makes (`PerplexityReply`) |
| SummaryGenerator.PerplexityReply | backend/server.js:372-411 | a request that throws fails with its message; a non-OK reply fails with "Perplexity API error: <status> - <body>"; a body that cannot be decoded fails with the decoder's message; a decoded body goes on to `PerplexityAnswer`; a success is the object parsed from the first choice of the OK reply's decoded body, stamped |
| SummaryGenerator.ReadableChoiceSucceeds | backend/server.js:394-411 | an OK reply whose first choice holds readable JSON text succeeds with exactly that object, stamped |
| SummaryGenerator.PerplexityAnswer | backend/server.js:394-411 | a failed `choices` read fails with its error; missing or falsy content fails with "No content in Perplexity response"; non-string content throws; a success is the parsed content, stamped; content that parses always succeeds |
| SummaryGenerator.EmptyReplyHasNoJson | backend/server.js:434-446 | an empty reply holds no JSON object and fails with "No valid JSON found in response" |
| SummaryGenerator.GenerateWithGemini | backend/server.js:414-432 | a failed request fails with its message; an answer fails exactly when it holds no readable JSON, with that error; a success means the model answered the prompt, and is the object parsed from that answer, stamped with the Gemini model |
| SummaryGenerator.GeminiReply | backend/server.js:417-431 | a failed request fails with its message; otherwise the reply's JSON decides: its error, or the parsed object with the four stamp keys added; a success is exactly the parsed reply, stamped |
| SummaryRoute.HandleSummary | backend/server.js:127-179 | a cache hit answers the stored summary with `cached: true`, no call and the cache unchanged; otherwise the video is fetched first; no video gives 404; a Perplexity success is answered and stored after exactly the two calls; Gemini is asked only after Perplexity fails, and its success is answered and stored; both failing gives one 500 naming both messages and no write; every success answers with `cached: false` |
| SummaryRoute.OtherEntriesKept | backend/server.js:166-167 | every other video's entry is left as it was |
| SummaryRoute.RepeatIsCacheHit | backend/server.js:135-170 | asking again after a success answers the same summary from the cache with no call, now tagged `cached: true` |
| SummaryRoute.RefreshBypassesCache | backend/server.js:129-135 | `refresh=true` always fetches the video again |
| SummaryRoute.Tagged | backend/server.js:170 | the summary's keys plus `cached`, with every other value kept |
| SummaryRoute.ServerError | backend/server.js:174-177 | a 500 body carries the message |
| SummaryRoute.VideoJson | backend/server.js:189 | the reply body has exactly the five fields of the video data: its id, title, description and `hasTranscript` flag, and its transcript, or `null` when there is none |
| SummaryRoute.HandleVideo | backend/server.js:182-194 | 404 `Video not found` exactly when there is no video data; otherwise 200 with the data |
| SummaryRoute.ListCache | backend/server.js:197-212 | one line per cached summary with its title and time, and every line is the line of some cached summary |
| SummaryRoute.ListedIdOfFile | backend/server.js:203 | an id without ".json" in it is listed as itself |
| SummaryRoute.GeneratedIsListed | backend/server.js:197-207 | after a successful generation the listing shows the id with its title and time |
| HomePage.Designated | script.js:269-271 | a component without its designator counts as 0 and leaves the text alone |
| HomePage.ParseDuration | script.js:266-268 | input without "PT" gives 0 |
| HomePage.DurationRoundTrip | script.js:266-273 | "PT#H#M#S" reads as h*3600 + m*60 + s, with absent components counting as 0 |
| HomePage.DaysReadAsZero | script.js:267-272 | a duration with a day part before "T" reads as 0 |
| HomePage.Excerpt | script.js:254 | the first 200 characters of the description followed by "..." |
| HomePage.ApiVideos | script.js:245-260 | exactly the items whose duration is at least 60 seconds, never more than given |
| HomePage.UnknownDurationDropped | script.js:247-249 | an item without a known duration is dropped |
| HomePage.ApiVideosAppend | script.js:245-250 | filtering keeps relative order: the list of a concatenation is the concatenation of the lists |
| HomePage.RssVideos | script.js:157-180 | at most maxResults videos; ids are the non-empty last `:` segment; no title contains "#short"; exactly the entries among the first maxResults that have an id and a title and are not shorts are listed |
| HomePage.RssVideosAppend | script.js:157-158 | entries are read in order and those past maxResults are never read: the list for a concatenation is the list of the first part followed by the list of the rest |
| HomePage.RenderContent | script.js:278-294 | the featured video followed by the grid is exactly the list, or the fallback list when it is empty |
| HomePage.EachVideoShownOnce | script.js:282-288 | each video is either the featured one or in the grid |
| HeroTypewriter.Step | script.js:79-118 | the invariant holds (text is the typed prefix of the current word, indices in range); a paused step only clears the pause; typing advances one character and turns to deleting exactly at the word's end; deleting removes one, keeps deleting while characters remain, and moves to the next word, mod the list, with a pause only at 0 |
| HeroTypewriter.Run | script.js:79-118 | every reachable state keeps the invariant |
| HeroTypewriter.StartValid | script.js:64-72 | the word list and the initial state satisfy the invariant |
| HeroTypewriter.WordCycle | script.js:82-113 | a word takes twice its length plus one steps, after which the next word starts |
| DescriptionTypewriter.Tick | episode.js:151-161 | each tick appends the next character; the tick after the last one stops the timer; a stopped timer changes nothing |
| DescriptionTypewriter.AfterTicks | episode.js:144-161 | after k ticks the node holds the first k characters; the timer stops exactly after tick `length + 1`, leaving the whole text |
| EpisodePage.ParseTimestamp | episode.js:206-214 | a part count other than 2 or 3 (including no colon) gives 0 |
| EpisodePage.HoursRoundTrip | episode.js:206-214 | "h:m:s" reads as h*3600 + m*60 + s |
| EpisodePage.MinutesRoundTrip | episode.js:206-214 | "m:s" reads as m*60 + s |
| EpisodePage.Scaled | episode.js:209-212 | the arithmetic is NaN exactly when a part is NaN |
| EpisodePage.NormalizeTopics | episode.js:51 | the count and order are kept; strings become `{text}` and other topics are unchanged |
| EpisodePage.NormalizeIdempotent | episode.js:51 | normalising twice is normalising once |
| EpisodePage.TopicItem | episode.js:177-190 | a timestamp link exactly for an object topic with a non-empty timestamp string, showing the topic's text and that timestamp and seeking to its parsed time; the callback throws exactly on a `null` topic or a truthy non-string timestamp; an object without a truthy timestamp shows its text alone; a string topic is plain text, any other value plain with no text |
| EpisodePage.TimestampedTopicLinks | episode.js:177-190 | a topic with text and an "m:s" timestamp becomes a link showing that text and timestamp and seeking to m*60 + s seconds |
| EpisodePage.FromSummary | episode.js:44-55 | missing fields default (title "Episode", description, `generatedAt` or the time of the call, empty lists); string topics are normalised; `aiGenerated` is set; it throws exactly on a null body or non-array topics |
| EpisodePage.EmptySummaryDefaults | episode.js:46-55 | an empty summary object gives the default title and description, the time of the call, and empty topic, takeaway and highlight lists |
| EpisodePage.FetchEpisode | episode.js:41-82 | AI-generated exactly when the reply is OK, its body reads and an episode can be built from that body (`FromSummary`: not `null`, and `topics` an array or missing), and then the episode is the one built from that body; otherwise the basic episode with empty lists |
| EpisodePage.CompleteSummaryShown | episode.js:44-55 | a complete summary is shown with its own title and topics |
| EpisodePage.RequestedId | episode.js:20 | the `v` parameter, else `id`; an empty one counts as missing |
| EpisodePage.Lookup | episode.js:29 | the catalog entry with the id, none exactly when no entry has it |
| EpisodePage.LoadEpisode | episode.js:18-38 | no id shows the first catalog episode with no related list; a known id shows exactly the catalog entry with that id; an unknown id is itself sent to the API; the related list is the one for that id |
| EpisodePage.KnownIdIsStatic | episode.js:27-31 | an id in the catalog is shown from the catalog |
| EpisodePage.RelatedEpisodes | episode.js:313-322 | one to three episodes, none the current one, in catalog order; "coming soon" exactly when every entry is the current one |
| EpisodePage.FewOthersAllListed | episode.js:315-316 | with at most three other episodes, all of them are listed |
| EpisodePage.ManyOthersFirstThree | episode.js:315-317 | with more than three other episodes, exactly the first three others in catalog order are listed |

## Left out

- Network and provider I/O is left out: fetching YouTube pages and caption URLs, the Perplexity request and the Gemini SDK. Each request is a parameter or a given reply.
- Request headers, the request body sent to Perplexity and its API key handling are left out, beyond the "not configured" check.
- File cache I/O (`existsSync`, `readFileSync`, `writeFileSync`, `readdirSync`) is left out. The cache is a map. Stored summaries are assumed to read back as they were written.
- `SummaryRoute.HandleSummary` keys its cache map by the video id, standing for the file `path.join(CACHE_DIR, videoId + '.json')` (backend/server.js:134). The key is treated as a plain file name. Express URL-decodes `:videoId`, and `path.join` normalises the path lexically, so an id holding `/`, `\` or `..` can name another id's file. For example, `x%2F..%2Fa` names the file of `a`, and `..%2Fy` names a file outside the cache directory that the listing never shows. Such ids are not modelled. `SummaryRoute.OtherEntriesKept` and `SummaryRoute.GeneratedIsListed` hold for ids that are plain file names. They do not hold for ids that alias another file.
- The following failures are not modelled: a corrupt cache file, a failing write, and `readdirSync` throwing. Each would give a 500.
- `JSON.parse`, `response.json()` and `JSON.stringify` are parameters or left out. JSON key order is not modelled: objects are maps.
- Express and Vercel wiring is left out: CORS headers, `app.listen`, the health routes, and `fetchedAt` timestamps.
- Timers are left out: `setTimeout`, `setInterval`, and visibility-driven refresh. The typewriters are step functions. The delay each hero step schedules is returned with the step.
- All DOM work is left out: rendering, `escapeHtml`, navigation, modal, share buttons, and the takeaways and highlights sections. So is the oEmbed fallback list and `formatDate`, which depends on locale and `Date`.
- The thumbnail choice and view counts of the playlist items are left out. They only feed rendering.
- `JsNumber.ParseFloat` reads exact decimals. It does not model IEEE-754 doubles, exponents, `Infinity` or rounding to the nearest double.
- `JsNumber.ToNumber`: reads decimal numerals only. Exponent forms ("1e1"), `0x`/`0o`/`0b` forms and "Infinity" give NaN, where JavaScript's `Number` reads them, so a timestamp part written that way reads as NaN in `EpisodePage.ParseTimestamp`.
- `JsNumber.ParseInt` reads decimal digits (and a `0x` prefix) exactly. It does not model the loss of precision of very long numerals.
- `HtmlEntities.CharOf` maps the lone surrogate codes, which a Dafny `char` cannot hold, to U+FFFD. Strings are sequences of Unicode scalar values, while JavaScript counts UTF-16 units. This affects, only for text outside the Basic Multilingual Plane, the 30000-character cap, the 200-character excerpts and the description typewriter.
- `DescriptionTypewriter.AfterTicks` counts one tick per character. The page's `charAt` steps per UTF-16 unit, so a character outside the Basic Multilingual Plane takes two ticks there and shows as a lone surrogate after the first.
- `Text.ToLowerAscii` lower-cases only ASCII letters. That is exact for the "#short" test, which looks for an ASCII pattern. It is not exact for the texts in general.
- `SummaryGenerator.ChoiceContent` reports a `TypeError` with a fixed placeholder message. The engine's exact wording is not modelled.
- `VideoPage.TextOr` treats a truthy value that is not a string as absent. JavaScript would take it and later stringify it.
- `EpisodePage.Lookup` assumes the static catalog is keyed by each episode's own `videoId`. Inherited object keys such as `constructor` are not modelled.
- `HeroTypewriter.StartValid` starts from an empty text. The hero element's initial HTML text, before the first step replaces it, is not modelled.
- `HomePage.RssVideos` works from entries already read from the feed XML. The DOM parsing of the feed and the feed URL request are left out.
- `loadYouTubeContent`, which renders the fallback list first and then replaces it with the API list, is left out. It only orders two renders, each modelled by `HomePage.RenderContent`.
- `api/health.js` and `episodes-data.js` are left out. They hold a constant reply and static data, with no logic.

=== FILE: captions.dfy ===
/**
 * `fetchCaptions`: the timed-text XML of a caption track is reduced to one line of plain text.
 * Every `<text ...>...</text>` element is found, its text decoded, blank pieces dropped, the rest
 * joined with spaces, white space collapsed and trimmed, and the result cut at 30000 characters.
 */
module Captions {
  import opened Wrappers
  import opened Text
  import opened Seqs
  import opened Scan
  import opened Http
  import HtmlEntities

  const MaxLength := 30000
  const Ellipsis := "..."
  /** Appended to a track's base URL to ask for the XML format. */
  const FormatSuffix := "&fmt=srv3"

  /** One element `<text` attrs `>` content `</text>` of the caption XML. */
  datatype TextTag = TextTag(attrs: string, content: string)

  const OpenTag := "<text"
  const CloseTag := "</text>"

  /** What `[^>]*` and `([^<]*)` can read. */
  predicate ValidTag(t: TextTag) {
    '>' !in t.attrs && '<' !in t.content
  }

  /** An element between the given opening and closing tag texts. */
  function MarkupWith(open: string, close: string, t: TextTag): string {
    open + t.attrs + ">" + t.content + close
  }

  function Markup(t: TextTag): string {
    MarkupWith(OpenTag, CloseTag, t)
  }

  /** The regex `open[^>]*>([^<]*)close` anchored at the start of `s`. Both runs stop at the first
      character they cannot read, and the text after each must start with exactly that character,
      so neither ever gives characters back. */
  function ElementWith(open: string, close: string, s: string): (r: Option<TextTag>)
    ensures r.Some? ==> ValidTag(r.value) && MarkupWith(open, close, r.value) <= s
    ensures !(open <= s) ==> r.None?
  {
    if !(open <= s) then None
    else
      var a := s[|open|..];
      match FirstIndexOfChar(a, '>')
      case None => None
      case Some(i) =>
        var b := a[i + 1..];
        match FirstIndexOfChar(b, '<')
        case None => None
        case Some(j) =>
          if close <= b[j..] then
            ElementLayout(open, a, i, '>', j, close);
            assert s == open + a;
            Some(TextTag(a[..i], b[..j]))
          else None
  }

  /** The matched text of an element is a prefix of the text it was read from. */
  lemma {:induction false} ElementLayout(p: string, a: string, i: nat, c: char, j: nat, q: string)
    requires i < |a| && a[i] == c && j + |q| <= |a| - i - 1 && q <= a[i + 1..][j..]
    ensures p + a[..i] + [c] + a[i + 1..][..j] + q <= p + a
  {
    var b := a[i + 1..];
    var tail := b[j + |q|..];
    assert b[j..] == q + tail by {
      assert b[j..][..|q|] == q && b[j..][|q|..] == tail;
    }
    assert a == a[..i] + [c] + (b[..j] + (q + tail)) by {
      assert a == a[..i] + [c] + b;
      assert b == b[..j] + b[j..];
    }
    var m := p + a[..i] + [c] + b[..j] + q;
    assert p + a == m + tail by {
      ConcatShape(p, a[..i], [c], b[..j], q, tail);
    }
  }

  lemma ConcatShape<T>(p: seq<T>, u: seq<T>, v: seq<T>, w: seq<T>, q: seq<T>, tail: seq<T>)
    ensures p + (u + v + (w + (q + tail))) == p + u + v + w + q + tail
  {
  }

  /** The regex `<text[^>]*>([^<]*)<\/text>` anchored at the start of `s`. */
  function TextElement(s: string): (r: Option<TextTag>)
    ensures r.Some? ==> ValidTag(r.value) && Markup(r.value) <= s
    ensures !(OpenTag <= s) ==> r.None?
  {
    ElementWith(OpenTag, CloseTag, s)
  }

  /** `xml.match(/<text[^>]*>([^<]*)<\/text>/g)`: the elements matched left to right, each search
      resuming after the previous match. */
  function TextElements(s: string): (tags: seq<TextTag>)
    ensures forall k :: 0 <= k < |tags| ==> ValidTag(tags[k])
    decreases |s|
  {
    if |s| == 0 then []
    else
      match TextElement(s)
      case Some(t) => [t] + TextElements(s[|Markup(t)|..])
      case None => TextElements(s[1..])
  }

  /** The regex `>([^<]*)<` anchored at the start of `s`. */
  function InnerAt(s: string): (r: Option<string>)
    ensures r.Some? ==> '<' !in r.value
  {
    if |s| == 0 || s[0] != '>' then None
    else
      match FirstIndexOfChar(s[1..], '<')
      case None => None
      case Some(j) => Some(s[1..][..j])
  }

  /** `match.match(/>([^<]*)</)`, or the empty string when it fails. */
  function Inner(m: string): string {
    FirstCapture(InnerAt, m).GetOr([])
  }

  /** The `map` step: each matched element re-read and decoded. */
  function Segments(tags: seq<TextTag>): (texts: seq<string>)
    ensures |texts| == |tags|
  {
    seq(|tags|, k requires 0 <= k < |tags| => HtmlEntities.Decode(Inner(Markup(tags[k]))))
  }

  /** The `filter` step keeps pieces with something besides white space. */
  predicate NonBlank(t: string) {
    Trim(t) != []
  }

  /** `filter`, `join(' ')`, `replace(/\s+/g, ' ')` and `trim()`. */
  function Tidy(texts: seq<string>): (r: string)
    ensures Collapsed(r) && (r == [] || (!IsSpace(r[0]) && !IsSpace(r[|r| - 1])))
  {
    var c := Collapse(Join(Filter(NonBlank, texts), " "));
    TrimKeepsCollapsed(c);
    Trim(c)
  }

  /** The length cap: longer text keeps its first 30000 characters and gains an ellipsis. */
  function Truncate(t: string): (r: string)
    ensures |r| <= MaxLength + |Ellipsis|
    ensures |t| <= MaxLength ==> r == t
    ensures |t| > MaxLength ==> |r| == MaxLength + |Ellipsis| && r[..MaxLength] <= t && r[MaxLength..] == Ellipsis
  {
    if |t| > MaxLength then t[..MaxLength] + Ellipsis else t
  }

  /** The transcript of a caption document, or `None` (JavaScript's `null`) when it holds no
      element at all. */
  function Transcript(xml: string): (r: Option<string>)
    ensures r.None? <==> TextElements(xml) == []
    ensures r.Some? ==> |r.value| <= MaxLength + |Ellipsis| && Collapsed(r.value)
    ensures r.Some? ==> r.value == [] || !IsSpace(r.value[0])
  {
    var tags := TextElements(xml);
    if |tags| == 0 then None
    else
      var t := Tidy(Segments(tags));
      TruncateKeepsCollapsed(t);
      Some(Truncate(t))
  }

  lemma {:induction false} TruncateKeepsCollapsed(t: string)
    requires Collapsed(t)
    ensures Collapsed(Truncate(t))
  {
    if |t| > MaxLength {
      var h := t[..MaxLength];
      CollapsedSlice(t, 0, MaxLength);
      var r := h + Ellipsis;
      assert forall i :: 0 <= i < |h| ==> r[i] == h[i];
      assert forall i :: |h| <= i < |r| ==> r[i] == '.';
    }
  }

  /** `fetchCaptions(captionUrl)`: the caption XML is requested with the srv3 format; a failed
      request, a non-2xx status or a document without elements gives `None`. */
  function FetchCaptions(baseUrl: string, web: Web): (r: Option<string>)
    ensures !IsOk(web(baseUrl + FormatSuffix)) ==> r.None?
    ensures IsOk(web(baseUrl + FormatSuffix)) ==> r == Transcript(web(baseUrl + FormatSuffix).text)
    ensures r.Some? ==> |r.value| <= MaxLength + |Ellipsis|
  {
    var reply := web(baseUrl + FormatSuffix);
    if !IsOk(reply) then None else Transcript(reply.text)
  }

  // ---------------------------------------------------------------------------------------------
  // Round trip: a caption document built from elements yields those elements
  // ---------------------------------------------------------------------------------------------

  /** A caption document: each element preceded by text without markup. */
  function Document(gaps: seq<string>, tags: seq<TextTag>): string
    requires |gaps| == |tags|
  {
    if |tags| == 0 then [] else gaps[0] + Markup(tags[0]) + Document(gaps[1..], tags[1..])
  }

  /** An element is matched in full, whatever follows it. */
  lemma {:induction false} MarkupMatchedWith(open: string, close: string, t: TextTag, rest: string)
    requires ValidTag(t) && |close| > 0 && close[0] == '<'
    ensures ElementWith(open, close, MarkupWith(open, close, t) + rest) == Some(t)
  {
    var b := t.content + close + rest;
    var a := t.attrs + ['>'] + b;
    var s := MarkupWith(open, close, t) + rest;
    OpenSplit(open, close, t, rest);
    FirstAfter(t.attrs, '>', b);
    ContentRun(t.content, close, rest);
    ElementWithAt(open, close, s, |t.attrs|, |t.content|);
  }

  /** After the opening text come the attributes, `>` and the rest of the element. */
  lemma {:induction false} OpenSplit(open: string, close: string, t: TextTag, rest: string)
    ensures var s := MarkupWith(open, close, t) + rest;
      open <= s && s[|open|..] == t.attrs + ['>'] + (t.content + close + rest)
  {
    var a := t.attrs + ['>'] + (t.content + close + rest);
    assert MarkupWith(open, close, t) + rest == open + a;
    SplitAfter(open, a);
  }

  /** The content run stops at the `<` that opens the closing tag. */
  lemma {:induction false} ContentRun(content: string, close: string, rest: string)
    requires '<' !in content && |close| > 0 && close[0] == '<'
    ensures var b := content + close + rest;
      FirstIndexOfChar(b, '<') == Some(|content|) && b[..|content|] == content && close <= b[|content|..]
  {
    var b := content + close + rest;
    assert b == content + ['<'] + (close[1..] + rest);
    FirstAfter(content, '<', close[1..] + rest);
    assert b[|content|..] == close + rest;
  }

  /** The element read when both runs and the closing tag are found. */
  lemma {:induction false} ElementWithAt(open: string, close: string, s: string, i: nat, j: nat)
    requires open <= s
    requires FirstIndexOfChar(s[|open|..], '>') == Some(i)
    requires FirstIndexOfChar(s[|open|..][i + 1..], '<') == Some(j)
    requires close <= s[|open|..][i + 1..][j..]
    ensures ElementWith(open, close, s) == Some(TextTag(s[|open|..][..i], s[|open|..][i + 1..][..j]))
  {
  }

  lemma {:induction false} MarkupMatched(t: TextTag, rest: string)
    requires ValidTag(t)
    ensures TextElement(Markup(t) + rest) == Some(t)
  {
    MarkupMatchedWith(OpenTag, CloseTag, t, rest);
  }

  /** The text after a prefix. */
  lemma {:induction false} SplitAfter(p: string, x: string)
    ensures p <= p + x && (p + x)[|p|..] == x
  {
  }

  /** A character that does not occur in `x` is first found right after `x`. */
  lemma {:induction false} FirstAfter(x: string, c: char, y: string)
    requires c !in x
    ensures FirstIndexOfChar(x + [c] + y, c) == Some(|x|)
    ensures (x + [c] + y)[..|x|] == x && (x + [c] + y)[|x| + 1..] == y
  {
    var s := x + [c] + y;
    assert s[..|x|] == x;
    FirstIndexOfCharAt(s, c, |x|);
  }

  /** Text without `<` holds no element. */
  lemma {:induction false} SkipPlain(g: string, rest: string)
    requires '<' !in g
    ensures TextElements(g + rest) == TextElements(rest)
    decreases |g|
  {
    if |g| > 0 {
      var s := g + rest;
      assert s[0] == g[0];
      assert s[1..] == g[1..] + rest;
      SkipPlain(g[1..], rest);
    } else {
      assert g + rest == rest;
    }
  }

  lemma {:induction false} ElementsOfDocument(gaps: seq<string>, tags: seq<TextTag>, tail: string)
    requires |gaps| == |tags| && '<' !in tail
    requires forall k :: 0 <= k < |tags| ==> '<' !in gaps[k] && ValidTag(tags[k])
    ensures TextElements(Document(gaps, tags) + tail) == tags
    decreases |tags|
  {
    if |tags| == 0 {
      SkipPlain(tail, []);
      assert Document(gaps, tags) + tail == tail + [];
      assert TextElements([]) == [];
    } else {
      var t := tags[0];
      var after := Document(gaps[1..], tags[1..]) + tail;
      assert Document(gaps, tags) + tail == gaps[0] + (Markup(t) + after);
      SkipPlain(gaps[0], Markup(t) + after);
      MarkupMatched(t, after);
      assert (Markup(t) + after)[|Markup(t)|..] == after;
      ElementsOfDocument(gaps[1..], tags[1..], tail);
    }
  }

  /** Re-reading a matched element with `>([^<]*)<` gives back its text: the first `>` closes the
      opening tag and the first `<` after it opens the closing one. */
  lemma {:induction false} InnerOfMarkupWith(open: string, close: string, t: TextTag)
    requires ValidTag(t) && '>' !in open && |close| > 0 && close[0] == '<'
    ensures Inner(MarkupWith(open, close, t)) == t.content
  {
    var m := MarkupWith(open, close, t);
    var i := |open| + |t.attrs|;
    var u := m[i..];
    assert m[..i] == open + t.attrs && u == ">" + t.content + close;
    forall j | 0 <= j < i ensures InnerAt(m[j..]).None? {
      assert m[j..][0] == m[..i][j];
    }
    assert InnerAt(u) == Some(t.content) by {
      assert u[1..] == t.content + close + [];
      ContentRun(t.content, close, []);
    }
    FindFirstAt(InnerAt, m, i);
  }

  lemma {:induction false} InnerOfMarkup(t: TextTag)
    requires ValidTag(t)
    ensures Inner(Markup(t)) == t.content
  {
    InnerOfMarkupWith(OpenTag, CloseTag, t);
  }

  lemma {:induction false} SegmentsOfTags(tags: seq<TextTag>)
    requires forall k :: 0 <= k < |tags| ==> ValidTag(tags[k])
    ensures forall k :: 0 <= k < |tags| ==> Segments(tags)[k] == HtmlEntities.Decode(tags[k].content)
  {
    forall k | 0 <= k < |tags| ensures Segments(tags)[k] == HtmlEntities.Decode(tags[k].content) {
      InnerOfMarkup(tags[k]);
    }
  }

  // ---------------------------------------------------------------------------------------------
  // Preservation: the pipeline keeps every visible character, in order
  // ---------------------------------------------------------------------------------------------

  /** The visible characters of all pieces, in order. */
  function VisibleAll(parts: seq<string>): string {
    if |parts| == 0 then [] else Visible(parts[0]) + VisibleAll(parts[1..])
  }

  lemma {:induction false} VisibleJoin(parts: seq<string>)
    ensures Visible(Join(parts, " ")) == VisibleAll(parts)
    decreases |parts|
  {
    if |parts| == 1 {
      assert VisibleAll(parts[1..]) == [];
    } else if |parts| > 1 {
      VisibleJoin(parts[1..]);
      VisibleAppend(parts[0] + " ", Join(parts[1..], " "));
      VisibleAppend(parts[0], " ");
      assert Visible(" ") == [];
      assert Join(parts, " ") == (parts[0] + " ") + Join(parts[1..], " ");
    }
  }

  lemma {:induction false} VisibleAllFilter(parts: seq<string>)
    ensures VisibleAll(Filter(NonBlank, parts)) == VisibleAll(parts)
    decreases |parts|
  {
    if |parts| > 0 {
      var rest := Filter(NonBlank, parts[1..]);
      VisibleAllFilter(parts[1..]);
      FilterCons(NonBlank, parts);
      if !NonBlank(parts[0]) {
        VisibleOfSpaces(parts[0]);
      } else {
        var f := [parts[0]] + rest;
        assert f[0] == parts[0] && f[1..] == rest;
      }
    }
  }

  /** The transcript holds exactly the visible characters of the decoded pieces, in order; when it
      is cut short, what remains is a prefix of them. */
  lemma {:induction false} TranscriptKeepsText(xml: string)
    requires TextElements(xml) != []
    ensures var r := Transcript(xml).value;
      var v := VisibleAll(Segments(TextElements(xml)));
      && (|r| <= MaxLength ==> Visible(r) == v)
      && (|r| > MaxLength ==> r[MaxLength..] == Ellipsis && Visible(r[..MaxLength]) <= v)
  {
    var texts := Segments(TextElements(xml));
    var kept := Filter(NonBlank, texts);
    var c := Collapse(Join(kept, " "));
    TrimKeepsCollapsed(c);
    VisibleJoin(kept);
    VisibleAllFilter(texts);
    var t := Tidy(texts);
    assert Visible(t) == VisibleAll(texts);
    if |t| > MaxLength {
      VisiblePrefix(t, MaxLength);
      assert Truncate(t)[..MaxLength] == t[..MaxLength];
    }
  }

  // ---------------------------------------------------------------------------------------------
  // A document of plain words reads as the words joined by spaces
  // ---------------------------------------------------------------------------------------------

  /** A caption piece with no markup, no entity and no white space. */
  predicate PlainWord(w: string) {
    |w| > 0 && '<' !in w && '&' !in w && forall i :: 0 <= i < |w| ==> !IsSpace(w[i])
  }

  function Contents(tags: seq<TextTag>): (r: seq<string>)
    ensures |r| == |tags|
    ensures forall k :: 0 <= k < |tags| ==> r[k] == tags[k].content
  {
    seq(|tags|, k requires 0 <= k < |tags| => tags[k].content)
  }

  lemma {:induction false} JoinWordsCollapsed(words: seq<string>)
    requires forall k :: 0 <= k < |words| ==> PlainWord(words[k])
    ensures var j := Join(words, " ");
      Collapsed(j) && (j == [] || (!IsSpace(j[0]) && !IsSpace(j[|j| - 1])))
    decreases |words|
  {
    if |words| > 1 {
      JoinWordsCollapsed(words[1..]);
      var w := words[0];
      var rest := Join(words[1..], " ");
      var j := w + " " + rest;
      assert forall i :: 0 <= i < |w| ==> j[i] == w[i];
      assert j[|w|] == ' ';
      assert forall i :: 0 <= i < |rest| ==> j[|w| + 1 + i] == rest[i];
      assert PlainWord(words[1]);
      assert |rest| > 0;
    }
  }

  lemma {:induction false} FilterKeepsWords(words: seq<string>)
    requires forall k :: 0 <= k < |words| ==> PlainWord(words[k])
    ensures Filter(NonBlank, words) == words
    decreases |words|
  {
    if |words| > 0 {
      FilterKeepsWords(words[1..]);
      assert !AllSpace(words[0]) by {
        assert !IsSpace(words[0][0]);
      }
      assert words == [words[0]] + words[1..];
    }
  }

  /** Captions of plain words, with anything but markup between the elements, give the words
      joined by single spaces. */
  lemma {:induction false} TranscriptOfWords(gaps: seq<string>, tags: seq<TextTag>, tail: string)
    requires |gaps| == |tags| > 0 && '<' !in tail
    requires forall k :: 0 <= k < |tags| ==> '<' !in gaps[k] && '>' !in tags[k].attrs
    requires forall k :: 0 <= k < |tags| ==> PlainWord(tags[k].content)
    requires |Join(Contents(tags), " ")| <= MaxLength
    ensures Transcript(Document(gaps, tags) + tail) == Some(Join(Contents(tags), " "))
  {
    var words := Contents(tags);
    ElementsOfDocument(gaps, tags, tail);
    SegmentsOfTags(tags);
    assert Segments(tags) == words;
    TidyWords(words);
  }

  lemma {:induction false} TidyWords(words: seq<string>)
    requires forall k :: 0 <= k < |words| ==> PlainWord(words[k])
    ensures Tidy(words) == Join(words, " ")
  {
    FilterKeepsWords(words);
    JoinWordsCollapsed(words);
    CollapseCollapsed(Join(words, " "));
    TrimNoEdges(Join(words, " "));
  }
}

=== FILE: channel_stats.dfy ===
/**
 * The channel-stats endpoint, in its two deployments: the Express route and the Vercel function.
 * Both fetch the channel page, scrape three labels out of the page's embedded JSON, parse them and
 * answer 200 with every missing value replaced by the last known figure.
 */
module ChannelStats {
  import opened Wrappers
  import opened Text
  import opened JsNumber
  import opened Scan
  import opened CountParser
  import opened Http

  /** `"subscriberCountText":\s*\{\s*"simpleText":\s*"` */
  const SubscriberPattern: seq<Token> :=
    [Lit("\"subscriberCountText\":"), Spaces, Lit("{"), Spaces, Lit("\"simpleText\":"), Spaces, Lit("\"")]

  /** `"viewCountText":\s*\{\s*"simpleText":\s*"` */
  const ViewPattern: seq<Token> :=
    [Lit("\"viewCountText\":"), Spaces, Lit("{"), Spaces, Lit("\"simpleText\":"), Spaces, Lit("\"")]

  /** `"videosCountText":\s*\{\s*"runs":\s*\[\s*\{\s*"text":\s*"` */
  const VideoPattern: seq<Token> :=
    [Lit("\"videosCountText\":"), Spaces, Lit("{"), Spaces, Lit("\"runs\":"), Spaces, Lit("["),
     Spaces, Lit("{"), Spaces, Lit("\"text\":"), Spaces, Lit("\"")]

  /** The last known figures reported whenever a value is missing. */
  const DefaultSubscribers := 63
  const DefaultViews := 520
  const DefaultVideos := 20

  const FetchFailedMessage := "Failed to fetch channel page"

  /** The three values as scraped, before defaulting. */
  datatype Scraped = Scraped(subscribers: Count, totalViews: Count, videoCount: Count)

  /** The JSON body of every GET response. */
  datatype StatsBody = StatsBody(subscribers: int, totalViews: int, videoCount: int, error: Option<string>)

  datatype HttpResponse = HttpResponse(status: nat, body: Option<StatsBody>)

  lemma {:induction false} PatternsWellFormed()
    ensures WellFormed(SubscriberPattern) && WellFormed(ViewPattern) && WellFormed(VideoPattern)
  {
    LabelPatternWellFormed("\"subscriberCountText\":");
    LabelPatternWellFormed("\"viewCountText\":");
    VideoPatternWellFormed();
  }

  /** The shape shared by the subscriber and view patterns. */
  lemma {:induction false} LabelPatternWellFormed(key: string)
    requires |key| > 0 && key[0] == '"'
    ensures WellFormed([Lit(key), Spaces, Lit("{"), Spaces, Lit("\"simpleText\":"), Spaces, Lit("\"")])
  {
    var p := [Lit(key), Spaces, Lit("{"), Spaces, Lit("\"simpleText\":"), Spaces, Lit("\"")];
    forall i | 0 <= i < |p| && p[i].Lit? ensures |p[i].text| > 0 && p[i].text[0] in "\"{" {
    }
  }

  lemma {:induction false} VideoPatternWellFormed()
    ensures WellFormed(VideoPattern)
  {
    var p := VideoPattern;
    forall i | 0 <= i < |p| && p[i].Lit? ensures |p[i].text| > 0 && p[i].text[0] in "\"{[" {
    }
  }

  /** `parseInt(text.replace(/,/g, '')) || null`. */
  function VideoCount(text: string): (r: Count)
    ensures r.NotANumber? == false
    ensures r.Value? ==> r.n != 0
  {
    match ParseInt(ReplaceAll(text, ",", ""))
    case Some(n) => if n != 0 then Value(n) else Null
    case None => Null
  }

  /** The three extractions; each reads only its own fragment of the page. */
  function Scrape(html: string): (r: Scraped)
    ensures ScrapeFragment(SubscriberPattern, html).None? ==> r.subscribers == Null
    ensures ScrapeFragment(ViewPattern, html).None? ==> r.totalViews == Null
    ensures ScrapeFragment(VideoPattern, html).None? ==> r.videoCount == Null
    ensures ScrapeFragment(SubscriberPattern, html).Some? ==>
      r.subscribers == ParseYouTubeCount(ScrapeFragment(SubscriberPattern, html).value)
    ensures ScrapeFragment(ViewPattern, html).Some? ==>
      r.totalViews == ParseYouTubeCount(ScrapeFragment(ViewPattern, html).value)
    ensures ScrapeFragment(VideoPattern, html).Some? ==>
      r.videoCount == VideoCount(ScrapeFragment(VideoPattern, html).value)
  {
    Scraped(
      match ScrapeFragment(SubscriberPattern, html) case None => Null case Some(t) => ParseYouTubeCount(t),
      match ScrapeFragment(ViewPattern, html) case None => Null case Some(t) => ParseYouTubeCount(t),
      match ScrapeFragment(VideoPattern, html) case None => Null case Some(t) => VideoCount(t))
  }

  /** `value || fallback` for a count. */
  function OrDefault(c: Count, fallback: int): (r: int)
    ensures CountParser.Truthy(c) ==> r == c.n
    ensures !CountParser.Truthy(c) ==> r == fallback
  {
    if CountParser.Truthy(c) then c.n else fallback
  }

  /** The response body when everything was fetched: each value, or its default when falsy. */
  function Report(s: Scraped): (r: StatsBody)
    ensures r.error.None?
    ensures r.subscribers == (if CountParser.Truthy(s.subscribers) then s.subscribers.n else DefaultSubscribers)
    ensures r.totalViews == (if CountParser.Truthy(s.totalViews) then s.totalViews.n else DefaultViews)
    ensures r.videoCount == (if CountParser.Truthy(s.videoCount) then s.videoCount.n else DefaultVideos)
  {
    StatsBody(OrDefault(s.subscribers, DefaultSubscribers), OrDefault(s.totalViews, DefaultViews),
              OrDefault(s.videoCount, DefaultVideos), None)
  }

  /** The response body of the `catch` block. */
  function Fallback(message: string): (r: StatsBody)
    ensures r.error == Some(message)
  {
    StatsBody(DefaultSubscribers, DefaultViews, DefaultVideos, Some(message))
  }

  /** The `try`/`catch` body shared by both deployments. */
  function FetchStats(reply: Reply): (r: StatsBody)
    ensures r.subscribers > 0 && r.totalViews > 0 && r.videoCount != 0
    ensures r.error.None? <==> IsOk(reply)
    ensures reply.Threw? ==> r == Fallback(reply.message)
    ensures reply.Response? && !IsOk(reply) ==> r == Fallback(FetchFailedMessage)
    ensures r.error.Some? ==>
      r.subscribers == DefaultSubscribers && r.totalViews == DefaultViews && r.videoCount == DefaultVideos
    // an OK page is answered with what was scraped from it
    ensures IsOk(reply) ==> r == Report(Scrape(reply.text))
  {
    match reply
    case Threw(msg) => Fallback(msg)
    case Response(_, html) =>
      if !IsOk(reply) then Fallback(FetchFailedMessage)
      else
        var s := Scrape(html);
        assert s.subscribers.Value? ==> s.subscribers.n >= 0;
        assert s.totalViews.Value? ==> s.totalViews.n >= 0;
        Report(s)
  }

  /** The Express route: a GET-only route, so every request fetches the page; the status is always
      the default 200. */
  function ExpressHandler(reply: Reply): (r: HttpResponse)
    ensures r.status == 200 && r.body.Some?
    ensures r.body.value.subscribers > 0 && r.body.value.totalViews > 0 && r.body.value.videoCount != 0
    // an OK page is answered with what was scraped from it, anything else with the defaults
    ensures IsOk(reply) ==> r.body == Some(Report(Scrape(reply.text)))
    ensures !IsOk(reply) ==> r.body.value.error.Some? && r.body.value == Fallback(r.body.value.error.value)
  {
    HttpResponse(200, Some(FetchStats(reply)))
  }

  /** The Vercel function; the flag says whether it fetched the channel page. */
  function VercelHandler(verb: string, reply: Reply): (r: (HttpResponse, bool))
    ensures r.0.status == 200
    ensures r.1 <==> verb != "OPTIONS"
    ensures r.0.body.None? <==> verb == "OPTIONS"
    ensures r.1 ==> r.0 == ExpressHandler(reply)
  {
    if verb == "OPTIONS" then (HttpResponse(200, None), false)
    else (HttpResponse(200, Some(FetchStats(reply))), true)
  }

  /** Whatever goes wrong, the answer is 200 with all three defaults and the error message. */
  lemma {:induction false} FailureReportsDefaults(verb: string, reply: Reply)
    requires verb != "OPTIONS" && !IsOk(reply)
    ensures var (resp, _) := VercelHandler(verb, reply);
      resp.status == 200 && resp.body.Some? && resp.body.value.error.Some?
      && resp.body.value.subscribers == 63 && resp.body.value.totalViews == 520
      && resp.body.value.videoCount == 20
  {
  }

  // ---------------------------------------------------------------------------------------------
  // Round trip: values written into a channel page are scraped back
  // ---------------------------------------------------------------------------------------------

  /** The three fragments as YouTube renders them, without white space. */
  function NoGaps(toks: seq<Token>): (gaps: seq<string>)
    ensures |gaps| == |toks|
    ensures forall i :: 0 <= i < |gaps| ==> gaps[i] == []
  {
    seq(|toks|, _ => [])
  }

  lemma {:induction false} NoGapsAreSpace(toks: seq<Token>)
    ensures forall i :: 0 <= i < |toks| && toks[i].Spaces? ==> AllSpace(NoGaps(toks)[i])
  {
  }

  /** A page whose first `"` opens the subscriber fragment reports the subscriber count written
      there; with YouTube's "N subscribers" label the `b` selects the billions branch. */
  lemma {:induction false} ScrapedSubscribers(prefix: string, n: nat, rest: string)
    requires n > 0 && '"' !in prefix
    ensures var html := prefix + Render(SubscriberPattern, NoGaps(SubscriberPattern))
                        + (Show(n) + " subscribers") + "\"" + rest;
      FetchStats(Response(200, html)).subscribers == n * 1000000000
  {
    var shown := Show(n) + " subscribers";
    PatternsWellFormed();
    NoGapsAreSpace(SubscriberPattern);
    assert '"' !in shown by {
      assert forall i :: 0 <= i < |Show(n)| ==> IsDigit(Show(n)[i]);
    }
    ScrapeRendered(SubscriberPattern, NoGaps(SubscriberPattern), prefix, shown, rest);
    SubscribersLabelReadsAsBillions(n);
  }

  /** A view shown "N views", with N written with thousands separators, is reported as N. */
  lemma {:induction false} ScrapedViews(prefix: string, n: nat, rest: string)
    requires n > 0 && '"' !in prefix
    ensures var html := prefix + Render(ViewPattern, NoGaps(ViewPattern))
                        + (Grouped(n) + " views") + "\"" + rest;
      FetchStats(Response(200, html)).totalViews == n
  {
    var shown := Grouped(n) + " views";
    PatternsWellFormed();
    NoGapsAreSpace(ViewPattern);
    assert '"' !in shown by {
      GroupedAlphabet(n);
    }
    ScrapeRendered(ViewPattern, NoGaps(ViewPattern), prefix, shown, rest);
    ViewsLabelRoundTrip(n);
  }

  lemma {:induction false} VideoFragmentScraped(prefix: string, n: nat, rest: string)
    requires n > 0 && '"' !in prefix
    ensures ScrapeFragment(VideoPattern, prefix + Render(VideoPattern, NoGaps(VideoPattern)) + Grouped(n) + "\"" + rest)
         == Some(Grouped(n))
  {
    PatternsWellFormed();
    NoGapsAreSpace(VideoPattern);
    assert '"' !in Grouped(n) by {
      GroupedAlphabet(n);
    }
    ScrapeRendered(VideoPattern, NoGaps(VideoPattern), prefix, Grouped(n), rest);
  }

  /** A video count written with thousands separators is reported as itself. */
  lemma {:induction false} ScrapedVideos(prefix: string, n: nat, rest: string)
    requires n > 0 && '"' !in prefix
    ensures var html := prefix + Render(VideoPattern, NoGaps(VideoPattern)) + Grouped(n) + "\"" + rest;
      FetchStats(Response(200, html)).videoCount == n
  {
    VideoFragmentScraped(prefix, n, rest);
    GroupedDigits(n);
  }

  /** A page with none of the three fragments reports the three defaults and no error. */
  lemma {:induction false} EmptyPageReportsDefaults(html: string)
    requires '"' !in html
    ensures FetchStats(Response(200, html)) == StatsBody(63, 520, 20, None)
  {
    NeverMatchesWithoutQuote(SubscriberPattern, html);
    NeverMatchesWithoutQuote(ViewPattern, html);
    NeverMatchesWithoutQuote(VideoPattern, html);
  }

  lemma {:induction false} NeverMatchesWithoutQuote(toks: seq<Token>, html: string)
    requires '"' !in html
    requires |toks| > 0 && toks[0].Lit? && |toks[0].text| > 0 && toks[0].text[0] == '"'
    ensures ScrapeFragment(toks, html).None?
  {
    forall j | 0 <= j <= |html| ensures FragmentMatch(toks, html[j..]).None? {
      assert j < |html| ==> html[j..][0] == html[j];
    }
  }
}

=== FILE: count_parser.dfy ===
/**
 * `parseYouTubeCount`, written twice in the repository with the same text (the Express route and
 * the Vercel function): it turns a scraped label such as "1.2K subscribers" or "10,234 views"
 * into a number.
 */
module CountParser {
  import opened Wrappers
  import opened Text
  import opened JsNumber

  /** What `parseYouTubeCount` returns: `null`, `NaN` or an integer. */
  datatype Count = Null | NotANumber | Value(n: int)

  /** JavaScript truthiness of a count, as the `||` defaults read it. */
  predicate Truthy(c: Count) {
    c.Value? && c.n != 0
  }

  /** The characters the cleaning regex `[^0-9KMBkmb.,]` keeps. */
  predicate Kept(c: char) {
    IsDigit(c) || c in "KMBkmb.,"
  }

  function Upper(c: char): char {
    if c == 'k' then 'K' else if c == 'm' then 'M' else if c == 'b' then 'B' else c
  }

  /** `str.replace(/[^0-9KMBkmb.,]/g, '').toUpperCase()`. */
  function Clean(s: string): (r: string)
    ensures |r| <= |s|
    ensures forall i :: 0 <= i < |r| ==> IsDigit(r[i]) || r[i] in "KMB.,"
  {
    if |s| == 0 then []
    else (if Kept(s[0]) then [Upper(s[0])] else []) + Clean(s[1..])
  }

  /** Cleaning keeps a magnitude letter exactly when the input holds it in either case. */
  lemma {:induction false} CleanKeepsLetters(s: string)
    ensures ('K' in Clean(s)) <==> ('K' in s || 'k' in s)
    ensures ('M' in Clean(s)) <==> ('M' in s || 'm' in s)
    ensures ('B' in Clean(s)) <==> ('B' in s || 'b' in s)
    ensures '-' !in Clean(s)
  {
    CleanKeepsLetter(s, 'K', 'k');
    CleanKeepsLetter(s, 'M', 'm');
    CleanKeepsLetter(s, 'B', 'b');
  }

  lemma {:induction false} CleanKeepsLetter(s: string, u: char, l: char)
    requires (u, l) in {('K', 'k'), ('M', 'm'), ('B', 'b')}
    ensures (u in Clean(s)) <==> (u in s || l in s)
    decreases |s|
  {
    if |s| > 0 {
      var head := if Kept(s[0]) then [Upper(s[0])] else [];
      assert Clean(s) == head + Clean(s[1..]);
      CleanKeepsLetter(s[1..], u, l);
      assert u in head <==> s[0] == u || s[0] == l;
      assert s == [s[0]] + s[1..];
    }
  }

  /** `Math.round(parseFloat(t) * scale)`. */
  function Scaled(t: string, scale: nat): (r: Count)
    requires '-' !in t
    ensures r.Value? ==> r.n >= 0
    ensures r.NotANumber? <==> ParseFloat(t).NaN?
  {
    ScaleRound(ParseFloat(t), scale)
  }

  /** `Math.round(x * scale)` as a count. */
  function ScaleRound(x: JsNum, scale: nat): (r: Count)
    ensures r.NotANumber? <==> x.NaN?
    ensures x.Num? && x.v >= 0.0 ==> r.Value? && r.n >= 0
  {
    match Round(match x case NaN => NaN case Num(v) => Num(v * scale as real))
    case NaN => NotANumber
    case Num(v) => Value(v.Floor)
  }

  /** The input names a magnitude: it holds one of the letters K, M or B in either case. */
  predicate HasMagnitudeLetter(s: string) {
    exists i :: 0 <= i < |s| && s[i] in "KMBkmb"
  }

  /** A magnitude letter survives cleaning, upper-cased. */
  lemma {:induction false} MagnitudeLetterInClean(s: string)
    ensures HasMagnitudeLetter(s) <==> 'K' in Clean(s) || 'M' in Clean(s) || 'B' in Clean(s)
  {
    CleanKeepsLetters(s);
    if HasMagnitudeLetter(s) {
      var i :| 0 <= i < |s| && s[i] in "KMBkmb";
      assert s[i] in s;
    }
    if 'K' in s || 'k' in s || 'M' in s || 'm' in s || 'B' in s || 'b' in s {
      var i :| 0 <= i < |s| && s[i] in "KMBkmb";
    }
  }

  function ParseYouTubeCount(s: string): (r: Count)
    ensures s == [] ==> r == Null
    ensures r.Null? ==> s == [] || !HasMagnitudeLetter(s)
    ensures r.NotANumber? ==> HasMagnitudeLetter(s)
    ensures r.Value? ==> r.n >= 0
    ensures r.Value? && !HasMagnitudeLetter(s) ==> r.n > 0
  {
    if s == [] then Null
    else
      CleanKeepsLetters(s);
      var c := Clean(s);
      ReplaceFirstAvoids(c, "K", "", '-');
      ReplaceFirstAvoids(c, "M", "", '-');
      ReplaceFirstAvoids(c, "B", "", '-');
      if 'K' in c then Scaled(ReplaceFirst(c, "K", ""), 1000)
      else if 'M' in c then Scaled(ReplaceFirst(c, "M", ""), 1000000)
      else if 'B' in c then Scaled(ReplaceFirst(c, "B", ""), 1000000000)
      else
        MagnitudeLetterInClean(s);
        assert '-' !in ReplaceAll(c, ",", "");
        match ParseInt(ReplaceAll(c, ",", ""))
        case Some(n) => if n != 0 then Value(n) else Null
        case None => Null
  }

  // ---------------------------------------------------------------------------------------------
  // Round trip: thousands-separated numerals read back exactly
  // ---------------------------------------------------------------------------------------------

  /** Three digits with leading zeros, the group after a thousands separator. */
  function Pad3(k: nat): (r: string)
    requires k < 1000
    ensures |r| == 3 && AllDigits(r)
  {
    [Digit(k / 100), Digit(k / 10 % 10), Digit(k % 10)]
  }

  /** `n` written with a comma between groups of three digits, as YouTube labels counts. */
  function Grouped(n: nat): (r: string)
    ensures |r| >= 1
  {
    if n < 1000 then Show(n) else Grouped(n / 1000) + "," + Pad3(n % 1000)
  }

  lemma {:induction false} Pad3Value(k: nat)
    requires k < 1000
    ensures DigitsValue(Pad3(k)) == k
  {
    var r := Pad3(k);
    assert r[..2][..1] == [r[0]];
    assert DigitsValue(r[..2][..1]) == DigitValue(r[0]);
    assert r[..3] == r;
    assert r[..3][..2] == r[..2];
  }

  lemma {:induction false} ReplaceAllCharAppend(a: string, b: string, p: string, rep: string)
    requires |p| == 1
    ensures ReplaceAll(a + b, p, rep) == ReplaceAll(a, p, rep) + ReplaceAll(b, p, rep)
    decreases |a|
  {
    if |a| == 0 {
      assert a + b == b;
    } else {
      assert (a + b)[1..] == a[1..] + b;
      assert (a + b)[|p|..] == a[|p|..] + b;
      assert p <= a + b <==> p <= a;
      ReplaceAllCharAppend(a[1..], b, p, rep);
    }
  }

  /** Removing the separators of one more group appends its three digits. */
  lemma {:induction false} StripGroup(g: string, k: nat)
    requires k < 1000
    ensures ReplaceAll(g + ("," + Pad3(k)), ",", "") == ReplaceAll(g, ",", "") + Pad3(k)
  {
    ReplaceAllCharAppend(g, "," + Pad3(k), ",", "");
    ReplaceAllCharAppend(",", Pad3(k), ",", "");
    assert ReplaceAll(",", ",", "") == "";
    assert ',' !in Pad3(k);
  }

  /** Removing the separators of `Grouped(n)` leaves a numeral of value `n`. */
  lemma {:induction false} UngroupedValue(n: nat)
    ensures var d := ReplaceAll(Grouped(n), ",", "");
      |d| >= 1 && AllDigits(d) && DigitsValue(d) == n && (n > 0 ==> d[0] != '0')
    decreases n
  {
    if n < 1000 {
      assert ',' !in Show(n);
    } else {
      var q, k := n / 1000, n % 1000;
      UngroupedValue(q);
      var d0 := ReplaceAll(Grouped(q), ",", "");
      assert Grouped(n) == Grouped(q) + ("," + Pad3(k));
      StripGroup(Grouped(q), k);
      AppendGroupValue(d0, q, k);
    }
  }

  /** Appending a three-digit group multiplies by 1000 and adds the group. */
  lemma {:induction false} AppendGroupValue(d0: string, q: nat, k: nat)
    requires k < 1000 && q > 0
    requires |d0| >= 1 && AllDigits(d0) && DigitsValue(d0) == q && d0[0] != '0'
    ensures var d := d0 + Pad3(k);
      |d| >= 1 && AllDigits(d) && DigitsValue(d) == q * 1000 + k && d[0] != '0'
  {
    DigitsValueAppend(d0, Pad3(k));
    Pad3Value(k);
    assert Pow10(3) == 1000;
    assert (d0 + Pad3(k))[0] == d0[0];
  }

  lemma {:induction false} CleanKeepsNumerals(s: string)
    requires forall i :: 0 <= i < |s| ==> IsDigit(s[i]) || s[i] == ',' || s[i] == '.'
    ensures Clean(s) == s
    decreases |s|
  {
    if |s| > 0 {
      CleanKeepsNumerals(s[1..]);
      assert s == [s[0]] + s[1..];
    }
  }

  lemma {:induction false} GroupedAlphabet(n: nat)
    ensures forall i :: 0 <= i < |Grouped(n)| ==> IsDigit(Grouped(n)[i]) || Grouped(n)[i] == ','
    decreases n
  {
    if n >= 1000 {
      GroupedAlphabet(n / 1000);
    }
  }

  /** Input without magnitude letters takes the plain branch. */
  lemma {:induction false} PlainBranch(s: string, n: nat)
    requires s != [] && !HasMagnitudeLetter(s) && n != 0
    requires ParseInt(ReplaceAll(Clean(s), ",", "")) == Some(n)
    ensures ParseYouTubeCount(s) == Value(n)
  {
    MagnitudeLetterInClean(s);
  }

  lemma {:induction false} GroupedDigits(n: nat)
    requires n > 0
    ensures ParseInt(ReplaceAll(Grouped(n), ",", "")) == Some(n)
  {
    UngroupedValue(n);
    ParseIntOfDigits(ReplaceAll(Grouped(n), ",", ""));
  }

  lemma {:induction false} GroupedIsClean(n: nat)
    ensures !HasMagnitudeLetter(Grouped(n)) && Clean(Grouped(n)) == Grouped(n)
  {
    GroupedAlphabet(n);
    CleanKeepsNumerals(Grouped(n));
  }

  /** "10,234" reads as 10234: every positive number written with thousands separators reads back
      as itself. */
  lemma {:induction false} GroupedRoundTrip(n: nat)
    requires n > 0
    ensures ParseYouTubeCount(Grouped(n)) == Value(n)
  {
    GroupedDigits(n);
    GroupedIsClean(n);
    PlainBranch(Grouped(n), n);
  }

  /** A digit run without a leading zero reads back through `parseInt`. */
  lemma {:induction false} ParseIntOfDigits(d: string)
    requires |d| >= 1 && AllDigits(d) && (|d| > 1 ==> d[0] != '0')
    ensures ParseInt(d) == Some(DigitsValue(d))
  {
    LeadingDigitsOfRun(d, []);
    assert d + [] == d;
    assert LeadingSpaces(d) == 0;
    assert d[0..] == d;
    assert SignOf(d) == (false, d);
    assert |d| >= 2 ==> d[1] != 'x' && d[1] != 'X';
    assert d[..|d|] == d;
  }

  // ---------------------------------------------------------------------------------------------
  // Round trip: abbreviated labels with one decimal read back as the scaled value
  // ---------------------------------------------------------------------------------------------

  /** The multiplier a magnitude letter stands for. */
  function Magnitude(letter: char): nat
    requires letter in "KMB"
  {
    if letter == 'K' then 1000 else if letter == 'M' then 1000000 else 1000000000
  }

  lemma {:induction false} MagnitudeTens(letter: char)
    requires letter in "KMB"
    ensures Magnitude(letter) % 10 == 0
  {
  }

  /** The numeral of `a`, a decimal point and the single digit `d`. */
  function OneDecimal(a: nat, d: nat): (r: string)
    requires d < 10
    ensures forall i :: 0 <= i < |r| ==> IsDigit(r[i]) || r[i] == '.'
  {
    Show(a) + ("." + [Digit(d)] + [])
  }

  /** `parseFloat` reads `a.d` as `a + d/10`, stated in tenths. */
  lemma {:induction false} ParseFloatOneDecimal(a: nat, d: nat)
    requires d < 10
    ensures ParseFloat(OneDecimal(a, d)).Num?
    ensures ParseFloat(OneDecimal(a, d)).v * 10.0 == (10 * a + d) as real
  {
    var u := OneDecimal(a, d);
    assert ParseFloat(u) == Num(a as real + FractionValue([Digit(d)])) by {
      FractionPrefixOf(Show(a), [Digit(d)], []);
      assert u[0] == Show(a)[0];
      ParseFloatUnsigned(u);
    }
    assert FractionValue([Digit(d)]) == d as real / 10.0 by {
      assert [Digit(d)][..0] == [];
      assert DigitsValue([Digit(d)]) == d;
      assert Pow10(1) == 10;
    }
    TenthsOf(a, d);
  }

  lemma TenthsOf(a: nat, d: nat)
    ensures (a as real + d as real / 10.0) * 10.0 == (10 * a + d) as real
  {
  }

  /** Dropping the final character of `u + [c]`, when `c` occurs nowhere else. */
  lemma {:induction false} ReplaceLastChar(u: string, c: char)
    requires c !in u
    ensures ReplaceFirst(u + [c], [c], "") == u
  {
    var s := u + [c];
    assert OccursAt(s, [c], |u|);
    forall j | 0 <= j < |u| ensures !OccursAt(s, [c], j) {
      assert s[j..j + 1] == [u[j]];
    }
    assert IndexOf(s, [c]) == Some(|u|);
    assert s[..|u|] == u;
  }

  /** Input whose cleaned form holds magnitude letter `letter`, and no letter tested before it,
      takes that letter's branch. */
  lemma {:induction false} LetterBranch(s: string, letter: char)
    requires s != [] && letter in "KMB" && letter in Clean(s)
    requires letter != 'K' ==> 'K' !in Clean(s)
    requires letter == 'B' ==> 'M' !in Clean(s)
    ensures ParseYouTubeCount(s) == Scaled(ReplaceFirst(Clean(s), [letter], ""), Magnitude(letter))
  {
  }

  /** Scaling a value that lands on an integer gives that integer. */
  lemma {:induction false} ScaledExact(t: string, m: nat, x: real, v: nat)
    requires '-' !in t && ParseFloat(t) == Num(x) && x * m as real == v as real
    ensures Scaled(t, m) == Value(v)
  {
    ScaleRoundWhole(x, m, v);
  }

  lemma {:induction false} ScaleRoundWhole(x: real, m: nat, v: nat)
    requires x * m as real == v as real
    ensures ScaleRound(Num(x), m) == Value(v)
  {
    RoundWhole(x * m as real, v);
    assert (v as real).Floor == v;
  }

  /** Rounding a whole number gives that number. */
  lemma {:induction false} RoundWhole(y: real, v: nat)
    requires y == v as real
    ensures Round(Num(y)) == Num(v as real)
  {
    assert (v as real + 0.5).Floor == v;
  }

  lemma {:induction false} TenthsTimes(x: real, n: nat, t: nat, m: nat, v: nat)
    requires x * 10.0 == n as real && m == 10 * t && v == n * t
    ensures x * m as real == v as real
  {
    calc {
      x * m as real;
      x * (10.0 * t as real);
      (x * 10.0) * t as real;
      n as real * t as real;
    }
  }

  /** Scaling a value of `n` tenths by ten times `t` gives `n * t` exactly. */
  lemma {:induction false} ScaledTenths(u: string, t: nat, n: nat)
    requires '-' !in u && ParseFloat(u).Num? && ParseFloat(u).v * 10.0 == n as real
    ensures Scaled(u, 10 * t) == Value(n * t)
  {
    var x, m, v := ParseFloat(u).v, 10 * t, n * t;
    TenthsTimes(x, n, t, m, v);
    ScaledExact(u, m, x, v);
  }

  lemma {:induction false} ScaledOneDecimal(a: nat, d: nat, m: nat)
    requires d < 10 && m % 10 == 0
    ensures Scaled(OneDecimal(a, d), m) == Value((10 * a + d) * (m / 10))
  {
    ParseFloatOneDecimal(a, d);
    var t := m / 10;
    ScaledTenths(OneDecimal(a, d), t, 10 * a + d);
    assert 10 * t == m;
  }

  lemma {:induction false} OneDecimalLabelIsClean(a: nat, d: nat, letter: char)
    requires d < 10 && letter in "KMB"
    ensures Clean(OneDecimal(a, d) + [letter]) == OneDecimal(a, d) + [letter]
  {
    var u := OneDecimal(a, d);
    CleanKeepsNumerals(u);
    CleanAppend(u, [letter]);
    assert Clean([letter]) == [letter];
  }

  /** A label `a.dL` takes the branch of its letter L and scales `a.d`. */
  lemma {:induction false} OneDecimalLabelBranch(a: nat, d: nat, letter: char)
    requires d < 10 && letter in "KMB"
    ensures ParseYouTubeCount(OneDecimal(a, d) + [letter]) == Scaled(OneDecimal(a, d), Magnitude(letter))
  {
    var u := OneDecimal(a, d);
    OneDecimalLabelIsClean(a, d, letter);
    assert (u + [letter])[|u|] == letter;
    assert 'K' !in u && 'M' !in u && letter !in u;
    assert 'K' in u + [letter] ==> letter == 'K';
    assert 'M' in u + [letter] ==> letter == 'M';
    LetterBranch(u + [letter], letter);
    ReplaceLastChar(u, letter);
  }

  /** "1.2K" reads as 1200: a label `a.dL` with magnitude letter L reads as `(a + d/10) * L`, that is
      `10a + d` tenths of L. */
  lemma {:induction false} AbbreviatedRoundTrip(a: nat, d: nat, letter: char)
    requires d < 10 && letter in "KMB"
    ensures ParseYouTubeCount(OneDecimal(a, d) + [letter]) == Value((10 * a + d) * (Magnitude(letter) / 10))
  {
    MagnitudeTens(letter);
    ScaledOneDecimal(a, d, Magnitude(letter));
    OneDecimalLabelBranch(a, d, letter);
  }

  lemma {:induction false} CleanAppend(a: string, b: string)
    ensures Clean(a + b) == Clean(a) + Clean(b)
    decreases |a|
  {
    if |a| > 0 {
      assert (a + b)[1..] == a[1..] + b;
      CleanAppend(a[1..], b);
    } else {
      assert a + b == b;
    }
  }

  lemma {:induction false} CleanDropsAll(s: string)
    requires forall i :: 0 <= i < |s| ==> !Kept(s[i])
    ensures Clean(s) == []
    decreases |s|
  {
    if |s| > 0 {
      CleanDropsAll(s[1..]);
    }
  }

  lemma {:induction false} CleanJoin(a: string, b: string, ca: string, cb: string)
    requires Clean(a) == ca && Clean(b) == cb
    ensures Clean(a + b) == ca + cb
  {
    CleanAppend(a, b);
  }

  lemma {:induction false} OccursAtChar(s: string, c: char, j: int)
    ensures OccursAt(s, [c], j) <==> 0 <= j < |s| && s[j] == c
  {
    if 0 <= j < |s| {
      assert s[j..j + 1] == [s[j]];
    }
  }

  // ---------------------------------------------------------------------------------------------
  // Behaviour on the labels YouTube actually serves
  // ---------------------------------------------------------------------------------------------

  lemma {:induction false} CleanLetterB(w: string, rest: string)
    requires w == ['b'] + rest && forall i :: 0 <= i < |rest| ==> !Kept(rest[i])
    ensures Clean(w) == "B"
  {
    CleanDropsAll(rest);
  }

  lemma {:induction false} CleanSu()
    ensures Clean(" su") == ""
  {
    CleanDropsAll(" su");
  }

  lemma {:induction false} CleanBscri()
    ensures Clean("bscri") == "B"
  {
    CleanLetterB("bscri", "scri");
  }

  lemma {:induction false} CleanBers()
    ensures Clean("bers") == "B"
  {
    CleanLetterB("bers", "ers");
  }

  /** The word " subscribers" keeps only its two `b`s, upper-cased. */
  lemma {:induction false} CleanSubscribersWord(w: string)
    requires w == " su" + "bscri" + "bers"
    ensures Clean(w) == "BB"
  {
    CleanSu();
    CleanBscri();
    CleanBers();
    CleanJoin(" su", "bscri", "", "B");
    CleanJoin(" su" + "bscri", "bers", "B", "B");
  }

  /** A numeral followed by a character that cannot continue it is read by `parseFloat` in full. */
  lemma {:induction false} ParseFloatNumeralThenLetter(n: nat, letter: char)
    requires !IsDigit(letter) && letter != '.'
    ensures ParseFloat(Show(n) + [letter]) == Num(n as real)
  {
    IntegerPrefixOf(Show(n), [letter]);
    ParseFloatUnsigned(Show(n) + [letter]);
  }

  lemma {:induction false} ReplaceFirstOfNumeral(n: nat)
    ensures ReplaceFirst(Show(n) + "BB", "B", "") == Show(n) + "B"
  {
    var c := Show(n) + "BB";
    var i := |Show(n)|;
    OccursAtChar(c, 'B', i);
    forall j | 0 <= j < i ensures !OccursAt(c, "B", j) {
      OccursAtChar(c, 'B', j);
    }
    assert IndexOf(c, "B") == Some(i);
    assert c[..i] == Show(n) && c[i + 1..] == "B";
  }

  lemma {:induction false} CleanSubscribersLabel(n: nat)
    ensures Clean(Show(n) + " subscribers") == Show(n) + "BB"
  {
    CleanKeepsNumerals(Show(n));
    CleanSubscribersWord(" subscribers");
    CleanJoin(Show(n), " subscribers", Show(n), "BB");
  }

  lemma {:induction false} ScaledNumeralThenB(n: nat)
    ensures Scaled(Show(n) + "B", 1000000000) == Value(n * 1000000000)
  {
    ParseFloatNumeralThenLetter(n, 'B');
    assert '-' !in Show(n) + "B";
    ScaledExact(Show(n) + "B", 1000000000, n as real, n * 1000000000);
  }

  /** The `b` of "subscribers" survives cleaning, so a plain subscriber label takes the billions
      branch: "63 subscribers" reads as 63,000,000,000. */
  lemma {:induction false} SubscribersLabelReadsAsBillions(n: nat)
    ensures ParseYouTubeCount(Show(n) + " subscribers") == Value(n * 1000000000)
  {
    var c := Show(n) + "BB";
    CleanSubscribersLabel(n);
    assert 'K' !in c && 'M' !in c && c[|c| - 1] == 'B';
    LetterBranch(Show(n) + " subscribers", 'B');
    ReplaceFirstOfNumeral(n);
    ScaledNumeralThenB(n);
  }

  lemma {:induction false} CleanNoDigits(s: string)
    requires forall i :: 0 <= i < |s| ==> !IsDigit(s[i])
    ensures forall i :: 0 <= i < |Clean(s)| ==> !IsDigit(Clean(s)[i])
    decreases |s|
  {
    if |s| > 0 {
      CleanNoDigits(s[1..]);
    }
  }

  lemma {:induction false} ReplaceFirstNoDigits(s: string, p: string)
    requires forall i :: 0 <= i < |s| ==> !IsDigit(s[i])
    ensures var r := ReplaceFirst(s, p, ""); forall i :: 0 <= i < |r| ==> !IsDigit(r[i])
  {
    match IndexOf(s, p)
    case None =>
    case Some(i) =>
      var r := s[..i] + s[i + |p|..];
      assert ReplaceFirst(s, p, "") == r;
      assert forall k :: 0 <= k < |r| ==> r[k] in s;
  }

  /** A magnitude letter with no digit anywhere yields NaN, not null: "garbage" reads as NaN because
      its `b` sends it down the billions branch. */
  lemma {:induction false} LetterWithoutDigitsIsNaN(s: string)
    requires HasMagnitudeLetter(s)
    requires forall i :: 0 <= i < |s| ==> !IsDigit(s[i])
    ensures ParseYouTubeCount(s) == NotANumber
  {
    var c := Clean(s);
    MagnitudeLetterInClean(s);
    CleanNoDigits(s);
    ReplaceFirstNoDigits(c, "K");
    ReplaceFirstNoDigits(c, "M");
    ReplaceFirstNoDigits(c, "B");
  }

  /** Without digits or magnitude letters the plain branch finds no number and returns null. */
  lemma {:induction false} NoDigitsIsNull(s: string)
    requires !HasMagnitudeLetter(s)
    requires forall i :: 0 <= i < |s| ==> !IsDigit(s[i])
    ensures ParseYouTubeCount(s) == Null
  {
    var c := Clean(s);
    MagnitudeLetterInClean(s);
    CleanNoDigits(s);
    var d := ReplaceAll(c, ",", "");
    assert forall i :: 0 <= i < |d| ==> !IsHexDigit(d[i]);
  }

  lemma {:induction false} DropThousandsLetter()
    ensures ReplaceFirst("1M2K", "K", "") == "1M2"
  {
    OccursAtChar("1M2K", 'K', 0);
    OccursAtChar("1M2K", 'K', 1);
    OccursAtChar("1M2K", 'K', 2);
    OccursAtChar("1M2K", 'K', 3);
    assert IndexOf("1M2K", "K") == Some(3);
  }

  lemma {:induction false} ScaledOneThenM()
    ensures Scaled("1M2", 1000) == Value(1000)
  {
    IntegerPrefixOf("1", "M2");
    assert "1" + "M2" == "1M2";
    ParseFloatUnsigned("1M2");
    ScaledExact("1M2", 1000, 1.0, 1000);
  }

  /** The letters are tested in the order K, M, B: "1M2K" takes the thousands branch and reads as
      1000. */
  lemma {:induction false} ThousandsLetterWins()
    ensures ParseYouTubeCount("1M2K") == Value(1000)
  {
    assert Clean("1M2K") == "1M2K";
    LetterBranch("1M2K", 'K');
    DropThousandsLetter();
    ScaledOneThenM();
  }

  lemma {:induction false} GarbageIsNaN()
    ensures ParseYouTubeCount("garbage") == NotANumber
  {
    assert "garbage"[3] == 'b';
    LetterWithoutDigitsIsNaN("garbage");
  }

  lemma {:induction false} CleanViewsWord(w: string)
    requires w == " views"
    ensures Clean(w) == ""
  {
    CleanDropsAll(w);
  }

  /** A view label such as "10,234 views" holds no magnitude letter and reads as its number. */
  lemma {:induction false} ViewsLabelRoundTrip(n: nat)
    requires n > 0
    ensures ParseYouTubeCount(Grouped(n) + " views") == Value(n)
  {
    var s := Grouped(n) + " views";
    GroupedIsClean(n);
    CleanViewsWord(" views");
    CleanJoin(Grouped(n), " views", Grouped(n), "");
    assert Clean(s) == Grouped(n);
    assert !HasMagnitudeLetter(s) by {
      MagnitudeLetterInClean(s);
      MagnitudeLetterInClean(Grouped(n));
    }
    GroupedDigits(n);
    PlainBranch(s, n);
  }
}

=== FILE: description_typewriter.dfy ===
/**
 * The episode page's description typewriter: after a short delay an interval timer appends one
 * character of the text per tick, and the tick after the last character stops the timer and
 * removes the cursor. Each tick is one `Tick`.
 */
module DescriptionTypewriter {

  const StartDelay := 500
  /** The speed `renderEpisode` passes for the description. */
  const DescriptionSpeed := 7

  /** The counter `i`, the text node's content, and whether the timer has been cleared. */
  datatype Typing = Typing(i: nat, shown: string, done: bool)

  /** Between ticks the text node holds the first `i` characters. */
  predicate Inv(text: string, t: Typing) {
    t.i <= |text| && t.shown == text[..t.i] && (t.done ==> t.i == |text|)
  }

  const Initial := Typing(0, [], false)

  /** One run of the interval callback. A cleared timer does not run again. */
  function Tick(text: string, t: Typing): (r: Typing)
    requires Inv(text, t)
    ensures Inv(text, r)
    ensures !t.done && t.i < |text| ==> r == Typing(t.i + 1, t.shown + [text[t.i]], false)
    ensures !t.done && t.i == |text| ==> r == t.(done := true)
    ensures t.done ==> r == t
  {
    if t.done then t
    else if t.i < |text| then
      assert text[..t.i + 1] == text[..t.i] + [text[t.i]];
      Typing(t.i + 1, t.shown + [text[t.i]], false)
    else Typing(t.i, t.shown, true)
  }

  /** The state after `k` ticks. */
  function Ticks(text: string, k: nat): (r: Typing)
    ensures Inv(text, r)
  {
    if k == 0 then Initial else Tick(text, Ticks(text, k - 1))
  }

  /** After `k` ticks the node holds the first `k` characters, and the timer stops exactly on the
      tick after the last one, leaving the whole text. */
  lemma {:induction false} AfterTicks(text: string, k: nat)
    ensures Ticks(text, k).shown == text[..if k < |text| then k else |text|]
    ensures Ticks(text, k).done <==> k > |text|
  {
    if k > 0 {
      AfterTicks(text, k - 1);
    }
  }
}

=== FILE: episode_page.dfy ===
/**
 * The episode page: which episode a URL shows, the episode built from the summary API with its
 * defaults, topic normalisation, timestamp links, and the related-episodes list.
 */
module EpisodePage {
  import opened Wrappers
  import opened Text
  import opened JsNumber
  import opened Seqs
  import opened Json
  import opened Http

  // ---------------------------------------------------------------------------------------------
  // Timestamps
  // ---------------------------------------------------------------------------------------------

  /** `a * k + b` on JavaScript numbers: NaN in, NaN out. */
  function Scaled(a: JsNum, k: real, b: JsNum): (r: JsNum)
    ensures r.NaN? <==> a.NaN? || b.NaN?
  {
    if a.NaN? || b.NaN? then NaN else Num(a.v * k + b.v)
  }

  /** `parseTimestamp(timestamp)`: "h:m:s" or "m:s", each part read by `Number`; any other count of
      parts gives 0. */
  function ParseTimestamp(timestamp: string): (r: JsNum)
    ensures |Split(timestamp, ':')| !in {2, 3} ==> r == Num(0.0)
    ensures ':' !in timestamp ==> r == Num(0.0)
  {
    var parts := Split(timestamp, ':');
    if ':' !in timestamp then
      assert Join(parts, [':']) == timestamp;
      assert |parts| == 1 by {
        if |parts| > 1 {
          JoinHasSeparator(parts, ':');
        }
      }
      Num(0.0)
    else if |parts| == 3 then
      Scaled(Scaled(ToNumber(parts[0]), 60.0, ToNumber(parts[1])), 60.0, ToNumber(parts[2]))
    else if |parts| == 2 then
      Scaled(ToNumber(parts[0]), 60.0, ToNumber(parts[1]))
    else Num(0.0)
  }

  lemma {:induction false} JoinHasSeparator(parts: seq<string>, sep: char)
    requires |parts| > 1
    ensures sep in Join(parts, [sep])
  {
    var j := Join(parts, [sep]);
    assert j == parts[0] + [sep] + Join(parts[1..], [sep]);
    assert j[|parts[0]|] == sep;
  }

  /** Splitting at a separator that starts after a separator-free part. */
  lemma {:induction false} SplitAfterPart(x: string, sep: char, rest: string)
    requires sep !in x
    ensures Split(x + [sep] + rest, sep) == [x] + Split(rest, sep)
  {
    var s := x + [sep] + rest;
    assert s[..|x|] == x;
    FirstIndexOfCharAt(s, sep, |x|);
    assert s[|x| + 1..] == rest;
  }

  lemma {:induction false} SplitOfPart(x: string, sep: char)
    requires sep !in x
    ensures Split(x, sep) == [x]
  {
  }

  lemma {:induction false} NumeralNoColon(n: nat)
    ensures ':' !in Show(n)
  {
    var s := Show(n);
    assert forall k :: 0 <= k < |s| ==> IsDigit(s[k]);
  }

  /** "h:m:s" reads back as its number of seconds. */
  lemma {:induction false} HoursRoundTrip(h: nat, m: nat, s: nat)
    ensures ParseTimestamp(Show(h) + ":" + Show(m) + ":" + Show(s)) == Num((h * 3600 + m * 60 + s) as real)
  {
    NumeralNoColon(h);
    NumeralNoColon(m);
    NumeralNoColon(s);
    ThreeParts(Show(h), Show(m), Show(s));
    NumberOfNumeral(h);
    NumberOfNumeral(m);
    NumberOfNumeral(s);
    Seconds3(h, m, s);
  }

  lemma {:induction false} Seconds3(h: nat, m: nat, s: nat)
    ensures Scaled(Scaled(Num(h as real), 60.0, Num(m as real)), 60.0, Num(s as real)) == Num((h * 3600 + m * 60 + s) as real)
  {
    assert (h as real * 60.0 + m as real) * 60.0 + s as real == (h * 3600 + m * 60 + s) as real;
  }

  lemma {:induction false} ThreeParts(a: string, b: string, c: string)
    requires ':' !in a && ':' !in b && ':' !in c
    ensures var t := a + ":" + b + ":" + c;
      ParseTimestamp(t) == Scaled(Scaled(ToNumber(a), 60.0, ToNumber(b)), 60.0, ToNumber(c))
  {
    var t := a + ":" + b + ":" + c;
    var tail := b + [':'] + c;
    assert t == a + [':'] + tail;
    SplitAfterPart(a, ':', tail);
    SplitAfterPart(b, ':', c);
    SplitOfPart(c, ':');
    assert Split(t, ':') == [a, b, c];
    assert t[|a|] == ':';
  }

  /** "m:s" reads back as its number of seconds. */
  lemma {:induction false} MinutesRoundTrip(m: nat, s: nat)
    ensures ParseTimestamp(Show(m) + ":" + Show(s)) == Num((m * 60 + s) as real)
  {
    NumeralNoColon(m);
    NumeralNoColon(s);
    TwoParts(Show(m), Show(s));
    NumberOfNumeral(m);
    NumberOfNumeral(s);
    Seconds2(m, s);
  }

  lemma {:induction false} Seconds2(m: nat, s: nat)
    ensures Scaled(Num(m as real), 60.0, Num(s as real)) == Num((m * 60 + s) as real)
  {
    assert m as real * 60.0 + s as real == (m * 60 + s) as real;
  }

  lemma {:induction false} TwoParts(a: string, b: string)
    requires ':' !in a && ':' !in b
    ensures ParseTimestamp(a + ":" + b) == Scaled(ToNumber(a), 60.0, ToNumber(b))
  {
    var t := a + ":" + b;
    assert t == a + [':'] + b;
    SplitAfterPart(a, ':', b);
    SplitOfPart(b, ':');
    assert t[|a|] == ':';
  }

  // ---------------------------------------------------------------------------------------------
  // Topics
  // ---------------------------------------------------------------------------------------------

  /** `t => typeof t === 'string' ? { text: t } : t`. */
  function NormalizeTopic(t: JsonValue): (r: JsonValue)
    ensures t.JStr? ==> r == JObj(map["text" := t])
    ensures !t.JStr? ==> r == t
  {
    if t.JStr? then JObj(map["text" := t]) else t
  }

  /** The topics of a summary as the page keeps them: same count, same order, strings wrapped. */
  function NormalizeTopics(topics: seq<JsonValue>): (r: seq<JsonValue>)
    ensures |r| == |topics|
    ensures forall k :: 0 <= k < |topics| ==> r[k] == NormalizeTopic(topics[k])
  {
    Map(NormalizeTopic, topics)
  }

  /** Normalising twice changes nothing more: every result is already an object or not a string. */
  lemma {:induction false} NormalizeIdempotent(topics: seq<JsonValue>)
    ensures NormalizeTopics(NormalizeTopics(topics)) == NormalizeTopics(topics)
  {
  }

  /** How one topic is drawn. */
  datatype TopicLine =
    | Plain(text: Option<JsonValue>)
    | Linked(text: Option<JsonValue>, timestamp: string, seconds: JsNum)

  /** The list item for a topic, or `None` where the callback throws: reading a property of
      `null`, or calling `split` on a timestamp that is not a string. */
  function TopicItem(topic: JsonValue): (r: Option<TopicLine>)
    ensures r.Some? && r.value.Linked? <==>
      topic.JObj? && Property(topic, "timestamp").Some? && Property(topic, "timestamp").value.JStr?
      && Property(topic, "timestamp").value.s != []
    ensures r.Some? && r.value.Linked? ==> r.value.seconds == ParseTimestamp(r.value.timestamp)
    ensures topic.JStr? ==> r == Some(Plain(Some(topic)))
    // a link shows the topic's own text and timestamp
    ensures r.Some? && r.value.Linked? ==>
      r.value.timestamp == Property(topic, "timestamp").value.s && r.value.text == Property(topic, "text")
    // the callback throws on a `null` topic, or on a truthy timestamp that is not a string
    ensures r.None? <==>
      || topic == JNull
      || (Property(topic, "timestamp").Some? && Json.Truthy(Property(topic, "timestamp").value)
          && !Property(topic, "timestamp").value.JStr?)
    // an object without a truthy timestamp is its text alone; any other value has no text
    ensures topic.JObj? && !(Property(topic, "timestamp").Some? && Json.Truthy(Property(topic, "timestamp").value)) ==>
      r == Some(Plain(Property(topic, "text")))
    ensures !topic.JObj? && !topic.JStr? && topic != JNull ==> r == Some(Plain(None))
  {
    match topic
    case JStr(_) => Some(Plain(Some(topic)))
    case JNull => None
    case JObj(_) =>
      var ts := Property(topic, "timestamp");
      if ts.Some? && Json.Truthy(ts.value) then
        if ts.value.JStr? then Some(Linked(Property(topic, "text"), ts.value.s, ParseTimestamp(ts.value.s)))
        else None
      else Some(Plain(Property(topic, "text")))
    case _ => Some(Plain(None))
  }

  /** A topic `{text, timestamp: "m:s"}` becomes a link showing its text and timestamp that seeks
      to `m * 60 + s` seconds. */
  lemma {:induction false} TimestampedTopicLinks(text: string, m: nat, s: nat)
    ensures var stamp := Show(m) + ":" + Show(s);
      TopicItem(JObj(map["text" := JStr(text), "timestamp" := JStr(stamp)]))
        == Some(Linked(Some(JStr(text)), stamp, Num((m * 60 + s) as real)))
  {
    var stamp := Show(m) + ":" + Show(s);
    var topic := JObj(map["text" := JStr(text), "timestamp" := JStr(stamp)]);
    assert Property(topic, "timestamp") == Some(JStr(stamp));
    assert Property(topic, "text") == Some(JStr(text));
    assert stamp != [] by { assert stamp[|Show(m)|] == ':'; }
    MinutesRoundTrip(m, s);
  }

  // ---------------------------------------------------------------------------------------------
  // The episode built from the summary API
  // ---------------------------------------------------------------------------------------------

  const DefaultTitle := "Episode"
  const DefaultDescription :=
    "Weekly conversation with Ian, Eric, and Kevin on tech, economy, investing, market, and many more..."

  /** The object `fetchEpisodeFromAPI` renders. */
  datatype ApiEpisode = ApiEpisode(
    videoId: string, title: JsonValue, description: JsonValue, publishedAt: JsonValue,
    topics: seq<JsonValue>, keyTakeaways: JsonValue, highlights: JsonValue, aiGenerated: bool)

  /** The episode shown when the API fails or its reply cannot be used; `now` is the ISO time. */
  function Basic(videoId: string, now: string): ApiEpisode {
    ApiEpisode(videoId, JStr(DefaultTitle), JStr(DefaultDescription), JStr(now), [], JArr([]), JArr([]), false)
  }

  /** The episode built from a decoded reply; `None` when building it throws (properties of `null`,
      `map` on a topics value that is not an array). */
  function FromSummary(videoId: string, data: JsonValue, now: string): (r: Option<ApiEpisode>)
    ensures r.Some? ==> r.value.aiGenerated && r.value.videoId == videoId
    ensures r.Some? ==> r.value.title == Or(Property(data, "title"), JStr(DefaultTitle))
    ensures r.Some? ==>
      r.value.keyTakeaways == Or(Property(data, "keyTakeaways"), JArr([]))
      && r.value.highlights == Or(Property(data, "highlights"), JArr([]))
    ensures r.Some? ==>
      r.value.description == Or(Property(data, "description"), JStr(DefaultDescription))
      && r.value.publishedAt == Or(Property(data, "generatedAt"), JStr(now))
    // missing topics read as no topics; string topics are wrapped, in order
    ensures r.Some? ==>
      var t := Or(Property(data, "topics"), JArr([]));
      t.JArr? && r.value.topics == NormalizeTopics(t.items)
    ensures r.None? <==> data == JNull || (var t := Or(Property(data, "topics"), JArr([])); !t.JArr?)
  {
    if data == JNull then None
    else
      var topics := Or(Property(data, "topics"), JArr([]));
      if !topics.JArr? then None
      else
        Some(ApiEpisode(
          videoId,
          Or(Property(data, "title"), JStr(DefaultTitle)),
          Or(Property(data, "description"), JStr(DefaultDescription)),
          Or(Property(data, "generatedAt"), JStr(now)),
          NormalizeTopics(topics.items),
          Or(Property(data, "keyTakeaways"), JArr([])),
          Or(Property(data, "highlights"), JArr([])),
          true))
  }

  /** `fetchEpisodeFromAPI(videoId)`: `reply` is the summary request, `readJson` is
      `response.json()`. */
  function FetchEpisode(videoId: string, reply: Reply, readJson: string -> Result<JsonValue>, now: string): (r: ApiEpisode)
    ensures r.videoId == videoId
    ensures !IsOk(reply) ==> r == Basic(videoId, now)
    ensures r.aiGenerated <==> IsOk(reply) && readJson(reply.text).Ok? && FromSummary(videoId, readJson(reply.text).value, now).Some?
    ensures !r.aiGenerated ==> r == Basic(videoId, now)
    // an AI-generated episode is the one built from the decoded reply
    ensures r.aiGenerated ==>
      IsOk(reply) && readJson(reply.text).Ok? && FromSummary(videoId, readJson(reply.text).value, now).Some?
      && r == FromSummary(videoId, readJson(reply.text).value, now).value
  {
    if !IsOk(reply) then Basic(videoId, now)
    else
      match readJson(reply.text)
      case Err(_) => Basic(videoId, now)
      case Ok(data) =>
        match FromSummary(videoId, data, now)
        case None => Basic(videoId, now)
        case Some(e) => e
  }

  /** A reply object with none of the fields gets every default, and no topics. */
  lemma {:induction false} EmptySummaryDefaults(videoId: string, now: string)
    ensures FromSummary(videoId, JObj(map[]), now)
         == Some(ApiEpisode(videoId, JStr(DefaultTitle), JStr(DefaultDescription), JStr(now), [], JArr([]), JArr([]), true))
  {
    assert NormalizeTopics([]) == [];
  }

  /** A summary with all its fields set is shown as it is, with its topics normalised. */
  lemma {:induction false} CompleteSummaryShown(videoId: string, summary: Object, now: string, title: string,
                             topics: seq<JsonValue>)
    requires "title" in summary && summary["title"] == JStr(title) && title != []
    requires "topics" in summary && summary["topics"] == JArr(topics)
    ensures var r := FromSummary(videoId, JObj(summary), now);
      r.Some? && r.value.title == JStr(title) && r.value.topics == NormalizeTopics(topics)
  {
  }

  // ---------------------------------------------------------------------------------------------
  // Which episode a URL shows, and the related list
  // ---------------------------------------------------------------------------------------------

  /** An entry of the built-in episode catalogue (the fields the page logic reads). */
  datatype Episode = Episode(videoId: string, title: string, duration: Option<string>)

  /** `urlParams.get('v') || urlParams.get('id')`; an empty value is falsy. */
  function RequestedId(v: Option<string>, id: Option<string>): (r: Option<string>)
    ensures r.Some? ==> r.value != [] && (r == v || r == id)
    ensures v.Some? && v.value != [] ==> r == v
    ensures r.None? <==> (v.None? || v.value == []) && (id.None? || id.value == [])
  {
    if v.Some? && v.value != [] then v
    else if id.Some? && id.value != [] then id
    else None
  }

  /** The catalogue entry keyed by `videoId`; keys are the episodes' ids, so the first match. */
  function Lookup(catalog: seq<Episode>, videoId: string): (r: Option<Episode>)
    ensures r.Some? ==> r.value in catalog && r.value.videoId == videoId
    ensures r.None? <==> forall k :: 0 <= k < |catalog| ==> catalog[k].videoId != videoId
  {
    if |catalog| == 0 then None
    else if catalog[0].videoId == videoId then Some(catalog[0])
    else Lookup(catalog[1..], videoId)
  }

  /** What the page shows: the first catalogue episode, a catalogue episode, or one from the API. */
  datatype Shown = FirstInCatalog | FromCatalog(episode: Episode) | FromApi(videoId: string)

  /** The related list: cards, or the "coming soon" note. */
  datatype Related = Cards(episodes: seq<Episode>) | ComingSoon

  const ComingSoonMessage := "More episodes coming soon!"
  const MaxRelated := 3

  /** `renderRelatedEpisodes(currentVideoId)`: the first three other episodes, in catalogue order. */
  function RelatedEpisodes(catalog: seq<Episode>, current: string): (r: Related)
    ensures r.Cards? ==> 0 < |r.episodes| <= MaxRelated
    ensures r.Cards? ==> forall k :: 0 <= k < |r.episodes| ==> r.episodes[k].videoId != current
    ensures r.Cards? ==> IsSubseq(r.episodes, catalog)
    ensures r.ComingSoon? <==> forall k :: 0 <= k < |catalog| ==> catalog[k].videoId == current
  {
    var others := Filter((e: Episode) => e.videoId != current, catalog);
    var first := Take(others, MaxRelated);
    FilterIsSubseq((e: Episode) => e.videoId != current, catalog);
    TakeIsSubseq(others, MaxRelated);
    SubseqTrans(first, others, catalog);
    if |first| == 0 then ComingSoon else Cards(first)
  }

  /** With three or fewer other episodes, all of them are listed. */
  lemma {:induction false} FewOthersAllListed(catalog: seq<Episode>, current: string)
    requires |Filter((e: Episode) => e.videoId != current, catalog)| <= MaxRelated
    requires exists k :: 0 <= k < |catalog| && catalog[k].videoId != current
    ensures RelatedEpisodes(catalog, current) == Cards(Filter((e: Episode) => e.videoId != current, catalog))
  {
    var k :| 0 <= k < |catalog| && catalog[k].videoId != current;
    assert catalog[k] in Filter((e: Episode) => e.videoId != current, catalog);
  }

  /** With more than three other episodes, the first three of them in catalogue order are listed. */
  lemma {:induction false} ManyOthersFirstThree(catalog: seq<Episode>, current: string)
    requires |Filter((e: Episode) => e.videoId != current, catalog)| > MaxRelated
    ensures RelatedEpisodes(catalog, current) == Cards(Filter((e: Episode) => e.videoId != current, catalog)[..MaxRelated])
  {
  }

  /** `loadEpisodeFromURL()`: the episode shown and, when an id was given, the related list. */
  function LoadEpisode(catalog: seq<Episode>, v: Option<string>, id: Option<string>): (r: (Shown, Option<Related>))
    ensures RequestedId(v, id).None? <==> r.0 == FirstInCatalog
    ensures RequestedId(v, id).None? <==> r.1.None?
    ensures RequestedId(v, id).Some? ==>
      var vid := RequestedId(v, id).value;
      && (r.0.FromApi? <==> Lookup(catalog, vid).None?)
      // a known id shows its catalogue entry, an unknown one is sent to the API as it is
      && (r.0.FromCatalog? ==> Lookup(catalog, vid) == Some(r.0.episode))
      && (r.0.FromApi? ==> r.0.videoId == vid)
      && r.1 == Some(RelatedEpisodes(catalog, vid))
  {
    match RequestedId(v, id)
    case None => (FirstInCatalog, None)
    case Some(vid) =>
      var shown := match Lookup(catalog, vid) case Some(e) => FromCatalog(e) case None => FromApi(vid);
      (shown, Some(RelatedEpisodes(catalog, vid)))
  }

  /** A catalogue episode requested by id is shown from the catalogue, never fetched. */
  lemma {:induction false} KnownIdIsStatic(catalog: seq<Episode>, k: nat, id: Option<string>)
    requires k < |catalog| && catalog[k].videoId != []
    ensures var r := LoadEpisode(catalog, Some(catalog[k].videoId), id);
      r.0.FromCatalog? && r.0.episode.videoId == catalog[k].videoId
  {
  }
}

=== FILE: hero_typewriter.dfy ===
/**
 * The hero banner's typewriter: it types a word one character per tick, pauses, deletes it one
 * character per tick, pauses again and moves on to the next word, forever. Each call of `type()`
 * is one `Step`; the timer delay it schedules is returned with the new state.
 */
module HeroTypewriter {

  const Words := ["venture capital", "tech", "economy", "investing"]

  const TypeSpeed := 80
  const DeleteSpeed := 50
  const PauseDuration := 2000
  const PauseBeforeType := 500

  /** The closure's variables and the element's text. */
  datatype State = State(wordIndex: nat, charIndex: nat, deleting: bool, paused: bool, text: string)

  /** The state, and the delay in milliseconds before the next step. */
  datatype Tick = Tick(next: State, delay: nat)

  /** The typewriter only works with a non-empty list of non-empty words: typing an empty word
      would never reach its end. */
  predicate ValidWords(words: seq<string>) {
    |words| > 0 && forall k :: 0 <= k < |words| ==> |words[k]| > 0
  }

  /** What holds between steps: the text is the typed part of the current word, typing stops
      before the end of the word and deleting before its start, and a pause comes only between
      words. */
  predicate Inv(words: seq<string>, st: State) {
    && st.wordIndex < |words|
    && st.charIndex <= |words[st.wordIndex]|
    && st.text == words[st.wordIndex][..st.charIndex]
    && (st.deleting ==> st.charIndex > 0)
    && (!st.deleting ==> st.charIndex < |words[st.wordIndex]|)
    && (st.paused ==> !st.deleting && st.charIndex == 0)
  }

  /** The state when a word is about to be typed. */
  function WordStart(w: nat): State {
    State(w, 0, false, false, [])
  }

  lemma {:induction false} StartValid()
    ensures ValidWords(Words) && Inv(Words, WordStart(0))
  {
  }

  /** One call of `type()`. */
  function Step(words: seq<string>, st: State): (r: Tick)
    requires ValidWords(words) && Inv(words, st)
    ensures Inv(words, r.next)
    // a paused step only ends the pause
    ensures st.paused ==> r == Tick(st.(paused := false), PauseBeforeType)
    // typing adds one character and turns to deleting exactly at the end of the word
    ensures !st.paused && !st.deleting ==>
      r.next.wordIndex == st.wordIndex && r.next.charIndex == st.charIndex + 1 && !r.next.paused
      && (r.next.deleting <==> r.next.charIndex == |words[st.wordIndex]|)
      && r.delay == (if r.next.deleting then PauseDuration else TypeSpeed)
    // deleting removes one character; at the start of the word the next word comes, after a pause
    ensures !st.paused && st.deleting ==>
      r.next.charIndex == st.charIndex - 1 && r.delay == DeleteSpeed
      && (r.next.charIndex == 0 <==> r.next.paused)
      && (r.next.deleting <==> r.next.charIndex > 0)
      && r.next.wordIndex == (if r.next.charIndex == 0 then (st.wordIndex + 1) % |words| else st.wordIndex)
  {
    var word := words[st.wordIndex];
    if st.paused then
      Tick(st.(paused := false), PauseBeforeType)
    else if st.deleting then
      var c := st.charIndex - 1;
      var text := word[..c];
      if c == 0 then Tick(State((st.wordIndex + 1) % |words|, 0, false, true, text), DeleteSpeed)
      else Tick(State(st.wordIndex, c, true, false, text), DeleteSpeed)
    else
      var c := st.charIndex + 1;
      var text := word[..c];
      if c == |word| then Tick(State(st.wordIndex, c, true, false, text), PauseDuration)
      else Tick(State(st.wordIndex, c, false, false, text), TypeSpeed)
  }

  /** The state after `n` steps. */
  function Run(words: seq<string>, st: State, n: nat): (r: State)
    requires ValidWords(words) && Inv(words, st)
    ensures Inv(words, r)
    decreases n
  {
    if n == 0 then st else Run(words, Step(words, st).next, n - 1)
  }

  lemma {:induction false} RunAppend(words: seq<string>, st: State, a: nat, b: nat)
    requires ValidWords(words) && Inv(words, st)
    ensures Run(words, st, a + b) == Run(words, Run(words, st, a), b)
    decreases a
  {
    if a > 0 {
      RunAppend(words, Step(words, st).next, a - 1, b);
    }
  }

  /** Typing from any point reaches the whole word, ready to delete. */
  lemma {:induction false} TypesWholeWord(words: seq<string>, w: nat, c: nat)
    requires ValidWords(words) && w < |words| && c < |words[w]|
    ensures Inv(words, State(w, c, false, false, words[w][..c]))
    ensures Run(words, State(w, c, false, false, words[w][..c]), |words[w]| - c)
         == State(w, |words[w]|, true, false, words[w])
    decreases |words[w]| - c
  {
    var st := State(w, c, false, false, words[w][..c]);
    var next := Step(words, st).next;
    assert words[w][..|words[w]|] == words[w];
    if c + 1 < |words[w]| {
      TypesWholeWord(words, w, c + 1);
    }
  }

  /** Deleting from any point empties the word and pauses before the next one. */
  lemma {:induction false} DeletesWholeWord(words: seq<string>, w: nat, c: nat)
    requires ValidWords(words) && w < |words| && 0 < c <= |words[w]|
    ensures Inv(words, State(w, c, true, false, words[w][..c]))
    ensures Run(words, State(w, c, true, false, words[w][..c]), c)
         == State((w + 1) % |words|, 0, false, true, [])
    decreases c
  {
    if c > 1 {
      DeletesWholeWord(words, w, c - 1);
    }
  }

  /** A full cycle: a word takes twice its length in steps plus one pause step, and then the next
      word starts. */
  lemma {:induction false} WordCycle(words: seq<string>, w: nat)
    requires ValidWords(words) && w < |words|
    ensures Inv(words, WordStart(w))
    ensures Run(words, WordStart(w), 2 * |words[w]| + 1) == WordStart((w + 1) % |words|)
  {
    var n := |words[w]|;
    assert words[w][..0] == [];
    TypesWholeWord(words, w, 0);
    var typed := State(w, n, true, false, words[w]);
    assert words[w][..n] == words[w];
    DeletesWholeWord(words, w, n);
    RunAppend(words, WordStart(w), n, n);
    var paused := State((w + 1) % |words|, 0, false, true, []);
    RunAppend(words, WordStart(w), 2 * n, 1);
    assert Run(words, paused, 1) == Run(words, Step(words, paused).next, 0);
  }
}

=== FILE: home_page.dfy ===
/**
 * The home page's video list: durations read from ISO 8601 text, the two ways the list is built
 * (the YouTube Data API with a minimum length, the RSS feed without `#short` entries), the
 * description excerpt, and the split into the featured episode and the grid.
 */
module HomePage {
  import opened Wrappers
  import opened Text
  import opened JsNumber
  import opened Seqs

  /** A video as the page renders it. */
  datatype Video = Video(id: string, title: string, description: string, publishedAt: Option<string>)

  // ---------------------------------------------------------------------------------------------
  // Durations
  // ---------------------------------------------------------------------------------------------

  /** Where the optional group `(\d+)X` stops matching at the start of `s`: its digit run is not
      followed by the designator. */
  predicate NotDesignated(s: string, designator: char) {
    var n := LeadingDigits(s);
    n == 0 || n == |s| || s[n] != designator
  }

  /** One optional group `(?:(\d+)X)?` at the start of `s`: the value it captures (0 when it does
      not match, `parseInt(undefined) || 0`) and the text after it. */
  function Designated(s: string, designator: char): (r: (nat, string))
    ensures NotDesignated(s, designator) <==> r == (0, s)
    ensures !NotDesignated(s, designator) ==>
      var n := LeadingDigits(s); r.1 == s[n + 1..] && r.0 == DigitsValue(s[..n])
  {
    var n := LeadingDigits(s);
    if 0 < n < |s| && s[n] == designator then (DigitsValue(s[..n]), s[n + 1..]) else (0, s)
  }

  /** `parseDuration(duration)`: the first "PT", then optional hours, minutes and seconds. */
  function ParseDuration(d: string): (r: nat)
    ensures !Contains(d, "PT") ==> r == 0
  {
    match IndexOf(d, "PT")
    case None => 0
    case Some(i) => TimeSeconds(d[i + 2..])
  }

  /** The groups after "PT": hours, minutes and seconds, each optional, in that order. */
  function TimeSeconds(t: string): nat {
    var (h, t1) := Designated(t, 'H');
    var (m, t2) := Designated(t1, 'M');
    var (s, _) := Designated(t2, 'S');
    h * 3600 + m * 60 + s
  }

  /** One component of a duration; a zero component is left out, as YouTube writes them. */
  function Part(n: nat, designator: char): string {
    if n == 0 then [] else Show(n) + [designator]
  }

  function TimePart(h: nat, m: nat, s: nat): string {
    Part(h, 'H') + Part(m, 'M') + Part(s, 'S')
  }

  /** The ISO 8601 time-only duration of `h` hours, `m` minutes and `s` seconds. */
  function IsoDuration(h: nat, m: nat, s: nat): string {
    "PT" + TimePart(h, m, s)
  }

  lemma {:induction false} ReadPart(n: nat, c: char, rest: string)
    requires !IsDigit(c)
    requires n == 0 ==> NotDesignated(rest, c)
    ensures Designated(Part(n, c) + rest, c) == (n, rest)
  {
    if n > 0 {
      var ds := Show(n);
      var s := ds + [c] + rest;
      assert s == ds + ([c] + rest);
      LeadingDigitsOfRun(ds, [c] + rest);
      assert s[|ds|] == c && s[|ds| + 1..] == rest;
    } else {
      assert Part(n, c) + rest == rest;
    }
  }

  lemma {:induction false} PartNotDesignated(n: nat, c: char, rest: string, other: char)
    requires !IsDigit(c) && c != other
    requires n == 0 ==> NotDesignated(rest, other)
    ensures NotDesignated(Part(n, c) + rest, other)
  {
    if n > 0 {
      var ds := Show(n);
      assert ds + [c] + rest == ds + ([c] + rest);
      LeadingDigitsOfRun(ds, [c] + rest);
      assert (ds + ([c] + rest))[|ds|] == c;
    } else {
      assert Part(n, c) + rest == rest;
    }
  }

  lemma {:induction false} TimeSecondsOfPart(h: nat, m: nat, s: nat)
    ensures TimeSeconds(TimePart(h, m, s)) == h * 3600 + m * 60 + s
  {
    var tailS := Part(s, 'S');
    var tailM := Part(m, 'M') + tailS;
    assert NotDesignated([], 'S') && NotDesignated([], 'M') && NotDesignated([], 'H');
    assert tailS == tailS + [];
    PartNotDesignated(s, 'S', [], 'M');
    PartNotDesignated(s, 'S', [], 'H');
    PartNotDesignated(m, 'M', tailS, 'H');
    assert TimePart(h, m, s) == Part(h, 'H') + tailM;
    ReadPart(h, 'H', tailM);
    ReadPart(m, 'M', tailS);
    ReadPart(s, 'S', []);
  }

  lemma {:induction false} ParseDurationOfTime(t: string)
    ensures ParseDuration("PT" + t) == TimeSeconds(t)
  {
    var d := "PT" + t;
    assert d[0..2] == "PT" && d[2..] == t;
  }

  /** Reading a duration back gives its length in seconds. */
  lemma {:induction false} DurationRoundTrip(h: nat, m: nat, s: nat)
    ensures ParseDuration(IsoDuration(h, m, s)) == h * 3600 + m * 60 + s
  {
    ParseDurationOfTime(TimePart(h, m, s));
    TimeSecondsOfPart(h, m, s);
  }

  /** A duration of a day or more is written "P#DT…", with no "PT" in it, and reads as 0. */
  lemma {:induction false} DaysReadAsZero(days: nat, h: nat, m: nat, s: nat)
    ensures ParseDuration("P" + Show(days) + "DT" + TimePart(h, m, s)) == 0
  {
    var ds := Show(days);
    var tail := "DT" + TimePart(h, m, s);
    assert 'P' !in tail by {
      TimePartHasNoP(h, m, s);
    }
    assert 'P' !in ds by {
      assert forall k :: 0 <= k < |ds| ==> IsDigit(ds[k]);
    }
    var x := ds + tail;
    assert x[0] == ds[0];
    NoPT(x);
    assert "P" + ds + "DT" + TimePart(h, m, s) == "P" + x;
  }

  lemma {:induction false} TimePartHasNoP(h: nat, m: nat, s: nat)
    ensures 'P' !in "DT" + TimePart(h, m, s)
  {
    NumeralHasNoP(h);
    NumeralHasNoP(m);
    NumeralHasNoP(s);
  }

  lemma {:induction false} NoPT(x: string)
    requires 'P' !in x && (|x| == 0 || x[0] != 'T')
    ensures !Contains("P" + x, "PT")
  {
    var d := "P" + x;
    forall j | 0 <= j <= |d| ensures !OccursAt(d, "PT", j) {
      if j + 2 <= |d| {
        var w := d[j..j + 2];
        assert w[0] == d[j] && w[1] == d[j + 1];
        if j == 0 {
          assert d[1] == x[0];
        } else {
          assert d[j] == x[j - 1];
        }
      }
    }
  }

  lemma {:induction false} NumeralHasNoP(n: nat)
    ensures 'P' !in Part(n, 'H') && 'P' !in Part(n, 'M') && 'P' !in Part(n, 'S')
  {
    if n > 0 {
      var ds := Show(n);
      assert forall k :: 0 <= k < |ds| ==> IsDigit(ds[k]);
    }
  }

  // ---------------------------------------------------------------------------------------------
  // The two lists
  // ---------------------------------------------------------------------------------------------

  const ExcerptLength := 200

  /** `description.substring(0, 200) + '...'`. */
  function Excerpt(d: string): (r: string)
    ensures |r| == (if |d| < ExcerptLength then |d| else ExcerptLength) + 3
    ensures r[..|r| - 3] <= d && EndsWith(r, "...")
    ensures |d| <= ExcerptLength ==> r == d + "..."
  {
    var kept := if |d| < ExcerptLength then d else d[..ExcerptLength];
    assert (kept + "...")[..|kept|] == kept && (kept + "...")[|kept|..] == "...";
    kept + "..."
  }

  /** An item of the uploads playlist. */
  datatype ApiItem = ApiItem(videoId: string, title: string, description: string, publishedAt: string)

  /** `durationMap[videoId]?.duration || 0`, with the ISO durations the details call returned. */
  function Seconds(durations: map<string, string>, videoId: string): nat {
    if videoId in durations then ParseDuration(durations[videoId]) else 0
  }

  /** The filter of `fetchFromYouTubeAPI`: at least a minute long. */
  predicate LongEnough(durations: map<string, string>, item: ApiItem) {
    Seconds(durations, item.videoId) >= 60
  }

  function ApiVideo(item: ApiItem): Video {
    Video(item.videoId, item.title, Excerpt(item.description), Some(item.publishedAt))
  }

  /** The list `fetchFromYouTubeAPI` renders. */
  function ApiVideos(items: seq<ApiItem>, durations: map<string, string>): (r: seq<Video>)
    ensures |r| <= |items|
    ensures forall k :: 0 <= k < |items| && LongEnough(durations, items[k]) ==> ApiVideo(items[k]) in r
    ensures forall v :: v in r ==> exists k :: 0 <= k < |items| && LongEnough(durations, items[k]) && v == ApiVideo(items[k])
  {
    var kept := Filter(item => LongEnough(durations, item), items);
    var r := Map(ApiVideo, kept);
    assert forall k :: 0 <= k < |items| && LongEnough(durations, items[k]) ==> r[IndexIn(kept, items[k])] == ApiVideo(items[k]);
    assert forall v :: v in r ==> exists j :: 0 <= j < |kept| && v == ApiVideo(kept[j]);
    assert forall j :: 0 <= j < |kept| ==> exists k :: 0 <= k < |items| && kept[j] == items[k];
    r
  }

  /** The position of an element of `xs`. */
  function IndexIn<T(==)>(xs: seq<T>, x: T): (k: nat)
    requires x in xs
    ensures k < |xs| && xs[k] == x
  {
    if xs[0] == x then 0 else 1 + IndexIn(xs[1..], x)
  }

  /** An item the details call said nothing about counts as 0 seconds and is dropped. */
  lemma {:induction false} UnknownDurationDropped(items: seq<ApiItem>, durations: map<string, string>, k: nat)
    requires k < |items| && items[k].videoId !in durations
    ensures forall v :: v in ApiVideos(items, durations) ==> v.id != items[k].videoId
  {
  }

  /** The API list keeps the playlist's order: it is the list of one batch followed by the next. */
  lemma {:induction false} ApiVideosAppend(a: seq<ApiItem>, b: seq<ApiItem>, durations: map<string, string>)
    ensures ApiVideos(a + b, durations) == ApiVideos(a, durations) + ApiVideos(b, durations)
  {
    var p := item => LongEnough(durations, item);
    FilterAppend(p, a, b);
    MapAppend(ApiVideo, Filter(p, a), Filter(p, b));
  }

  /** An entry of the RSS feed; `None` is an element or attribute the entry lacks. */
  datatype Entry = Entry(id: Option<string>, title: Option<string>, description: Option<string>, published: Option<string>)

  /** `title?.toLowerCase().includes('#short') || description?.toLowerCase().includes('#short')`. */
  predicate IsShort(title: Option<string>, description: string) {
    (title.Some? && Contains(ToLowerAscii(title.value), "#short")) || Contains(ToLowerAscii(description), "#short")
  }

  /** `id?.textContent?.split(':').pop()`. */
  function EntryVideoId(e: Entry): Option<string> {
    if e.id.Some? then Some(LastSegment(e.id.value, ':')) else None
  }

  /** `videoId && title && !isShort`. */
  predicate Listed(e: Entry) {
    var id := EntryVideoId(e);
    id.Some? && id.value != [] && e.title.Some? && e.title.value != [] && !IsShort(e.title, e.description.GetOr([]))
  }

  /** The video pushed for an entry; only listed entries are pushed. */
  function EntryVideo(e: Entry): Video {
    Video(EntryVideoId(e).GetOr([]), e.title.GetOr([]), Excerpt(e.description.GetOr([])), e.published)
  }

  /** What every pushed video satisfies. */
  predicate Pushed(v: Video) {
    v.id != [] && ':' !in v.id && |v.description| <= ExcerptLength + 3 && !Contains(ToLowerAscii(v.title), "#short")
  }

  lemma {:induction false} ListedIsPushed(e: Entry)
    requires Listed(e)
    ensures Pushed(EntryVideo(e))
  {
  }

  /** The list `fetchFromRSSFeed` renders: the first `maxResults` entries, less the shorts and the
      entries without an id or title. */
  function RssVideos(entries: seq<Entry>, maxResults: nat): (r: seq<Video>)
    ensures |r| <= maxResults
    ensures forall v :: v in r ==> Pushed(v)
    ensures forall k :: 0 <= k < |entries| && k < maxResults && Listed(entries[k]) ==> EntryVideo(entries[k]) in r
    ensures forall v :: v in r ==>
      exists k :: 0 <= k < |entries| && k < maxResults && Listed(entries[k]) && v == EntryVideo(entries[k])
  {
    var kept := Filter(Listed, Take(entries, maxResults));
    KeptArePushed(kept);
    TakenAreKept(entries, maxResults);
    KeptComeFromFirst(entries, maxResults);
    Map(EntryVideo, kept)
  }

  lemma {:induction false} KeptArePushed(kept: seq<Entry>)
    requires forall j :: 0 <= j < |kept| ==> Listed(kept[j])
    ensures forall v :: v in Map(EntryVideo, kept) ==> Pushed(v)
  {
    var r := Map(EntryVideo, kept);
    forall v | v in r ensures Pushed(v) {
      var j :| 0 <= j < |r| && r[j] == v;
      ListedIsPushed(kept[j]);
    }
  }

  lemma {:induction false} TakenAreKept(entries: seq<Entry>, maxResults: nat)
    ensures var r := Map(EntryVideo, Filter(Listed, Take(entries, maxResults)));
      forall k :: 0 <= k < |entries| && k < maxResults && Listed(entries[k]) ==> EntryVideo(entries[k]) in r
  {
    var first := Take(entries, maxResults);
    var kept := Filter(Listed, first);
    var r := Map(EntryVideo, kept);
    forall k | 0 <= k < |entries| && k < maxResults && Listed(entries[k]) ensures EntryVideo(entries[k]) in r {
      assert entries[k] == first[k];
      var j := IndexIn(kept, entries[k]);
      assert r[j] == EntryVideo(entries[k]);
    }
  }

  lemma {:induction false} KeptComeFromFirst(entries: seq<Entry>, maxResults: nat)
    ensures var r := Map(EntryVideo, Filter(Listed, Take(entries, maxResults)));
      forall v :: v in r ==>
        exists k :: 0 <= k < |entries| && k < maxResults && Listed(entries[k]) && v == EntryVideo(entries[k])
  {
    var first := Take(entries, maxResults);
    var kept := Filter(Listed, first);
    var r := Map(EntryVideo, kept);
    forall v | v in r
      ensures exists k :: 0 <= k < |entries| && k < maxResults && Listed(entries[k]) && v == EntryVideo(entries[k])
    {
      var j := IndexIn(r, v);
      var e := kept[j];
      assert Listed(e) && e in first;
      var k := IndexIn(first, e);
      assert first[k] == entries[k];
      assert v == EntryVideo(entries[k]);
    }
  }

  /** The feed is read in order: the videos of the first entries come before those of the later
      ones, and the entries past `maxResults` are never read. */
  lemma {:induction false} RssVideosAppend(a: seq<Entry>, b: seq<Entry>, n: nat)
    ensures RssVideos(a + b, |a| + n) == RssVideos(a, |a|) + RssVideos(b, n)
  {
    assert Take(a + b, |a| + n) == a + Take(b, n);
    assert Take(a, |a|) == a;
    FilterAppend(Listed, a, Take(b, n));
    MapAppend(EntryVideo, Filter(Listed, a), Filter(Listed, Take(b, n)));
  }

  const MaxResults := 12

  // ---------------------------------------------------------------------------------------------
  // Featured episode and grid
  // ---------------------------------------------------------------------------------------------

  datatype Layout = Layout(featured: Video, grid: seq<Video>)

  /** `renderContent(videos)`: the first video is featured and the rest fill the grid; an empty
      list shows the built-in list instead. */
  function RenderContent(videos: seq<Video>, fallback: seq<Video>): (r: Layout)
    requires |fallback| > 0
    ensures |videos| > 0 ==> [r.featured] + r.grid == videos
    ensures |videos| == 0 ==> [r.featured] + r.grid == fallback
  {
    var shown := if |videos| > 0 then videos else fallback;
    assert shown == [shown[0]] + shown[1..];
    Layout(shown[0], shown[1..])
  }

  /** Every video of a non-empty list is on the page exactly once: featured or in the grid. */
  lemma {:induction false} EachVideoShownOnce(videos: seq<Video>, fallback: seq<Video>, k: nat)
    requires |fallback| > 0 && k < |videos|
    ensures var r := RenderContent(videos, fallback);
      (k == 0 ==> r.featured == videos[k]) && (k > 0 ==> r.grid[k - 1] == videos[k])
      && |r.grid| == |videos| - 1
  {
    var r := RenderContent(videos, fallback);
    assert [r.featured] + r.grid == videos;
    assert ([r.featured] + r.grid)[k] == videos[k];
  }
}

=== FILE: html_entities.dfy ===
/**
 * `decodeHtmlEntities`: caption text arrives HTML-escaped (often twice), and is decoded by six
 * global replacements of named entities, `&amp;` first, followed by one pass over numeric entities
 * `&#NNN;`.
 */
module HtmlEntities {
  import opened Text
  import opened JsNumber

  /** The six named-entity passes, in the order they run. */
  function Pass(k: nat): (r: (string, string))
    requires 1 <= k <= 6
    ensures |r.0| > 0 && r.0[0] == '&' && '&' !in r.0[1..]
    ensures |r.1| == 1 && |r.1| < |r.0|
  {
    if k == 1 then ("&amp;", "&")
    else if k == 2 then ("&lt;", "<")
    else if k == 3 then ("&gt;", ">")
    else if k == 4 then ("&quot;", "\"")
    else if k == 5 then ("&#39;", "'")
    else ("&apos;", "'")
  }

  /** The text after the first `k` named passes. */
  function NamedPasses(s: string, k: nat): (r: string)
    requires k <= 6
    ensures |r| <= |s|
    ensures '&' !in s ==> r == s
  {
    if k == 0 then s else ReplaceAll(NamedPasses(s, k - 1), Pass(k).0, Pass(k).1)
  }

  /** `String.fromCharCode(code)`: the code is reduced modulo 2^16. A lone surrogate code cannot be
      held in a Dafny `char`, so it becomes U+FFFD. */
  function CharOf(code: nat): (c: char)
    ensures code < 0xD800 ==> c as int == code
    // the code is reduced modulo 2^16, and a lone surrogate becomes U+FFFD
    ensures !(0xD800 <= code % 0x1_0000 <= 0xDFFF) ==> c as int == code % 0x1_0000
    ensures 0xD800 <= code % 0x1_0000 <= 0xDFFF ==> c == '\U{FFFD}'
  {
    var u := code % 0x1_0000;
    if 0xD800 <= u <= 0xDFFF then '\U{FFFD}' else u as char
  }

  /** The length of a numeric entity `&#digits;` at the start of `s`, if there is one. */
  function NumericEntityLength(s: string): (n: nat)
    ensures n == 0 || (3 < n <= |s| && s[..2] == "&#" && s[n - 1] == ';' && AllDigits(s[2..n - 1]))
  {
    if !("&#" <= s) then 0
    else
      var d := LeadingDigits(s[2..]);
      if d > 0 && 2 + d < |s| && s[2 + d] == ';' then
        assert s[2..2 + d] == s[2..][..d];
        d + 3
      else 0
  }

  /** `.replace(/&#(\d+);/g, (match, dec) => String.fromCharCode(dec))`. */
  function DecodeNumeric(s: string): (r: string)
    ensures |r| <= |s|
    ensures '&' !in s ==> r == s
    decreases |s|
  {
    if |s| == 0 then []
    else
      var n := NumericEntityLength(s);
      if n > 0 then
        [CharOf(DigitsValue(s[2..n - 1]))] + DecodeNumeric(s[n..])
      else
        assert '&' !in s ==> '&' !in s[1..];
        assert s == [s[0]] + s[1..];
        [s[0]] + DecodeNumeric(s[1..])
  }

  /** `decodeHtmlEntities(text)`. */
  function Decode(s: string): (r: string)
    ensures |r| <= |s|
    ensures '&' !in s ==> r == s
  {
    DecodeNumeric(NamedPasses(s, 6))
  }

  // ---------------------------------------------------------------------------------------------
  // Round trip: escaping text that holds no '&' and decoding it gives the text back
  // ---------------------------------------------------------------------------------------------

  /** The pass that decodes the entity `EscapeChar(c)`, or 0 for characters left as they are. */
  function PassOf(c: char): (k: nat)
    ensures k <= 5
  {
    if c == '&' then 1 else if c == '<' then 2 else if c == '>' then 3
    else if c == '"' then 4 else if c == '\'' then 5 else 0
  }

  /** HTML escaping of one character, as caption XML carries it. */
  function EscapeChar(c: char): (r: string)
    ensures PassOf(c) > 0 ==> r == Pass(PassOf(c)).0 && Pass(PassOf(c)).1 == [c]
    ensures PassOf(c) == 0 ==> r == [c]
  {
    if PassOf(c) > 0 then Pass(PassOf(c)).0 else [c]
  }

  function Escape(t: string): string {
    if |t| == 0 then [] else EscapeChar(t[0]) + Escape(t[1..])
  }

  /** How character `c` reads after `k` named passes over its escaped form. */
  function Unit(c: char, k: nat): (r: string)
    requires k <= 6
  {
    if PassOf(c) == 0 || PassOf(c) <= k then [c] else EscapeChar(c)
  }

  /** `Escape(t)` after `k` named passes. */
  function Stage(t: string, k: nat): (r: string)
    requires k <= 6
  {
    if |t| == 0 then [] else Unit(t[0], k) + Stage(t[1..], k)
  }

  lemma {:induction false} StageZero(t: string)
    ensures Stage(t, 0) == Escape(t)
    decreases |t|
  {
    if |t| > 0 {
      StageZero(t[1..]);
    }
  }

  lemma {:induction false} StageDone(t: string, k: nat)
    requires 5 <= k <= 6
    ensures Stage(t, k) == t
    decreases |t|
  {
    if |t| > 0 {
      StageDone(t[1..], k);
      assert t == [t[0]] + t[1..];
    }
  }

  /** Two different entities disagree before either ends, so one never starts the other. */
  lemma {:induction false} EntitiesDiffer(c: char, k: nat, rest: string)
    requires 1 <= k <= 6 && PassOf(c) > k
    ensures !(Pass(k).0 <= EscapeChar(c) + rest)
  {
    var e := EscapeChar(c);
    var p := Pass(k).0;
    assert p[1] != (e + rest)[1];
  }

  /** One named pass over the escaped form of `c` followed by anything. */
  lemma {:induction false} UnitStep(c: char, k: nat, rest: string)
    requires 1 <= k <= 6 && c != '&'
    ensures ReplaceAll(Unit(c, k - 1) + rest, Pass(k).0, Pass(k).1)
         == Unit(c, k) + ReplaceAll(rest, Pass(k).0, Pass(k).1)
  {
    var (p, rep) := Pass(k);
    var u := Unit(c, k - 1);
    if PassOf(c) == 0 || PassOf(c) < k {
      assert u == [c];
      ReplaceAllSkip(u, rest, p, rep);
    } else if PassOf(c) == k {
      assert u == p;
      ReplaceAllAt(p, rest, rep);
    } else {
      EntitiesDiffer(c, k, rest);
      assert u == EscapeChar(c) == Pass(PassOf(c)).0;
      ReplaceAllMiss(u, rest, p, rep);
    }
  }

  lemma {:induction false} PassStep(t: string, k: nat)
    requires 1 <= k <= 6 && '&' !in t
    ensures ReplaceAll(Stage(t, k - 1), Pass(k).0, Pass(k).1) == Stage(t, k)
    decreases |t|
  {
    if |t| > 0 {
      PassStep(t[1..], k);
      UnitStep(t[0], k, Stage(t[1..], k - 1));
    }
  }

  lemma {:induction false} NamedPassesOfEscape(t: string, k: nat)
    ensures k <= 6 && '&' !in t ==> NamedPasses(Escape(t), k) == Stage(t, k)
    decreases k
  {
    if k > 6 || '&' in t {
    } else if k == 0 {
      NoPassesOfEscape(t);
    } else {
      NamedPassesOfEscape(t, k - 1);
      NamedPassOfStage(t, k);
    }
  }

  lemma {:induction false} NoPassesOfEscape(t: string)
    ensures NamedPasses(Escape(t), 0) == Stage(t, 0)
  {
    StageZero(t);
  }

  /** Pass `k` turns stage `k - 1` of an escaped text into stage `k`. */
  lemma {:induction false} NamedPassOfStage(t: string, k: nat)
    requires 1 <= k <= 6 && '&' !in t && NamedPasses(Escape(t), k - 1) == Stage(t, k - 1)
    ensures NamedPasses(Escape(t), k) == Stage(t, k)
  {
    assert NamedPasses(Escape(t), k) == ReplaceAll(NamedPasses(Escape(t), k - 1), Pass(k).0, Pass(k).1);
    PassStep(t, k);
  }

  /** Decoding undoes escaping for text without `&`. */
  lemma {:induction false} DecodeEscape(t: string)
    requires '&' !in t
    ensures Decode(Escape(t)) == t
  {
    NamedPassesOfEscape(t, 6);
    StageDone(t, 6);
  }

  // ---------------------------------------------------------------------------------------------
  // Numeric entities and double escaping
  // ---------------------------------------------------------------------------------------------

  /** A pass whose entity does not start `s` leaves `s` alone when no other `&` follows. */
  lemma {:induction false} PassKeeps(s: string, k: nat)
    requires 1 <= k <= 6 && |s| > 0 && '&' !in s[1..] && !(Pass(k).0 <= s)
    ensures ReplaceAll(s, Pass(k).0, Pass(k).1) == s
  {
    var (p, rep) := Pass(k);
    assert s == [s[0]] + s[1..];
    ReplaceAllSkip(s[1..], [], p, rep);
    assert s[1..] + [] == s[1..];
  }

  /** Passes `1..k` leave `s` alone when none of their entities starts it. */
  lemma {:induction false} NamedPassesKeep(s: string, k: nat)
    requires k <= 6 && |s| > 0 && '&' !in s[1..]
    requires forall j :: 1 <= j <= k ==> !(Pass(j).0 <= s)
    ensures NamedPasses(s, k) == s
    decreases k
  {
    if k > 0 {
      NamedPassesKeep(s, k - 1);
      PassKeeps(s, k);
    }
  }

  /** The text of a numeric entity. */
  function Entity(n: nat): (r: string)
    ensures |r| >= 4 && r[0] == '&' && r[1] == '#' && r[|r| - 1] == ';'
    ensures '&' !in r[1..]
  {
    var r := "&#" + Show(n) + ";";
    assert forall i :: 2 <= i < |r| - 1 ==> r[i] == Show(n)[i - 2];
    assert forall i :: 2 <= i < |r| - 1 ==> IsDigit(r[i]);
    r
  }

  /** Only the numeric entity for 39 is also a named one. */
  lemma {:induction false} EntityNamed(n: nat, j: nat)
    requires 1 <= j <= 6 && Pass(j).0 <= Entity(n)
    ensures j == 5 && n == 39
  {
    var e := Entity(n);
    var p := Pass(j).0;
    assert p[1] == e[1] == '#';
    assert j == 5;
    assert e[4] == ';';
    assert e[2..|e| - 1] == Show(n);
    assert |Show(n)| == 2 by {
      assert forall i :: 2 <= i < |e| - 1 ==> IsDigit(e[i]);
    }
    assert Show(n) == "39";
  }

  /** A numeric entity is decoded to the character with its code, reduced modulo 2^16. */
  lemma {:induction false} NumericEntity(n: nat)
    ensures Decode(Entity(n)) == [CharOf(n)]
    ensures !(0xD800 <= n % 0x1_0000 <= 0xDFFF) ==> Decode(Entity(n)) == [(n % 0x1_0000) as char]
  {
    if n == 39 {
      ApostropheEntity(Entity(n));
    } else {
      var s := Entity(n);
      forall j | 1 <= j <= 6 ensures !(Pass(j).0 <= s) {
        if Pass(j).0 <= s {
          EntityNamed(n, j);
        }
      }
      NamedPassesKeep(s, 6);
      EntityValue(n);
    }
  }

  /** Codes wrap around modulo 2^16: `&#65601;` decodes as `&#65;` does, to `A`. */
  lemma {:induction false} EntityWrapsAround(n: nat)
    ensures Decode(Entity(n + 0x1_0000)) == Decode(Entity(n))
  {
    NumericEntity(n);
    NumericEntity(n + 0x1_0000);
    CharOfWraps(n);
  }

  lemma {:induction false} CharOfWraps(n: nat)
    ensures CharOf(n + 0x1_0000) == CharOf(n)
  {
    assert (n + 0x1_0000) % 0x1_0000 == n % 0x1_0000;
  }

  /** The numeric pass reads the whole entity. */
  lemma {:induction false} EntityValue(n: nat)
    ensures DecodeNumeric(Entity(n)) == [CharOf(n)]
  {
    var s := Entity(n);
    assert s[2..] == Show(n) + ";";
    LeadingDigitsOfRun(Show(n), ";");
    assert s[2..|s| - 1] == Show(n);
    assert NumericEntityLength(s) == |s|;
    assert s[|s|..] == [];
  }

  /** `&#39;` is decoded by the fifth named pass. */
  lemma {:induction false} ApostropheEntity(s: string)
    requires s == "&#39;"
    ensures Decode(s) == "'"
  {
    forall j | 1 <= j <= 4 ensures !(Pass(j).0 <= s) {
      assert Pass(j).0[1] != s[1];
    }
    NamedPassesKeep(s, 4);
    assert Pass(5).0 <= s && s[|Pass(5).0|..] == [];
    assert NamedPasses(s, 5) == "'";
    assert ReplaceAll("'", Pass(6).0, Pass(6).1) == "'";
  }

  /** Because `&amp;` is decoded first, a doubly escaped entity is decoded twice: the output of one
      pass is read again by the later ones. */
  lemma {:induction false} DoubleEscaped(n: nat)
    requires n < 0xD800
    ensures Decode("&amp;" + Entity(n)[1..]) == [n as char]
  {
    var e := Entity(n);
    var s := "&amp;" + e[1..];
    assert "&amp;" <= s && s[5..] == e[1..];
    ReplaceAllSkip(e[1..], [], "&amp;", "&");
    assert e[1..] + [] == e[1..];
    assert ReplaceAll(s, "&amp;", "&") == e;
    NumericEntity(n);
    DecodeAfterFirstPass(s, e);
  }

  /** Decoding text whose first pass yields `e` is decoding `e`, when `e` survives pass 1. */
  lemma {:induction false} DecodeAfterFirstPass(s: string, e: string)
    requires ReplaceAll(s, Pass(1).0, Pass(1).1) == e && |e| > 0 && '&' !in e[1..] && !(Pass(1).0 <= e)
    ensures Decode(s) == Decode(e)
  {
    PassKeeps(e, 1);
    assert NamedPasses(e, 1) == e;
    assert NamedPasses(s, 1) == e;
    LaterPassesAgree(s, e, 6);
  }

  /** Two texts that agree after `k` passes agree after all of them. */
  lemma {:induction false} LaterPassesAgree(s: string, e: string, k: nat)
    requires 1 <= k <= 6 && NamedPasses(s, 1) == NamedPasses(e, 1)
    ensures NamedPasses(s, k) == NamedPasses(e, k)
    decreases k
  {
    if k > 1 {
      LaterPassesAgree(s, e, k - 1);
    }
  }
}

=== FILE: http.dfy ===
/** The outcome of a `fetch` call, the only way the site's code talks to the network. */
module Http {

  /** Either the call threw (network failure, unreadable body) with its message, or a response
      arrived with its status code and body text. */
  datatype Reply = Threw(message: string) | Response(status: nat, text: string)

  /** `response.ok`: the status is in the range 200-299. */
  predicate IsOk(r: Reply) {
    r.Response? && 200 <= r.status <= 299
  }

  /** The network as the server sees it during one request: the reply it gets for each URL. */
  type Web = string -> Reply
}

=== FILE: js_number.dfy ===
/**
 * JavaScript's number conversions (`parseFloat`, `parseInt`, `Number`, `Math.round`) over exact
 * values: a JS number is NaN or a `real`. Double-precision rounding is not modelled.
 */
module JsNumber {
  import opened Wrappers
  import opened Text

  /** A JavaScript number: NaN, or an exactly represented value. */
  datatype JsNum = NaN | Num(v: real)

  /** JavaScript truthiness of a number: NaN and zero are falsy. */
  predicate Truthy(x: JsNum) {
    x.Num? && x.v != 0.0
  }

  predicate AllDigits(s: string) {
    forall i :: 0 <= i < |s| ==> IsDigit(s[i])
  }

  function DigitValue(c: char): nat
    requires IsDigit(c)
  {
    c as int - '0' as int
  }

  function Digit(d: nat): (c: char)
    requires d < 10
    ensures IsDigit(c) && DigitValue(c) == d
  {
    ('0' as int + d) as char
  }

  function Pow10(k: nat): (r: nat)
    ensures r >= 1
  {
    if k == 0 then 1 else 10 * Pow10(k - 1)
  }

  /** The value of a run of decimal digits (0 for the empty run). */
  function DigitsValue(s: string): nat
    requires AllDigits(s)
  {
    if |s| == 0 then 0 else DigitsValue(s[..|s| - 1]) * 10 + DigitValue(s[|s| - 1])
  }

  /** Length of the run of decimal digits at the start of `s`. */
  function LeadingDigits(s: string): (n: nat)
    ensures n <= |s|
    ensures AllDigits(s[..n])
    ensures n < |s| ==> !IsDigit(s[n])
  {
    if |s| > 0 && IsDigit(s[0]) then
      var k := LeadingDigits(s[1..]);
      assert s[..k + 1] == [s[0]] + s[1..][..k];
      k + 1
    else 0
  }

  /** The decimal numeral of `n`, without leading zeros. */
  function Show(n: nat): (r: string)
    ensures |r| >= 1 && AllDigits(r)
    ensures DigitsValue(r) == n
    ensures |r| > 1 ==> r[0] != '0'
  {
    if n < 10 then [Digit(n)]
    else
      var r := Show(n / 10) + [Digit(n % 10)];
      assert r[..|r| - 1] == Show(n / 10);
      r
  }

  lemma {:induction false} DigitsValueAppend(a: string, b: string)
    requires AllDigits(a) && AllDigits(b)
    ensures AllDigits(a + b)
    ensures DigitsValue(a + b) == DigitsValue(a) * Pow10(|b|) + DigitsValue(b)
    decreases |b|
  {
    if |b| > 0 {
      var b' := b[..|b| - 1];
      assert (a + b)[..|a + b| - 1] == a + b';
      DigitsValueAppend(a, b');
      var d := DigitValue(b[|b| - 1]);
      assert DigitsValue(a + b) == DigitsValue(a + b') * 10 + d;
      assert DigitsValue(b) == DigitsValue(b') * 10 + d;
      assert Pow10(|b|) == Pow10(|b'|) * 10;
      Distribute(DigitsValue(a), Pow10(|b'|), DigitsValue(b'), d);
    } else {
      assert a + b == a;
    }
  }

  lemma {:induction false} Distribute(x: int, p: int, y: int, d: int)
    ensures (x * p + y) * 10 + d == x * (p * 10) + (y * 10 + d)
  {
  }

  /** A digit run followed by a non-digit (or nothing) is read in full. */
  lemma {:induction false} LeadingDigitsOfRun(ds: string, rest: string)
    requires AllDigits(ds)
    requires rest == [] || !IsDigit(rest[0])
    ensures LeadingDigits(ds + rest) == |ds|
    ensures (ds + rest)[..|ds|] == ds
  {
    assert forall k :: 0 <= k < |ds| ==> (ds + rest)[k] == ds[k];
    assert |rest| > 0 ==> (ds + rest)[|ds|] == rest[0];
  }

  /** Round half up: `Math.round`. */
  function Round(x: JsNum): (r: JsNum)
    ensures x.NaN? <==> r.NaN?
    ensures r.Num? ==> r.v == r.v.Floor as real && x.v - 0.5 < r.v <= x.v + 0.5
  {
    match x
    case NaN => NaN
    case Num(v) => Num((v + 0.5).Floor as real)
  }

  /** The value of the digits `fs` written after a decimal point. */
  function FractionValue(fs: string): (r: real)
    requires AllDigits(fs)
    ensures 0.0 <= r
  {
    DigitsValue(fs) as real / Pow10(|fs|) as real
  }

  /** An unsigned decimal literal at the start of `u`: `digits [. digits]` or `. digits`, with at
      least one digit; the result is its length and value. */
  function DecimalPrefix(u: string): (r: Option<(nat, real)>)
    ensures r.Some? ==> 0 < r.value.0 <= |u| && r.value.1 >= 0.0
  {
    var i := LeadingDigits(u);
    var f := if i < |u| && u[i] == '.' then LeadingDigits(u[i + 1..]) else 0;
    if i + f == 0 then None
    else
      var whole := DigitsValue(u[..i]) as real;
      var frac := if f > 0 then FractionValue(u[i + 1..][..f]) else 0.0;
      var len := if i < |u| && u[i] == '.' then i + 1 + f else i;
      Some((len, whole + frac))
  }

  /** Splits an optional leading `+` or `-` off `t`. */
  function SignOf(t: string): (r: (bool, string))
    ensures |r.1| <= |t|
  {
    if |t| > 0 && (t[0] == '-' || t[0] == '+') then (t[0] == '-', t[1..]) else (false, t)
  }

  /** `parseFloat(s)`: leading white space is skipped, then the longest signed decimal literal is
      read; NaN when there is none. Exponents and `Infinity` are not modelled. */
  function ParseFloat(s: string): (r: JsNum)
    ensures r.Num? ==> exists k :: 0 <= k < |s| && IsDigit(s[k])
    ensures r.Num? && '-' !in s ==> r.v >= 0.0
  {
    var t := s[LeadingSpaces(s)..];
    var (neg, u) := SignOf(t);
    assert neg ==> t[0] in s;
    match DecimalPrefix(u)
    case None => NaN
    case Some((_, mag)) =>
      var i := LeadingDigits(u);
      assert u[..i] == s[|s| - |u|..][..i];
      if i > 0 then
        assert IsDigit(s[|s| - |u|]);
        Num(if neg then -mag else mag)
      else
        assert u[i + 1..][0] == s[|s| - |u| + 1];
        Num(if neg then -mag else mag)
  }

  /** A digit run followed by text that does not continue it is read in full. */
  lemma {:induction false} IntegerPrefixOf(ds: string, rest: string)
    requires |ds| > 0 && AllDigits(ds)
    requires rest == [] || (!IsDigit(rest[0]) && rest[0] != '.')
    ensures DecimalPrefix(ds + rest) == Some((|ds|, DigitsValue(ds) as real))
  {
    LeadingDigitsOfRun(ds, rest);
    assert |rest| > 0 ==> (ds + rest)[|ds|] == rest[0];
  }

  /** How `ds.fs` followed by `rest` splits around its decimal point. */
  lemma {:induction false} DotLayout(ds: string, fs: string, rest: string)
    requires AllDigits(ds)
    ensures var u := ds + ("." + fs + rest);
      LeadingDigits(u) == |ds| && u[..|ds|] == ds && u[|ds|] == '.' && u[|ds| + 1..] == fs + rest
  {
    var tail := "." + fs + rest;
    LeadingDigitsOfRun(ds, tail);
    assert (ds + tail)[|ds| + 1..] == fs + rest;
  }

  /** A literal `ds.fs` followed by text that does not continue it is read in full. */
  lemma {:induction false} FractionPrefixOf(ds: string, fs: string, rest: string)
    requires AllDigits(ds) && |fs| > 0 && AllDigits(fs)
    requires rest == [] || !IsDigit(rest[0])
    ensures DecimalPrefix(ds + ("." + fs + rest))
         == Some((|ds| + 1 + |fs|, DigitsValue(ds) as real + FractionValue(fs)))
  {
    var u := ds + ("." + fs + rest);
    DotLayout(ds, fs, rest);
    LeadingDigitsOfRun(fs, rest);
    DecimalPrefixAtDot(u, ds, fs);
  }

  lemma {:induction false} DecimalPrefixAtDot(u: string, ds: string, fs: string)
    requires AllDigits(ds) && |fs| > 0 && AllDigits(fs)
    requires LeadingDigits(u) == |ds| && |ds| < |u| && u[..|ds|] == ds && u[|ds|] == '.'
    requires LeadingDigits(u[|ds| + 1..]) == |fs| && u[|ds| + 1..][..|fs|] == fs
    ensures DecimalPrefix(u) == Some((|ds| + 1 + |fs|, DigitsValue(ds) as real + FractionValue(fs)))
  {
  }

  /** Text that starts with neither white space nor a sign is read by `parseFloat` from its first
      character. */
  lemma {:induction false} ParseFloatUnsigned(u: string)
    requires |u| > 0 && !IsSpace(u[0]) && u[0] != '-' && u[0] != '+'
    ensures ParseFloat(u) == match DecimalPrefix(u) case None => NaN case Some((_, m)) => Num(m)
  {
    assert LeadingSpaces(u) == 0;
    assert u[0..] == u;
  }

  predicate IsHexDigit(c: char) {
    IsDigit(c) || 'a' <= c <= 'f' || 'A' <= c <= 'F'
  }

  function HexValue(c: char): nat
    requires IsHexDigit(c)
  {
    if IsDigit(c) then DigitValue(c)
    else if 'a' <= c <= 'f' then c as int - 'a' as int + 10
    else c as int - 'A' as int + 10
  }

  /** Length of the run of hexadecimal digits at the start of `s`. */
  function LeadingHexDigits(s: string): (n: nat)
    ensures n <= |s|
    ensures forall k :: 0 <= k < n ==> IsHexDigit(s[k])
  {
    if |s| > 0 && IsHexDigit(s[0]) then 1 + LeadingHexDigits(s[1..]) else 0
  }

  function HexDigitsValue(s: string): nat
    requires forall k :: 0 <= k < |s| ==> IsHexDigit(s[k])
  {
    if |s| == 0 then 0 else HexDigitsValue(s[..|s| - 1]) * 16 + HexValue(s[|s| - 1])
  }

  /** `parseInt(s)` without a radix: white space and a sign are skipped, a `0x`/`0X` prefix selects
      base 16, then the longest run of digits is read. `None` stands for NaN. */
  function ParseInt(s: string): (r: Option<int>)
    ensures r.Some? ==> exists k :: 0 <= k < |s| && IsHexDigit(s[k])
  {
    var t := s[LeadingSpaces(s)..];
    var (neg, u) := SignOf(t);
    var off := |s| - |u|;
    assert forall k :: 0 <= k < |u| ==> u[k] == s[off + k];
    if |u| >= 2 && u[0] == '0' && (u[1] == 'x' || u[1] == 'X') then
      var n := LeadingHexDigits(u[2..]);
      if n == 0 then None
      else
        assert IsHexDigit(s[off + 2]);
        var m: int := HexDigitsValue(u[2..][..n]);
        Some(if neg then -m else m)
    else
      var n := LeadingDigits(u);
      if n == 0 then None
      else
        assert IsHexDigit(s[off]);
        var m: int := DigitsValue(u[..n]);
        Some(if neg then -m else m)
  }

  /** `Number(s)` for a string: surrounding white space is ignored, the empty string is 0, and
      otherwise the whole text must be one signed decimal literal. Exponents, `Infinity` and the
      `0x`/`0o`/`0b` forms are not modelled and read as NaN. */
  function ToNumber(s: string): (r: JsNum)
    ensures AllSpace(s) ==> r == Num(0.0)
  {
    var t := Trim(s);
    if t == [] then Num(0.0)
    else
      var (neg, u) := SignOf(t);
      match DecimalPrefix(u)
      case Some((len, mag)) =>
        if len == |u| then Num(if neg then -mag else mag) else NaN
      case None => NaN
  }

  /** A digit run is free of white space at both ends, so `trim` leaves it unchanged. */
  lemma {:induction false} TrimDigits(s: string)
    requires |s| > 0 && AllDigits(s)
    ensures Trim(s) == s
  {
    assert LeadingSpaces(s) == 0;
    assert s[0..] == s;
    assert TrailingSpaces(s) == 0;
  }

  /** A numeral reads back as its value through `Number`. */
  lemma {:induction false} NumberOfNumeral(n: nat)
    ensures ToNumber(Show(n)) == Num(n as real)
  {
    var s := Show(n);
    TrimDigits(s);
    LeadingDigitsOfRun(s, []);
    assert s + [] == s;
    assert SignOf(s) == (false, s);
    assert DecimalPrefix(s) == Some((|s|, DigitsValue(s[..|s|]) as real));
    assert s[..|s|] == s;
  }

  /** A numeral reads back as its value through `parseInt`. */
  lemma {:induction false} ParseIntOfNumeral(n: nat)
    ensures ParseInt(Show(n)) == Some(n)
  {
    var s := Show(n);
    LeadingDigitsOfRun(s, []);
    assert s + [] == s;
    assert LeadingSpaces(s) == 0;
    assert s[0..] == s;
    assert SignOf(s) == (false, s);
    assert |s| >= 2 ==> s[0] != '0';
    assert s[..|s|] == s;
  }
}

=== FILE: json.dfy ===
/** JSON values as JavaScript sees them after `JSON.parse`, with JavaScript truthiness. */
module Json {
  import opened Wrappers

  /** A parsed JSON value. Object key order is not modelled. */
  datatype JsonValue =
    | JNull
    | JBool(b: bool)
    | JNum(n: real)
    | JStr(s: string)
    | JArr(items: seq<JsonValue>)
    | JObj(fields: map<string, JsonValue>)

  /** A JSON object, the shape of every summary and API response body. */
  type Object = map<string, JsonValue>

  /** JavaScript truthiness: `null`, `false`, `0` and `""` are falsy; arrays and objects are not. */
  predicate Truthy(v: JsonValue) {
    match v
    case JNull => false
    case JBool(b) => b
    case JNum(n) => n != 0.0
    case JStr(s) => s != []
    case JArr(_) => true
    case JObj(_) => true
  }

  /** Reading `v.key` on a value that is not `null`: own properties of objects; every other value
      yields `undefined` (`None`) for the keys the site reads. */
  function Property(v: JsonValue, key: string): (r: Option<JsonValue>)
    ensures r.Some? <==> v.JObj? && key in v.fields
    ensures r.Some? ==> r.value == v.fields[key]
  {
    if v.JObj? && key in v.fields then Some(v.fields[key]) else None
  }

  /** `x || fallback` where `x` may be `undefined`. */
  function Or(x: Option<JsonValue>, fallback: JsonValue): (r: JsonValue)
    ensures x.Some? && Truthy(x.value) ==> r == x.value
    ensures !(x.Some? && Truthy(x.value)) ==> r == fallback
  {
    if x.Some? && Truthy(x.value) then x.value else fallback
  }
}

=== FILE: scan.dfy ===
/**
 * Leftmost matching, the search strategy of `String.prototype.match` for a regex without the `g`
 * flag: try each start position in turn and report the first one at which the pattern matches.
 * A pattern is given as its anchored matcher, a function from the remaining text to a capture.
 */
module Scan {
  import opened Wrappers
  import opened Text
  import opened Seqs

  /** The first position at which `m` matches, with its capture. */
  function FindFirst<T>(m: string -> Option<T>, s: string): (r: Option<(nat, T)>)
    ensures r.Some? ==> r.value.0 <= |s| && m(s[r.value.0..]) == Some(r.value.1)
    ensures r.Some? ==> forall j :: 0 <= j < r.value.0 ==> m(s[j..]).None?
    ensures r.None? ==> forall j :: 0 <= j <= |s| ==> m(s[j..]).None?
    decreases |s|
  {
    if m(s).Some? then
      assert s[0..] == s;
      Some((0, m(s).value))
    else if |s| == 0 then
      assert forall j :: 0 <= j <= |s| ==> s[j..] == s;
      None
    else
      var r := FindFirst(m, s[1..]);
      assert forall j :: 1 <= j <= |s| ==> s[1..][j - 1..] == s[j..];
      assert s[0..] == s;
      match r
      case None => None
      case Some((i, v)) => Some((i + 1, v))
  }

  /** The capture of the leftmost match, as `match(...)?.[1]` reads it. */
  function FirstCapture<T>(m: string -> Option<T>, s: string): (r: Option<T>)
    ensures r.Some? <==> exists j :: 0 <= j <= |s| && m(s[j..]).Some?
  {
    match FindFirst(m, s)
    case None => None
    case Some((_, v)) => Some(v)
  }

  /** One element of a fixed regex that reads a JSON fragment: a literal, or `\s*`. */
  datatype Token = Lit(text: string) | Spaces

  /** Every literal is non-empty and starts with a non-space, and every `\s*` is followed by a
      literal; under these conditions `\s*` never has to give characters back. */
  predicate WellFormed(toks: seq<Token>) {
    && (forall i :: 0 <= i < |toks| && toks[i].Lit? ==>
          |toks[i].text| > 0 && !IsSpace(toks[i].text[0]))
    && (|toks| > 0 ==> toks[|toks| - 1].Lit?)
    && (forall i, j :: 0 <= i < |toks| && 0 <= j < |toks| && j == i + 1 && toks[i].Spaces? ==> toks[j].Lit?)
  }

  /** The length of the match of one token anchored at the start of `s`: a literal must be there,
      and `\s*` reads every white-space character it finds. */
  function MatchToken(t: Token, s: string): (r: Option<nat>)
    ensures r.Some? ==> r.value <= |s|
    ensures r.Some? && t.Lit? ==> t.text <= s
  {
    if t.Spaces? then Some(LeadingSpaces(s))
    else if t.text <= s then Some(|t.text|)
    else None
  }

  /** The length of the match of `toks` anchored at the start of `s`. */
  function MatchTokens(toks: seq<Token>, s: string): (r: Option<nat>)
    ensures r.Some? ==> r.value <= |s|
    ensures r.Some? && |toks| > 0 && toks[0].Lit? ==> toks[0].text <= s
  {
    if |toks| == 0 then Some(0)
    else
      match MatchToken(toks[0], s)
      case None => None
      case Some(n) =>
        match MatchTokens(toks[1..], s[n..])
        case None => None
        case Some(k) => Some(n + k)
  }

  /** The text `toks` stands for, with `gaps[i]` as the white space read by each `\s*`. */
  function Render(toks: seq<Token>, gaps: seq<string>): string
    requires |gaps| == |toks|
  {
    if |toks| == 0 then []
    else (if toks[0].Lit? then toks[0].text else gaps[0]) + Render(toks[1..], gaps[1..])
  }

  /** `gaps` holds one text per token, white space wherever the token is `\s*`. */
  predicate Fits(toks: seq<Token>, gaps: seq<string>) {
    |gaps| == |toks| && forall i :: 0 <= i < |toks| && toks[i].Spaces? ==> AllSpace(gaps[i])
  }

  lemma {:induction false} FitsTail(toks: seq<Token>, gaps: seq<string>)
    requires Fits(toks, gaps) && |toks| > 0
    ensures Fits(toks[1..], gaps[1..])
    ensures toks[0].Spaces? ==> AllSpace(gaps[0])
  {
    forall i | 0 <= i < |toks| - 1 && toks[1..][i].Spaces? ensures AllSpace(gaps[1..][i]) {
      assert toks[1..][i] == toks[i + 1] && gaps[1..][i] == gaps[i + 1];
    }
  }

  /** Every rendering of a well-formed pattern, whatever follows it, is matched in full. */
  lemma {:induction false} MatchRendered(toks: seq<Token>, gaps: seq<string>, rest: string)
    requires WellFormed(toks) && Fits(toks, gaps)
    ensures MatchTokens(toks, Render(toks, gaps) + rest) == Some(|Render(toks, gaps)|)
    decreases |toks|
  {
    if |toks| == 0 {
      assert Render(toks, gaps) == [];
      assert MatchTokens(toks, rest) == Some(0);
      assert Render(toks, gaps) + rest == rest;
    } else {
      WellFormedTail(toks);
      FitsTail(toks, gaps);
      MatchRendered(toks[1..], gaps[1..], rest);
      if toks[0].Spaces? {
        assert toks[1].Lit?;
      }
      StepRendered(toks, gaps, rest);
    }
  }

  /** The induction step: the first token reads exactly its own rendering, a `\s*` because the
      literal after it starts with a character it cannot read. */
  lemma {:induction false} StepRendered(toks: seq<Token>, gaps: seq<string>, rest: string)
    requires |gaps| == |toks| > 0
    requires toks[0].Spaces? ==>
      AllSpace(gaps[0]) && |toks| > 1 && toks[1].Lit? && |toks[1].text| > 0 && !IsSpace(toks[1].text[0])
    requires MatchTokens(toks[1..], Render(toks[1..], gaps[1..]) + rest) == Some(|Render(toks[1..], gaps[1..])|)
    ensures MatchTokens(toks, Render(toks, gaps) + rest) == Some(|Render(toks, gaps)|)
  {
    var head := if toks[0].Lit? then toks[0].text else gaps[0];
    var more := Render(toks[1..], gaps[1..]) + rest;
    var s := RenderCons(toks, gaps, rest);
    if toks[0].Spaces? {
      RenderStartsWithLit(toks[1..], gaps[1..], rest);
    }
    MatchTokenHead(toks[0], head, more);
    MatchTokensCons(toks, s, |head|, |Render(toks[1..], gaps[1..])|);
  }

  /** A rendering is the first token's text followed by the rendering of the rest. */
  lemma {:induction false} RenderCons(toks: seq<Token>, gaps: seq<string>, rest: string) returns (s: string)
    requires |gaps| == |toks| > 0
    ensures var head := if toks[0].Lit? then toks[0].text else gaps[0];
      && s == Render(toks, gaps) + rest
      && s == head + (Render(toks[1..], gaps[1..]) + rest)
      && s[|head|..] == Render(toks[1..], gaps[1..]) + rest
      && |Render(toks, gaps)| == |head| + |Render(toks[1..], gaps[1..])|
  {
    var head := if toks[0].Lit? then toks[0].text else gaps[0];
    var more := Render(toks[1..], gaps[1..]) + rest;
    s := Render(toks, gaps) + rest;
    assert s == head + more;
    DropConcat(head, more);
  }

  /** A rendering that starts with a literal starts with that literal's first character. */
  lemma {:induction false} RenderStartsWithLit(toks: seq<Token>, gaps: seq<string>, rest: string)
    requires |gaps| == |toks| > 0 && toks[0].Lit? && |toks[0].text| > 0
    ensures var more := Render(toks, gaps) + rest;
      |more| > 0 && more[0] == toks[0].text[0]
  {
    var s := RenderCons(toks, gaps, rest);
  }

  /** One token reads exactly `head` from `head + more`. */
  lemma {:induction false} MatchTokenHead(t: Token, head: string, more: string)
    requires t.Lit? ==> head == t.text
    requires t.Spaces? ==> AllSpace(head) && |more| > 0 && !IsSpace(more[0])
    ensures MatchToken(t, head + more) == Some(|head|)
  {
    if t.Spaces? {
      SpacesThenNonSpace(head, more);
    } else {
      assert t.text <= head + more;
    }
  }

  lemma {:induction false} MatchTokensCons(toks: seq<Token>, s: string, n: nat, k: nat)
    requires |toks| > 0 && n <= |s| && MatchToken(toks[0], s) == Some(n)
    requires MatchTokens(toks[1..], s[n..]) == Some(k)
    ensures MatchTokens(toks, s) == Some(n + k)
  {
  }

  lemma {:induction false} WellFormedTail(toks: seq<Token>)
    requires WellFormed(toks) && |toks| > 0
    ensures WellFormed(toks[1..])
  {
    var t := toks[1..];
    forall i, j | 0 <= i < j < |t| && j == i + 1 && t[i].Spaces? ensures t[j].Lit? {
      assert toks[i + 1] == t[i] && toks[j + 1] == t[j];
    }
    assert |t| > 0 ==> t[|t| - 1] == toks[|toks| - 1];
  }

  lemma {:induction false} SpacesThenNonSpace(w: string, t: string)
    requires AllSpace(w) && |t| > 0 && !IsSpace(t[0])
    ensures LeadingSpaces(w + t) == |w|
  {
    assert forall i :: 0 <= i < |w| ==> (w + t)[i] == w[i];
    assert (w + t)[|w|] == t[0];
  }

  /** The capture `([^"]+)"`: a non-empty run of characters other than `"`, then a `"`. */
  function QuotedRun(s: string): (r: Option<string>)
    ensures r.Some? ==> |r.value| > 0 && '"' !in r.value && r.value + "\"" <= s
    ensures r.None? <==> |s| == 0 || s[0] == '"' || '"' !in s
  {
    match FirstIndexOfChar(s, '"')
    case None => None
    case Some(i) =>
      if i == 0 then None
      else
        assert s[..i + 1] == s[..i] + "\"";
        Some(s[..i])
  }

  /** A JSON-fragment regex `toks([^"]+)"` anchored at the start of `s`. */
  function FragmentMatch(toks: seq<Token>, s: string): (r: Option<string>)
    ensures r.Some? ==> |r.value| > 0 && '"' !in r.value
  {
    match MatchTokens(toks, s)
    case None => None
    case Some(k) => QuotedRun(s[k..])
  }

  /** `html.match(/toks([^"]+)"/)?.[1]`. */
  function ScrapeFragment(toks: seq<Token>, html: string): (r: Option<string>)
    ensures r.Some? ==> |r.value| > 0 && '"' !in r.value
  {
    match FindFirst(s => FragmentMatch(toks, s), html)
    case None => None
    case Some((_, v)) => Some(v)
  }

  /** The leftmost match is found where the matcher first succeeds. */
  lemma {:induction false} FindFirstAt<T>(m: string -> Option<T>, s: string, i: nat)
    requires i <= |s| && m(s[i..]).Some?
    requires forall j :: 0 <= j < i ==> m(s[j..]).None?
    ensures FindFirst(m, s) == Some((i, m(s[i..]).value))
  {
  }

  /** The capture of the leftmost match, when the text before `tail` holds no match. */
  lemma {:induction false} FirstCaptureAt<T>(m: string -> Option<T>, prefix: string, tail: string)
    requires m(tail).Some?
    requires forall j :: 0 <= j < |prefix| ==> m((prefix + tail)[j..]).None?
    ensures FirstCapture(m, prefix + tail) == m(tail)
  {
    assert (prefix + tail)[|prefix|..] == tail;
    FindFirstAt(m, prefix + tail, |prefix|);
  }

  lemma {:induction false} QuotedRunOf(captured: string, rest: string)
    requires |captured| > 0 && '"' !in captured
    ensures QuotedRun(captured + "\"" + rest) == Some(captured)
  {
    var t := captured + "\"" + rest;
    assert t[|captured|] == '"';
    assert t[..|captured|] == captured;
    assert forall k :: 0 <= k < |captured| ==> t[k] == captured[k];
  }

  lemma {:induction false} MatchFragmentAt(toks: seq<Token>, gaps: seq<string>, captured: string, rest: string)
    requires WellFormed(toks) && |gaps| == |toks|
    requires forall i :: 0 <= i < |toks| && toks[i].Spaces? ==> AllSpace(gaps[i])
    requires |captured| > 0 && '"' !in captured
    ensures FragmentMatch(toks, Render(toks, gaps) + (captured + "\"" + rest)) == Some(captured)
  {
    var r := Render(toks, gaps);
    var after := captured + "\"" + rest;
    MatchRendered(toks, gaps, after);
    assert (r + after)[|r|..] == after;
    QuotedRunOf(captured, rest);
  }

  lemma {:induction false} NoMatchBefore(toks: seq<Token>, prefix: string, tail: string)
    requires |toks| > 0 && toks[0].Lit? && |toks[0].text| > 0 && toks[0].text[0] !in prefix
    ensures forall j :: 0 <= j < |prefix| ==> FragmentMatch(toks, (prefix + tail)[j..]).None?
  {
    forall j | 0 <= j < |prefix| ensures FragmentMatch(toks, (prefix + tail)[j..]).None? {
      assert (prefix + tail)[j..][0] == prefix[j];
    }
  }

  /** A captured value written into a page after the fragment `toks` is read back, provided nothing
      before the fragment can start a match. */
  lemma {:induction false} ScrapeRendered(toks: seq<Token>, gaps: seq<string>, prefix: string, captured: string, rest: string)
    requires WellFormed(toks) && |gaps| == |toks|
    requires forall i :: 0 <= i < |toks| && toks[i].Spaces? ==> AllSpace(gaps[i])
    requires |toks| > 0 && toks[0].Lit? && toks[0].text[0] !in prefix
    requires |captured| > 0 && '"' !in captured
    ensures ScrapeFragment(toks, prefix + Render(toks, gaps) + captured + "\"" + rest) == Some(captured)
  {
    var tail := Render(toks, gaps) + (captured + "\"" + rest);
    var html := prefix + tail;
    assert prefix + Render(toks, gaps) + captured + "\"" + rest == html;
    assert html[|prefix|..] == tail;
    MatchFragmentAt(toks, gaps, captured, rest);
    NoMatchBefore(toks, prefix, tail);
    FindFirstAt(s => FragmentMatch(toks, s), html, |prefix|);
  }
}

=== FILE: seqs.dfy ===
/** Order-preserving selection over sequences: `Array.prototype.filter` and `slice(0, n)`. */
module Seqs {

  /** `a` is `b` with some elements left out, the rest in their original order. */
  predicate IsSubseq<T(==)>(a: seq<T>, b: seq<T>)
    decreases |b|
  {
    if |a| == 0 then true
    else if |b| == 0 then false
    else if a[0] == b[0] then IsSubseq(a[1..], b[1..])
    else IsSubseq(a, b[1..])
  }

  /** Dropping the first part of a concatenation leaves the second. */
  lemma DropConcat<T>(a: seq<T>, b: seq<T>)
    ensures (a + b)[|a|..] == b
  {
  }

  lemma {:induction false} SubseqOfTail<T>(a: seq<T>, b: seq<T>)
    requires |b| > 0 && IsSubseq(a, b[1..])
    ensures IsSubseq(a, b)
    decreases |b|, |a|
  {
    if |a| > 0 && a[0] == b[0] {
      SubseqDropFirst(a, b[1..]);
    }
  }

  lemma {:induction false} SubseqDropFirst<T>(a: seq<T>, b: seq<T>)
    requires |a| > 0 && IsSubseq(a, b)
    ensures IsSubseq(a[1..], b)
    decreases |b|, |a|
  {
    if a[0] == b[0] {
      SubseqOfTail(a[1..], b);
    } else {
      SubseqDropFirst(a, b[1..]);
      SubseqOfTail(a[1..], b);
    }
  }

  /** `xs.filter(p)`. */
  function Filter<T>(p: T -> bool, xs: seq<T>): (r: seq<T>)
    ensures |r| <= |xs|
    ensures forall k :: 0 <= k < |r| ==> p(r[k])
    ensures forall k :: 0 <= k < |r| ==> r[k] in xs
    ensures forall k :: 0 <= k < |xs| && p(xs[k]) ==> xs[k] in r
  {
    if |xs| == 0 then []
    else
      var rest := Filter(p, xs[1..]);
      assert xs == [xs[0]] + xs[1..];
      if p(xs[0]) then [xs[0]] + rest else rest
  }

  /** One step of `Filter`: the first element is kept exactly when it passes. */
  lemma {:induction false} FilterCons<T>(p: T -> bool, xs: seq<T>)
    requires |xs| > 0
    ensures p(xs[0]) ==> Filter(p, xs) == [xs[0]] + Filter(p, xs[1..])
    ensures !p(xs[0]) ==> Filter(p, xs) == Filter(p, xs[1..])
  {
  }

  lemma {:induction false} FilterIsSubseq<T>(p: T -> bool, xs: seq<T>)
    ensures IsSubseq(Filter(p, xs), xs)
    decreases |xs|
  {
    if |xs| > 0 {
      FilterIsSubseq(p, xs[1..]);
      if !p(xs[0]) {
        SubseqOfTail(Filter(p, xs), xs);
      } else {
        assert Filter(p, xs)[1..] == Filter(p, xs[1..]);
      }
    }
  }

  /** Filtering a concatenation filters each part. */
  lemma {:induction false} FilterAppend<T>(p: T -> bool, a: seq<T>, b: seq<T>)
    ensures Filter(p, a + b) == Filter(p, a) + Filter(p, b)
    decreases |a|
  {
    if |a| > 0 {
      assert (a + b)[1..] == a[1..] + b;
      FilterAppend(p, a[1..], b);
    } else {
      assert a + b == b;
    }
  }

  /** `xs.map(f)`. */
  function Map<T, U>(f: T -> U, xs: seq<T>): (r: seq<U>)
    ensures |r| == |xs|
    ensures forall k :: 0 <= k < |xs| ==> r[k] == f(xs[k])
  {
    seq(|xs|, k requires 0 <= k < |xs| => f(xs[k]))
  }

  lemma {:induction false} MapAppend<T, U>(f: T -> U, a: seq<T>, b: seq<T>)
    ensures Map(f, a + b) == Map(f, a) + Map(f, b)
  {
  }

  /** `xs.slice(0, n)`. */
  function Take<T>(xs: seq<T>, n: nat): (r: seq<T>)
    ensures |r| == if n < |xs| then n else |xs|
    ensures r <= xs
  {
    if n < |xs| then xs[..n] else xs
  }

  lemma {:induction false} TakeIsSubseq<T>(xs: seq<T>, n: nat)
    ensures IsSubseq(Take(xs, n), xs)
  {
    PrefixIsSubseq(Take(xs, n), xs);
  }

  lemma {:induction false} PrefixIsSubseq<T>(a: seq<T>, b: seq<T>)
    requires a <= b
    ensures IsSubseq(a, b)
    decreases |b|
  {
    if |a| > 0 {
      assert a[1..] <= b[1..];
      PrefixIsSubseq(a[1..], b[1..]);
    }
  }

  lemma {:induction false} SubseqTrans<T>(a: seq<T>, b: seq<T>, c: seq<T>)
    requires IsSubseq(a, b) && IsSubseq(b, c)
    ensures IsSubseq(a, c)
    decreases |c|
  {
    if |a| > 0 && |c| > 0 {
      if b[0] == c[0] {
        if a[0] == b[0] {
          SubseqTrans(a[1..], b[1..], c[1..]);
        } else {
          SubseqTrans(a, b[1..], c[1..]);
          SubseqOfTail(a, c);
        }
      } else {
        SubseqTrans(a, b, c[1..]);
        SubseqOfTail(a, c);
      }
    }
  }
}

=== FILE: summary_generator.dfy ===
/**
 * The two summary providers: the prompt built from the video data, the reply of the language
 * model reduced to the JSON object inside it, and the object stamped with the video id, the
 * transcript flag, the generation time and the model name.
 */
module SummaryGenerator {
  import opened Wrappers
  import opened Text
  import JsNumber
  import opened Json
  import opened Http
  import opened VideoPage

  const PerplexityModel := "perplexity-llama-3.1-sonar"
  const GeminiModel := "gemini-2.0-flash"
  const MissingKeyMessage := "Perplexity API key not configured"
  const NoContentMessage := "No content in Perplexity response"
  const NoJsonMessage := "No valid JSON found in response"
  /** Stands for the message of a `TypeError` raised by the engine, whose wording is not modelled. */
  const TypeErrorMessage := "TypeError"

  // ---------------------------------------------------------------------------------------------
  // The prompt
  // ---------------------------------------------------------------------------------------------

  /** `transcript || description || ''`. */
  function PromptContent(v: VideoData): (r: string)
    ensures v.transcript.Some? && v.transcript.value != [] ==> r == v.transcript.value
    ensures !(v.transcript.Some? && v.transcript.value != []) ==> r == v.description
  {
    if v.transcript.Some? && v.transcript.value != [] then v.transcript.value else v.description
  }

  const Opening := "You are analyzing a podcast/video "
  const MissingNote := "\nNote: Full transcript not available, using video description only."
  const Tasks :=
    "2. \"description\": A 2-3 sentence engaging description of what this episode covers\n"
    + "3. \"keyTakeaways\": An array of 5-6 key insights or takeaways from the discussion\n"
    + "4. \"topics\": An array of 5-8 main topics discussed (short phrases)\n"
    + "5. \"highlights\": An array of 2-3 notable quotes or interesting moments (brief excerpts)\n"
    + "\nIMPORTANT: \n"
    + "- Keep responses concise and punchy\n"
    + "- Write in an engaging, professional tone\n"
    + "- Focus on the most valuable insights\n"
    + "- Avoid generic statements\n"
    + "- Return ONLY valid JSON, no markdown code blocks\n"
    + "\nCONTENT:\n"

  /** What the prompt says it is analysing. */
  function SourceKind(hasTranscript: bool): string {
    if hasTranscript then "transcript" else "description"
  }

  /** The first sentence of the prompt. */
  function PromptIntro(kind: string): string {
    Opening + kind + "."
  }

  /** Everything between the first sentence and the content. */
  function PromptBody(v: VideoData, kind: string): string {
    "\n\nVideo Title: " + v.title + "\n" + (if v.hasTranscript then [] else MissingNote)
    + "\n\nBased on the " + kind + " below, generate a JSON response with:\n\n"
    + "1. \"title\": Use the actual video title: \"" + v.title + "\"\n" + Tasks
  }

  /** Everything before the content. */
  function PromptHead(v: VideoData): string {
    var kind := SourceKind(v.hasTranscript);
    PromptIntro(kind) + PromptBody(v, kind)
  }

  /** `buildPrompt(videoData)`: the template, then the content. */
  function BuildPrompt(v: VideoData): (r: string)
    ensures EndsWith(r, PromptContent(v))
  {
    var h := PromptHead(v);
    var c := PromptContent(v);
    AppendEnds(h, c);
    h + c
  }

  lemma {:induction false} AppendEnds(h: string, c: string)
    ensures EndsWith(h + c, c)
  {
    assert (h + c)[|h|..] == c;
  }

  /** For video data as `getVideoData` builds it, the prompt names the transcript exactly when it
      carries it, and otherwise carries the description. */
  lemma {:induction false} PromptCarriesSource(v: VideoData)
    requires v.hasTranscript <==> v.transcript.Some? && v.transcript.value != []
    ensures v.hasTranscript ==> EndsWith(BuildPrompt(v), v.transcript.value) && SourceKind(v.hasTranscript) == "transcript"
    ensures !v.hasTranscript ==> EndsWith(BuildPrompt(v), v.description) && SourceKind(v.hasTranscript) == "description"
  {
  }

  /** The prompt opens by naming what it analyses: "… video transcript." exactly when the video
      has a transcript, and "… video description." otherwise. */
  lemma {:induction false} PromptOpens(v: VideoData)
    ensures Opening + SourceKind(v.hasTranscript) + "." <= BuildPrompt(v)
  {
    var kind := SourceKind(v.hasTranscript);
    PrefixOfAppend(PromptIntro(kind), PromptBody(v, kind), PromptContent(v));
  }

  lemma {:induction false} PrefixOfAppend(a: string, b: string, c: string)
    ensures a <= a + b + c
  {
    assert (a + b + c)[..|a|] == a;
  }

  // ---------------------------------------------------------------------------------------------
  // The JSON inside a reply
  // ---------------------------------------------------------------------------------------------

  const Fence := "```"
  const JsonFence := "```json"

  /** The clean-up before the search: trim, drop a leading "```json" and then a leading "```",
      drop a trailing "```", trim again. */
  function StripFences(content: string): (r: string)
    ensures |r| <= |content|
    ensures Unpadded(r)
    // only white space and fence characters are cut, and only from the two ends
    ensures exists pre, post :: content == pre + r + post && FenceOrSpace(pre) && FenceOrSpace(post)
    // a reply without a fence at either end is only trimmed
    ensures !StartsWith(Trim(content), Fence) && !EndsWith(Trim(content), Fence) ==> r == Trim(content)
  {
    StripFencesCut(content);
    UnfencePlain(Trim(content));
    StripFencesWith(JsonFence, Fence, content)
  }

  lemma {:induction false} StripFencesCut(content: string)
    ensures exists pre, post :: content == pre + StripFencesWith(JsonFence, Fence, content) + post
                                && FenceOrSpace(pre) && FenceOrSpace(post)
  {
    var pre, post := StripFencesAt(content);
  }

  lemma {:induction false} StripFencesAt(content: string) returns (pre: string, post: string)
    ensures CutFrom(StripFencesWith(JsonFence, Fence, content), content, pre, post)
  {
    var p0, q0 := TrimCut(content);
    FencesAreCuttable();
    var p1, q1 := UnfenceCut(JsonFence, Fence, Trim(content));
    CutTrans(StripFencesWith(JsonFence, Fence, content), Trim(content), content, p1, q1, p0, q0);
    pre, post := p0 + p1, q1 + q0;
  }

  /** A character the clean-up may remove: white space or a character of the fences. */
  predicate Cuttable(ch: char) {
    IsSpace(ch) || ch in "`json"
  }

  /** Every character of `s` may be removed. */
  predicate FenceOrSpace(s: string) {
    forall k :: 0 <= k < |s| ==> Cuttable(s[k])
  }

  /** `s` is `r` with the removable `pre` in front and the removable `post` behind. */
  predicate CutFrom(r: string, s: string, pre: string, post: string) {
    s == pre + r + post && FenceOrSpace(pre) && FenceOrSpace(post)
  }

  lemma {:induction false} FencesAreCuttable()
    ensures FenceOrSpace(JsonFence) && FenceOrSpace(Fence)
  {
    forall k | 0 <= k < |JsonFence| ensures Cuttable(JsonFence[k]) {
      assert JsonFence[k] == "```json"[k];
    }
  }

  lemma {:induction false} CuttableConcat(a: string, b: string)
    ensures FenceOrSpace(a) && FenceOrSpace(b) ==> FenceOrSpace(a + b)
  {
    if FenceOrSpace(a) && FenceOrSpace(b) {
      forall k | 0 <= k < |a + b| ensures Cuttable((a + b)[k]) {
        if k >= |a| { assert (a + b)[k] == b[k - |a|]; }
      }
    }
  }

  lemma {:induction false} CutTrans(a: string, b: string, c: string, p1: string, q1: string, p2: string, q2: string)
    ensures CutFrom(a, b, p1, q1) && CutFrom(b, c, p2, q2) ==> CutFrom(a, c, p2 + p1, q1 + q2)
  {
    if CutFrom(a, b, p1, q1) && CutFrom(b, c, p2, q2) {
      assert c == (p2 + p1) + a + (q1 + q2);
      CuttableConcat(p2, p1);
      CuttableConcat(q1, q2);
    }
  }

  lemma {:induction false} TrimCut(s: string) returns (pre: string, post: string)
    ensures CutFrom(Trim(s), s, pre, post)
  {
    var lo, hi := TrimLayout(s);
    pre, post := s[..lo], s[hi..];
    assert s == s[..lo] + s[lo..hi] + s[hi..];
  }

  lemma {:induction false} DropLeadingCut(s: string, p: string) returns (pre: string)
    requires FenceOrSpace(p)
    ensures CutFrom(DropLeading(s, p), s, pre, [])
  {
    pre := if StartsWith(s, p) then p else [];
    assert s == pre + DropLeading(s, p) + [] by {
      if StartsWith(s, p) { assert s == s[..|p|] + s[|p|..]; }
    }
  }

  lemma {:induction false} DropTrailingCut(s: string, p: string) returns (post: string)
    requires FenceOrSpace(p)
    ensures CutFrom(DropTrailing(s, p), s, [], post)
  {
    post := if EndsWith(s, p) then p else [];
    assert s == [] + DropTrailing(s, p) + post by {
      if EndsWith(s, p) { assert s == s[..|s| - |p|] + s[|s| - |p|..]; }
    }
  }

  /** Each of the three fence cuts removes only fence characters. */
  lemma {:induction false} UnfenceCut(jsonFence: string, fence: string, c0: string) returns (pre: string, post: string)
    requires FenceOrSpace(jsonFence) && FenceOrSpace(fence)
    ensures CutFrom(Unfence(jsonFence, fence, c0), c0, pre, post)
  {
    var c1 := DropLeading(c0, jsonFence);
    var c2 := DropLeading(c1, fence);
    var c3 := DropTrailing(c2, fence);
    var p1 := DropLeadingCut(c0, jsonFence);
    var p2 := DropLeadingCut(c1, fence);
    var q3 := DropTrailingCut(c2, fence);
    var p4, q4 := TrimCut(c3);
    CutTrans(c2, c1, c0, p2, [], p1, []);
    CutTrans(c3, c2, c0, [], q3, p1 + p2, [] + []);
    CutTrans(Trim(c3), c3, c0, p4, q4, p1 + p2 + [], q3 + ([] + []));
    pre, post := p1 + p2 + [] + p4, q4 + (q3 + ([] + []));
  }

  /** Without a fence at either end, the clean-up changes nothing in trimmed text. */
  lemma {:induction false} UnfencePlain(c0: string)
    requires Unpadded(c0)
    ensures !StartsWith(c0, Fence) && !EndsWith(c0, Fence) ==> Unfence(JsonFence, Fence, c0) == c0
  {
    if !StartsWith(c0, Fence) && !EndsWith(c0, Fence) {
      assert !StartsWith(c0, JsonFence);
      TrimNoEdges(c0);
    }
  }

  /** The clean-up with the two fences as parameters. */
  function StripFencesWith(jsonFence: string, fence: string, content: string): (r: string)
    ensures |r| <= |content|
    ensures Unpadded(r)
  {
    Unfence(jsonFence, fence, Trim(content))
  }

  /** The clean-up after the first trim. */
  function Unfence(jsonFence: string, fence: string, c0: string): (r: string)
    ensures |r| <= |c0|
    ensures Unpadded(r)
  {
    Trim(DropTrailing(DropLeading(DropLeading(c0, jsonFence), fence), fence))
  }

  /** `s` without `p` in front, when it starts with `p`. */
  function DropLeading(s: string, p: string): (r: string)
    ensures |r| <= |s|
    ensures StartsWith(s, p) ==> r == s[|p|..]
    ensures !StartsWith(s, p) ==> r == s
  {
    if StartsWith(s, p) then s[|p|..]
    else s
  }

  /** `s` without `p` at its end, when it ends with `p`. */
  function DropTrailing(s: string, p: string): (r: string)
    ensures |r| <= |s|
    ensures EndsWith(s, p) ==> r == s[..|s| - |p|]
    ensures !EndsWith(s, p) ==> r == s
  {
    if EndsWith(s, p) then s[..|s| - |p|]
    else s
  }

  /** `c.match(/\{[\s\S]*\}/)?.[0]`: from the first `{` to the last `}` after it. */
  function JsonSpan(c: string): (r: Option<string>)
    ensures r.Some? ==> |r.value| >= 2 && r.value[0] == '{' && r.value[|r.value| - 1] == '}'
  {
    match FirstIndexOfChar(c, '{')
    case None => None
    case Some(i) =>
      match LastIndexOfChar(c, '}')
      case None => None
      case Some(j) =>
        if j > i then
          assert c[i..j + 1][0] == c[i] && c[i..j + 1][j - i] == c[j];
          Some(c[i..j + 1])
        else None
  }

  /** The span is a piece of the text with no `{` before it and no `}` after it; there is none
      exactly when no `{` comes before a `}`. */
  lemma {:induction false} JsonSpanPlace(c: string)
    ensures var r := JsonSpan(c);
      r.Some? ==> exists i :: 0 <= i <= |c| - |r.value| && c[i..i + |r.value|] == r.value
                              && '{' !in c[..i] && '}' !in c[i + |r.value|..]
    ensures JsonSpan(c).None? <==> forall a, b :: 0 <= a < b < |c| && c[a] == '{' ==> c[b] != '}'
  {
    match FirstIndexOfChar(c, '{')
    case None =>
    case Some(i) =>
      match LastIndexOfChar(c, '}')
      case None =>
      case Some(j) =>
        if j <= i {
          assert forall a :: 0 <= a < i ==> c[..i][a] == c[a];
          assert forall b :: j < b < |c| ==> c[j + 1..][b - j - 1] == c[b];
        }
  }

  /** `parseJsonResponse(content)`, with `JSON.parse` given as `parse`. */
  function ParseJsonResponse(content: string, parse: string -> Result<Object>): (r: Result<Object>)
    // the fences never matter: the span is the reply's own first `{` to its last `}`
    ensures JsonSpan(content).None? ==> r == Err(NoJsonMessage)
    ensures JsonSpan(content).Some? ==> r == parse(JsonSpan(content).value)
  {
    StripFencesSpan(content);
    match JsonSpan(StripFences(content))
    case None => Err(NoJsonMessage)
    case Some(span) => parse(span)
  }

  /** A reply whose object is surrounded by text without braces yields that object. */
  lemma {:induction false} SpanOfEmbedded(pre: string, obj: string, post: string)
    requires |obj| >= 2 && obj[0] == '{' && obj[|obj| - 1] == '}'
    requires '{' !in pre && '}' !in post
    ensures JsonSpan(pre + obj + post) == Some(obj)
  {
    var c := pre + obj + post;
    assert c[..|pre|] == pre && c[|pre|] == '{';
    FirstIndexOfCharAt(c, '{', |pre|);
    var j := |pre| + |obj| - 1;
    assert c[j] == '}' && c[j + 1..] == post;
    LastIndexOfCharAt(c, '}', j);
    assert c[|pre|..j + 1] == obj;
  }

  /** Cutting white space and fence characters from the ends never moves the JSON span. */
  lemma {:induction false} SpanOfCut(r: string, c: string, pre: string, post: string)
    requires CutFrom(r, c, pre, post)
    ensures JsonSpan(r) == JsonSpan(c)
  {
    CutBraceFree(pre);
    CutBraceFree(post);
    SpanOfSuffixed(pre + r, post);
    SpanOfPrefixed(pre, r);
  }

  /** Removable characters are never braces. */
  lemma {:induction false} CutBraceFree(s: string)
    requires FenceOrSpace(s)
    ensures '{' !in s && '}' !in s
  {
    forall k | 0 <= k < |s| ensures s[k] != '{' && s[k] != '}' {
      assert Cuttable(s[k]);
    }
  }

  /** Text without `{` in front of `r` does not move its span. */
  lemma {:induction false} SpanOfPrefixed(pre: string, r: string)
    requires '{' !in pre
    ensures JsonSpan(pre + r) == JsonSpan(r)
  {
    if '{' !in r {
      NotInConcat(pre, r, '{');
      SpanNoOpen(pre + r);
      SpanNoOpen(r);
    } else if '}' in r {
      SpanPrefixedBoth(pre, r, FirstIndexOfChar(r, '{').value, LastIndexOfChar(r, '}').value);
    } else {
      SpanPrefixedNoClose(pre, r, FirstIndexOfChar(r, '{').value);
    }
  }

  lemma {:induction false} SpanPrefixedBoth(pre: string, r: string, i: nat, j: nat)
    requires '{' !in pre && FirstIndexOfChar(r, '{') == Some(i) && LastIndexOfChar(r, '}') == Some(j)
    ensures JsonSpan(pre + r) == JsonSpan(r)
  {
    var a, b := PrefixedBraces(pre, r, i, j);
    SpanShift(pre + r, r, a, b, i, j);
  }

  /** Behind a prefix without `{`, the first `{` and the last `}` of `r` keep their order and
      the text between them. */
  lemma {:induction false} PrefixedBraces(pre: string, r: string, i: nat, j: nat) returns (a: nat, b: nat)
    requires '{' !in pre && FirstIndexOfChar(r, '{') == Some(i) && LastIndexOfChar(r, '}') == Some(j)
    ensures FirstIndexOfChar(pre + r, '{') == Some(a) && LastIndexOfChar(pre + r, '}') == Some(b)
    ensures b > a <==> j > i
    ensures b > a ==> (pre + r)[a..b + 1] == r[i..j + 1]
  {
    a := FirstAfterPrefix(pre, r, '{', i);
    b := LastAfterPrefix(pre, r, '}', j);
    PrefixedSlice(pre, r, i, j, a, b);
  }

  /** Two texts whose first `{` and last `}` enclose the same text have the same span. */
  lemma {:induction false} SpanShift(c: string, r: string, a: nat, b: nat, i: nat, j: nat)
    ensures FirstIndexOfChar(c, '{') == Some(a) && LastIndexOfChar(c, '}') == Some(b) &&
            FirstIndexOfChar(r, '{') == Some(i) && LastIndexOfChar(r, '}') == Some(j) &&
            (b > a <==> j > i) && (b > a ==> c[a..b + 1] == r[i..j + 1]) ==>
            JsonSpan(c) == JsonSpan(r)
  {
    SpanAt(c, a, b);
    SpanAt(r, i, j);
  }

  lemma {:induction false} SpanPrefixedNoClose(pre: string, r: string, i: nat)
    requires '{' !in pre && FirstIndexOfChar(r, '{') == Some(i) && '}' !in r
    ensures JsonSpan(pre + r) == JsonSpan(r)
  {
    SpanNoClose(r);
    var a := FirstAfterPrefix(pre, r, '{', i);
    if '}' in pre {
      var k := LastInPrefix(pre, r, '}');
      SpanAt(pre + r, a, k);
    } else {
      NotInConcat(pre, r, '}');
      SpanNoClose(pre + r);
    }
  }

  /** Text without `}` behind `r` does not move its span. */
  lemma {:induction false} SpanOfSuffixed(r: string, post: string)
    requires '}' !in post
    ensures JsonSpan(r + post) == JsonSpan(r)
  {
    var c := r + post;
    if '}' !in r {
      NotInConcat(r, post, '}');
      SpanNoClose(c);
      SpanNoClose(r);
    } else {
      var j := LastIndexOfChar(r, '}').value;
      LastBeforeSuffix(r, post, '}', j);
      if '{' in r {
        var i := FirstIndexOfChar(r, '{').value;
        FirstBeforeSuffix(r, post, '{', i);
        SpanAt(c, i, j);
        SpanAt(r, i, j);
        if j > i { SliceBeforeSuffix(r, post, i, j); }
      } else {
        SpanNoOpen(r);
        if '{' in post {
          var k := FirstInSuffix(r, post, '{');
          SpanAt(c, k, j);
        } else {
          NotInConcat(r, post, '{');
          SpanNoOpen(c);
        }
      }
    }
  }

  lemma {:induction false} SpanNoOpen(c: string)
    requires '{' !in c
    ensures JsonSpan(c).None?
  {
  }

  lemma {:induction false} SpanNoClose(c: string)
    requires '}' !in c
    ensures JsonSpan(c).None?
  {
  }

  /** The span in terms of the first `{` and the last `}`. */
  lemma {:induction false} SpanAt(c: string, i: nat, j: nat)
    ensures FirstIndexOfChar(c, '{') == Some(i) && LastIndexOfChar(c, '}') == Some(j) ==>
      JsonSpan(c) == if j > i then Some(c[i..j + 1]) else None
  {
  }

  lemma {:induction false} NotInConcat(x: string, y: string, ch: char)
    requires ch !in x && ch !in y
    ensures ch !in x + y
  {
  }

  lemma {:induction false} FirstAfterPrefix(pre: string, r: string, ch: char, i: nat) returns (k: nat)
    requires ch !in pre && FirstIndexOfChar(r, ch) == Some(i)
    ensures k == |pre| + i && FirstIndexOfChar(pre + r, ch) == Some(k)
  {
    k := |pre| + i;
    var c := pre + r;
    assert c[..|pre| + i] == pre + r[..i];
    FirstIndexOfCharAt(c, ch, |pre| + i);
  }

  lemma {:induction false} LastAfterPrefix(pre: string, r: string, ch: char, j: nat) returns (k: nat)
    requires LastIndexOfChar(r, ch) == Some(j)
    ensures k == |pre| + j && LastIndexOfChar(pre + r, ch) == Some(k)
  {
    k := |pre| + j;
    var c := pre + r;
    assert c[|pre| + j + 1..] == r[j + 1..];
    LastIndexOfCharAt(c, ch, |pre| + j);
  }

  lemma {:induction false} LastInPrefix(pre: string, r: string, ch: char) returns (k: nat)
    requires ch in pre && ch !in r
    ensures LastIndexOfChar(pre + r, ch) == Some(k) && k < |pre|
  {
    var c := pre + r;
    assert forall m :: |pre| <= m < |c| ==> c[m] == r[m - |pre|];
    var p :| 0 <= p < |pre| && pre[p] == ch;
    assert c[p] == ch;
    k := LastIndexOfChar(c, ch).value;
  }

  lemma {:induction false} FirstBeforeSuffix(r: string, post: string, ch: char, i: nat)
    requires FirstIndexOfChar(r, ch) == Some(i)
    ensures FirstIndexOfChar(r + post, ch) == Some(i)
  {
    var c := r + post;
    assert c[..i] == r[..i];
    FirstIndexOfCharAt(c, ch, i);
  }

  lemma {:induction false} LastBeforeSuffix(r: string, post: string, ch: char, j: nat)
    requires ch !in post && LastIndexOfChar(r, ch) == Some(j)
    ensures LastIndexOfChar(r + post, ch) == Some(j)
  {
    var c := r + post;
    assert c[j + 1..] == r[j + 1..] + post;
    LastIndexOfCharAt(c, ch, j);
  }

  lemma {:induction false} FirstInSuffix(r: string, post: string, ch: char) returns (k: nat)
    requires ch !in r && ch in post
    ensures FirstIndexOfChar(r + post, ch) == Some(k) && k >= |r|
  {
    var c := r + post;
    assert forall m :: 0 <= m < |r| ==> c[m] == r[m];
    var p :| 0 <= p < |post| && post[p] == ch;
    assert c[|r| + p] == ch;
    k := FirstIndexOfChar(c, ch).value;
  }

  lemma {:induction false} PrefixedSlice(pre: string, r: string, i: nat, j: nat, a: nat, b: nat)
    requires j < |r| && a == |pre| + i && b == |pre| + j
    ensures b > a <==> j > i
    ensures b > a ==> (pre + r)[a..b + 1] == r[i..j + 1]
  {
  }

  lemma {:induction false} SliceBeforeSuffix(r: string, post: string, i: nat, j: nat)
    requires i <= j < |r|
    ensures (r + post)[i..j + 1] == r[i..j + 1]
  {
  }

  /** The clean-up before the search never changes what the search finds. */
  lemma {:induction false} StripFencesSpan(content: string)
    ensures JsonSpan(StripFences(content)) == JsonSpan(content)
  {
    var pre, post := StripFencesAt(content);
    SpanOfCut(StripFences(content), content, pre, post);
  }

  /** Trimming white space around text that has none at its edges. */
  lemma {:induction false} TrimAround(pre: string, x: string, post: string)
    requires AllSpace(pre) && AllSpace(post) && |x| > 0 && !IsSpace(x[0]) && !IsSpace(x[|x| - 1])
    ensures Trim(pre + x + post) == x
  {
    var s := pre + x + post;
    assert forall k :: 0 <= k < |pre| ==> s[k] == pre[k];
    assert s[|pre|] == x[0];
    assert LeadingSpaces(s) == |pre|;
    var t := s[|pre|..];
    assert t == x + post;
    assert forall k :: 0 <= k < |post| ==> t[|x| + k] == post[k];
    assert t[|x| - 1] == x[|x| - 1];
    assert TrailingSpaces(t) == |post|;
    assert t[..|t| - |post|] == x;
  }

  /** A fenced reply, "```json", the object, "```", with any white space around the parts, yields
      the object. */
  lemma {:induction false} FencedReply(pre: string, gap: string, obj: string, gap2: string, post: string)
    requires AllSpace(pre) && AllSpace(gap) && AllSpace(gap2) && AllSpace(post)
    requires |obj| >= 2 && obj[0] == '{' && obj[|obj| - 1] == '}'
    ensures JsonSpan(StripFences(pre + JsonFence + gap + obj + gap2 + Fence + post)) == Some(obj)
  {
    FencedReplyWith(JsonFence, Fence, pre, gap, obj, gap2, post);
  }

  lemma {:induction false} FencedReplyWith(jsonFence: string, fence: string, pre: string, gap: string, obj: string, gap2: string, post: string)
    requires |jsonFence| > 0 && |fence| > 0 && jsonFence[0] == '`' && fence[0] == '`' && fence[|fence| - 1] == '`'
    requires AllSpace(pre) && AllSpace(gap) && AllSpace(gap2) && AllSpace(post)
    requires |obj| >= 2 && obj[0] == '{' && obj[|obj| - 1] == '}'
    ensures JsonSpan(StripFencesWith(jsonFence, fence, pre + jsonFence + gap + obj + gap2 + fence + post)) == Some(obj)
  {
    StripFenced(jsonFence, fence, pre, gap, obj, gap2, post);
    SpanOfObject(obj);
  }

  /** An object on its own is its own span. */
  lemma {:induction false} SpanOfObject(obj: string)
    requires |obj| >= 2 && obj[0] == '{' && obj[|obj| - 1] == '}'
    ensures JsonSpan(obj) == Some(obj)
  {
    SpanOfEmbedded([], obj, []);
    assert [] + obj + [] == obj;
  }

  lemma {:induction false} StripFenced(jsonFence: string, fence: string, pre: string, gap: string, obj: string, gap2: string, post: string)
    requires |jsonFence| > 0 && |fence| > 0 && jsonFence[0] == '`' && fence[0] == '`' && fence[|fence| - 1] == '`'
    requires AllSpace(pre) && AllSpace(gap) && AllSpace(gap2) && AllSpace(post)
    requires |obj| >= 2 && obj[0] == '{' && obj[|obj| - 1] == '}'
    ensures StripFencesWith(jsonFence, fence, pre + jsonFence + gap + obj + gap2 + fence + post) == obj
  {
    var inner := jsonFence + gap + obj + gap2 + fence;
    var content := pre + jsonFence + gap + obj + gap2 + fence + post;
    assert content == pre + inner + post;
    assert Trim(content) == inner by {
      assert inner[0] == '`' && inner[|inner| - 1] == '`';
      TrimAround(pre, inner, post);
    }
    UnfenceFenced(jsonFence, fence, gap, obj, gap2);
  }

  lemma {:induction false} UnfenceFenced(jsonFence: string, fence: string, gap: string, obj: string, gap2: string)
    requires |fence| > 0 && fence[0] == '`'
    requires AllSpace(gap) && AllSpace(gap2)
    requires |obj| >= 2 && obj[0] == '{' && obj[|obj| - 1] == '}'
    ensures Unfence(jsonFence, fence, jsonFence + gap + obj + gap2 + fence) == obj
  {
    var inner := jsonFence + gap + obj + gap2 + fence;
    var c1 := gap + obj + gap2 + fence;
    assert inner[..|jsonFence|] == jsonFence && inner[|jsonFence|..] == c1;
    assert !StartsWith(c1, fence) by {
      assert |gap| > 0 ==> c1[0] == gap[0];
      assert |gap| == 0 ==> c1[0] == '{';
    }
    var c3 := gap + obj + gap2;
    assert c1[|c3|..] == fence && c1[..|c1| - |fence|] == c3;
    assert DropLeading(inner, jsonFence) == c1;
    assert DropLeading(c1, fence) == c1;
    assert DropTrailing(c1, fence) == c3;
    TrimAround(gap, obj, gap2);
  }

  // ---------------------------------------------------------------------------------------------
  // Stamping and the two providers
  // ---------------------------------------------------------------------------------------------

  /** The keys the generator writes around the model's object. */
  const StampKeys := {"videoId", "hasTranscript", "generatedAt", "model"}

  /** A summary as the generators return it: the three stamps after the model's fields. */
  predicate Stamped(o: Object, hasTranscript: bool, generatedAt: string, model: string) {
    && "videoId" in o
    && "hasTranscript" in o && o["hasTranscript"] == JBool(hasTranscript)
    && "generatedAt" in o && o["generatedAt"] == JStr(generatedAt)
    && "model" in o && o["model"] == JStr(model)
  }

  /** `{ videoId, ...parsed, hasTranscript, generatedAt, model }`: later keys win, so the model's
      object may replace `videoId` but not the three keys written after it. */
  function Stamp(parsed: Object, videoId: string, hasTranscript: bool, generatedAt: string, model: string): (r: Object)
    ensures r.Keys == parsed.Keys + StampKeys
    ensures "videoId" in r && "hasTranscript" in r && "generatedAt" in r && "model" in r
    ensures r["hasTranscript"] == JBool(hasTranscript) && r["generatedAt"] == JStr(generatedAt)
    ensures r["model"] == JStr(model)
    ensures r["videoId"] == if "videoId" in parsed then parsed["videoId"] else JStr(videoId)
    ensures forall k :: k in parsed && k !in StampKeys ==> r[k] == parsed[k]
  {
    map["videoId" := JStr(videoId)] + parsed
    + map["hasTranscript" := JBool(hasTranscript), "generatedAt" := JStr(generatedAt), "model" := JStr(model)]
  }

  /** `data.choices[0]?.message?.content`: reading `choices` of `null`, or `[0]` of a missing or
      `null` `choices`, throws. */
  function ChoiceContent(data: JsonValue): (r: Result<Option<JsonValue>>)
    ensures data == JNull ==> r.Err?
    ensures r.Ok? && r.value.Some? ==> data.JObj? && "choices" in data.fields
    // the read throws exactly when there is no body or no `choices` to index
    ensures r.Ok? <==> data != JNull && Property(data, "choices").Some? && Property(data, "choices").value != JNull
    // an array of choices gives the `message.content` of its first element, if any
    ensures var cs := Property(data, "choices");
      cs.Some? && cs.value.JArr? && |cs.value.items| > 0 ==>
        r == Ok(Step(Step(Some(cs.value.items[0]), "message"), "content"))
    ensures var cs := Property(data, "choices");
      cs.Some? && cs.value.JArr? && |cs.value.items| == 0 ==> r == Ok(None)
  {
    if data == JNull then Err(TypeErrorMessage)
    else
      var choices := Property(data, "choices");
      if choices.None? || choices.value == JNull then Err(TypeErrorMessage)
      else
        var first :=
          match choices.value
          case JArr(items) => if |items| > 0 then Some(items[0]) else None
          case JObj(fields) => if "0" in fields then Some(fields["0"]) else None
          case _ => None;
        Ok(Step(Step(first, "message"), "content"))
  }

  /** `generateWithPerplexity(videoData, videoId)`. `apiKey` is empty when no key is configured,
      `ask` is the chat-completions endpoint called with the prompt, `readJson` is
      `response.json()`, `parse` is `JSON.parse` and `now` the ISO time of the call. */
  function GenerateWithPerplexity(
    apiKey: string, v: VideoData, videoId: string, ask: string -> Reply,
    readJson: string -> Result<JsonValue>, parse: string -> Result<Object>, now: string): (r: Result<Object>)
    ensures apiKey == [] ==> r == Err(MissingKeyMessage)
    ensures r.Ok? ==> apiKey != [] && Stamped(r.value, v.hasTranscript, now, PerplexityModel)
    ensures r.Ok? ==> PerplexityWrote(ask(BuildPrompt(v)), r.value, readJson, parse, videoId, v.hasTranscript, now)
    // with a key, the outcome is what the endpoint's reply to the prompt makes
    ensures apiKey != [] ==> r == PerplexityReply(ask(BuildPrompt(v)), videoId, v.hasTranscript, readJson, parse, now)
  {
    if apiKey == [] then Err(MissingKeyMessage)
    else PerplexityReply(ask(BuildPrompt(v)), videoId, v.hasTranscript, readJson, parse, now)
  }

  /** What `generateWithPerplexity` makes of the endpoint's reply to the prompt. */
  function PerplexityReply(reply: Reply, videoId: string, hasTranscript: bool,
                           readJson: string -> Result<JsonValue>, parse: string -> Result<Object>,
                           now: string): (r: Result<Object>)
    ensures reply.Threw? ==> r == Err(reply.message)
    ensures reply.Response? && !IsOk(reply) ==>
      r == Err("Perplexity API error: " + JsNumber.Show(reply.status) + " - " + reply.text)
    ensures r.Ok? ==> IsOk(reply) && Stamped(r.value, hasTranscript, now, PerplexityModel)
    ensures r.Ok? ==> PerplexityWrote(reply, r.value, readJson, parse, videoId, hasTranscript, now)
    // an OK reply goes on to its decoded body
    ensures IsOk(reply) && readJson(reply.text).Err? ==> r == Err(readJson(reply.text).message)
    ensures IsOk(reply) && readJson(reply.text).Ok? ==>
      r == PerplexityAnswer(readJson(reply.text).value, videoId, hasTranscript, parse, now)
  {
    match reply
    case Threw(m) => Err(m)
    case Response(status, body) =>
      if !IsOk(reply) then Err("Perplexity API error: " + JsNumber.Show(status) + " - " + body)
      else
        match readJson(body)
        case Err(m) => Err(m)
        case Ok(data) => PerplexityAnswer(data, videoId, hasTranscript, parse, now)
  }

  /** `o` is the object `parseJsonResponse` reads from the model's `content`, stamped. */
  predicate ReadAndStamped(o: Object, content: string, parse: string -> Result<Object>,
                           videoId: string, hasTranscript: bool, now: string, model: string) {
    ParseJsonResponse(content, parse).Ok?
    && o == Stamp(ParseJsonResponse(content, parse).value, videoId, hasTranscript, now, model)
  }

  /** `o` is read and stamped from the text of the first choice in the decoded body `data`. */
  predicate ChoiceWrote(data: JsonValue, o: Object, parse: string -> Result<Object>,
                        videoId: string, hasTranscript: bool, now: string) {
    var c := ChoiceContent(data);
    c.Ok? && c.value.Some? && c.value.value.JStr?
    && ReadAndStamped(o, c.value.value.s, parse, videoId, hasTranscript, now, PerplexityModel)
  }

  /** `o` is what the model wrote in the endpoint's successful `reply`, read and stamped. */
  predicate PerplexityWrote(reply: Reply, o: Object, readJson: string -> Result<JsonValue>,
                            parse: string -> Result<Object>, videoId: string, hasTranscript: bool, now: string) {
    IsOk(reply) && readJson(reply.text).Ok?
    && ChoiceWrote(readJson(reply.text).value, o, parse, videoId, hasTranscript, now)
  }

  /** An empty reply holds no JSON object. */
  lemma {:induction false} EmptyReplyHasNoJson(s: string, parse: string -> Result<Object>)
    requires s == []
    ensures ParseJsonResponse(s, parse) == Err(NoJsonMessage)
  {
    assert JsonSpan(s).None?;
  }

  /** What `generateWithPerplexity` makes of the decoded body of a successful reply. */
  function PerplexityAnswer(data: JsonValue, videoId: string, hasTranscript: bool,
                            parse: string -> Result<Object>, now: string): (r: Result<Object>)
    ensures ChoiceContent(data).Ok? && (ChoiceContent(data).value.None? || !Truthy(ChoiceContent(data).value.value)) ==>
      r == Err(NoContentMessage)
    ensures ChoiceContent(data).Err? ==> r == Err(ChoiceContent(data).message)
    ensures var c := ChoiceContent(data);
      c.Ok? && c.value.Some? && Truthy(c.value.value) && !c.value.value.JStr? ==> r == Err(TypeErrorMessage)
    ensures r.Ok? ==> Stamped(r.value, hasTranscript, now, PerplexityModel)
    // success is the stamped object read from the first choice's text, and a readable text succeeds
    ensures r.Ok? ==> ChoiceWrote(data, r.value, parse, videoId, hasTranscript, now)
    ensures var c := ChoiceContent(data);
      c.Ok? && c.value.Some? && c.value.value.JStr? && ParseJsonResponse(c.value.value.s, parse).Ok? ==> r.Ok?
  {
    match ChoiceContent(data)
    case Err(m) => Err(m)
    case Ok(content) =>
      if content.None? || !Truthy(content.value) then
        assert content.Some? && content.value.JStr? ==> ParseJsonResponse(content.value.s, parse).Err? by {
          if content.Some? && content.value.JStr? { EmptyReplyHasNoJson(content.value.s, parse); }
        }
        Err(NoContentMessage)
      else if !content.value.JStr? then Err(TypeErrorMessage)
      else
        match ParseJsonResponse(content.value.s, parse)
        case Err(m) => Err(m)
        case Ok(parsed) => Ok(Stamp(parsed, videoId, hasTranscript, now, PerplexityModel))
  }

  /** A reply whose first choice holds readable JSON text succeeds with that object, stamped. */
  lemma {:induction false} ReadableChoiceSucceeds(reply: Reply, data: JsonValue, text: string, p: Object,
                                                  videoId: string, hasTranscript: bool,
                                                  readJson: string -> Result<JsonValue>,
                                                  parse: string -> Result<Object>, now: string)
    requires IsOk(reply) && readJson(reply.text) == Ok(data)
    requires ChoiceContent(data) == Ok(Some(JStr(text))) && ParseJsonResponse(text, parse) == Ok(p)
    ensures PerplexityReply(reply, videoId, hasTranscript, readJson, parse, now)
         == Ok(Stamp(p, videoId, hasTranscript, now, PerplexityModel))
  {
    var r := PerplexityAnswer(data, videoId, hasTranscript, parse, now);
    assert r.Ok?;
    assert ChoiceWrote(data, r.value, parse, videoId, hasTranscript, now);
  }

  /** `generateWithGemini(videoData, videoId)`. `ask` is the SDK's `generateContent` followed by
      `response.text()`, failing with the message it throws. */
  function GenerateWithGemini(
    v: VideoData, videoId: string, ask: string -> Result<string>,
    parse: string -> Result<Object>, now: string): (r: Result<Object>)
    ensures r.Ok? ==> ask(BuildPrompt(v)).Ok? && Stamped(r.value, v.hasTranscript, now, GeminiModel)
    ensures r.Ok? ==> ReadAndStamped(r.value, ask(BuildPrompt(v)).value, parse, videoId, v.hasTranscript, now, GeminiModel)
    // a failed request fails with its message, and an answer fails exactly when it cannot be read
    ensures var reply := ask(BuildPrompt(v));
      (reply.Err? ==> r == Err(reply.message))
      && (reply.Ok? && ParseJsonResponse(reply.value, parse).Err? ==> r == Err(ParseJsonResponse(reply.value, parse).message))
      && (reply.Ok? && ParseJsonResponse(reply.value, parse).Ok? ==> r.Ok?)
  {
    GeminiReply(ask(BuildPrompt(v)), videoId, v.hasTranscript, parse, now)
  }

  /** What `generateWithGemini` makes of the model's reply to the prompt. */
  function GeminiReply(reply: Result<string>, videoId: string, hasTranscript: bool,
                       parse: string -> Result<Object>, now: string): (r: Result<Object>)
    ensures reply.Err? ==> r == Err(reply.message)
    ensures reply.Ok? ==>
      match ParseJsonResponse(reply.value, parse)
      case Err(m) => r == Err(m)
      case Ok(parsed) => r.Ok? && r.value.Keys == parsed.Keys + StampKeys
    ensures r.Ok? ==> Stamped(r.value, hasTranscript, now, GeminiModel)
    ensures r.Ok? ==> reply.Ok? && ReadAndStamped(r.value, reply.value, parse, videoId, hasTranscript, now, GeminiModel)
  {
    match reply
    case Err(m) => Err(m)
    case Ok(text) =>
      match ParseJsonResponse(text, parse)
      case Err(m) => Err(m)
      case Ok(parsed) => Ok(Stamp(parsed, videoId, hasTranscript, now, GeminiModel))
  }

  /** The model's object cannot hide which provider wrote the summary or when. */
  lemma {:induction false} StampOverridesModel(parsed: Object, videoId: string, h: bool, now: string, model: string)
    requires "model" in parsed && "generatedAt" in parsed && "hasTranscript" in parsed
    ensures var r := Stamp(parsed, videoId, h, now, model);
      r["model"] == JStr(model) && r["generatedAt"] == JStr(now) && r["hasTranscript"] == JBool(h)
  {
  }

  /** ... while a `videoId` in the model's object replaces the requested one. */
  lemma {:induction false} ModelOverridesVideoId(parsed: Object, videoId: string, h: bool, now: string, model: string)
    requires "videoId" in parsed
    ensures Stamp(parsed, videoId, h, now, model)["videoId"] == parsed["videoId"]
  {
  }
}

=== FILE: summary_route.dfy ===
/**
 * The three JSON routes of the server: `/api/summary/:videoId` with its file cache and its
 * provider fallback, `/api/video/:videoId`, and the `/api/cache` listing. The cache directory is
 * a map from video id to the stored summary; the calls a request makes are recorded in order.
 */
module SummaryRoute {
  import opened Wrappers
  import opened Text
  import opened Json
  import opened VideoPage

  /** The cache directory: `<videoId>.json` holds the summary generated for that video. */
  type Cache = map<string, Object>

  /** The outside calls a request can make. */
  datatype Call = FetchVideo | CallPerplexity | CallGemini

  /** A JSON reply with its status, the cache after the request, and the calls made. */
  datatype Outcome = Outcome(status: nat, body: Object, cache: Cache, calls: seq<Call>)

  /** A reply that leaves the cache alone. */
  datatype JsonReply = JsonReply(status: nat, body: Object)

  const FetchFailedBody: Object :=
    map["error" := JStr("Could not fetch video data"), "message" := JStr("Video not found or inaccessible")]

  /** `req.query.refresh === 'true'`; an absent parameter is `None`. */
  predicate ForceRefresh(refresh: Option<string>) {
    refresh == Some("true")
  }

  /** The body of a 500 reply. */
  function ServerError(message: string): (r: Object)
    ensures r.Keys == {"error", "message"} && r["message"] == JStr(message)
  {
    map["error" := JStr("Failed to generate summary"), "message" := JStr(message)]
  }

  /** The message when both providers fail. */
  function AllFailed(perplexityMessage: string, geminiMessage: string): string {
    "All AI providers failed. Perplexity: " + perplexityMessage + ", Gemini: " + geminiMessage
  }

  /** `summary` with `cached` set, as the route answers it. */
  function Tagged(summary: Object, cached: bool): (r: Object)
    ensures r.Keys == summary.Keys + {"cached"} && r["cached"] == JBool(cached)
    ensures forall k :: k in summary && k != "cached" ==> r[k] == summary[k]
  {
    summary + map["cached" := JBool(cached)]
  }

  /** `GET /api/summary/:videoId`. `video` is what `getVideoData` returns for the id, and
      `perplexity` and `gemini` are what the two generators return or throw for it. */
  function HandleSummary(cache: Cache, videoId: string, refresh: Option<string>, video: Option<VideoData>,
                         perplexity: Result<Object>, gemini: Result<Object>): (r: Outcome)
    // a stored summary is answered without any call and without touching the cache
    ensures !ForceRefresh(refresh) && videoId in cache ==>
      r == Outcome(200, Tagged(cache[videoId], true), cache, [])
    // otherwise the video is fetched first
    ensures ForceRefresh(refresh) || videoId !in cache ==> |r.calls| > 0 && r.calls[0] == FetchVideo
    ensures (ForceRefresh(refresh) || videoId !in cache) && video.None? ==>
      r == Outcome(404, FetchFailedBody, cache, [FetchVideo])
    // Gemini is asked only when Perplexity has failed, and only after it
    ensures CallGemini in r.calls ==> perplexity.Err? && r.calls == [FetchVideo, CallPerplexity, CallGemini]
    // the cache changes only by storing the new summary under this id
    ensures r.cache == cache || (r.status == 200 && videoId in r.cache && r.cache == cache[videoId := r.cache[videoId]])
    ensures r.status == 500 ==>
      (perplexity.Err? && gemini.Err? && r.cache == cache
       && r.body == ServerError(AllFailed(perplexity.message, gemini.message)))
    // on a miss with video data, Perplexity's summary is stored and answered
    ensures (ForceRefresh(refresh) || videoId !in cache) && video.Some? && perplexity.Ok? ==>
      r == Outcome(200, Tagged(perplexity.value, false), cache[videoId := perplexity.value], [FetchVideo, CallPerplexity])
    // when Perplexity fails, Gemini's summary is stored and answered
    ensures (ForceRefresh(refresh) || videoId !in cache) && video.Some? && perplexity.Err? && gemini.Ok? ==>
      r == Outcome(200, Tagged(gemini.value, false), cache[videoId := gemini.value],
                   [FetchVideo, CallPerplexity, CallGemini])
    // when both fail, one 500 names both messages and nothing is stored
    ensures (ForceRefresh(refresh) || videoId !in cache) && video.Some? && perplexity.Err? && gemini.Err? ==>
      r.status == 500 && r.cache == cache && r.calls == [FetchVideo, CallPerplexity, CallGemini]
    ensures r.status == 200 && r.calls != [] ==>
      (videoId in r.cache && r.body == Tagged(r.cache[videoId], false)
       && (perplexity.Ok? ==> r.cache[videoId] == perplexity.value)
       && (perplexity.Err? ==> gemini.Ok? && r.cache[videoId] == gemini.value))
  {
    if !ForceRefresh(refresh) && videoId in cache then
      Outcome(200, Tagged(cache[videoId], true), cache, [])
    else if video.None? then
      Outcome(404, FetchFailedBody, cache, [FetchVideo])
    else
      match perplexity
      case Ok(summary) =>
        Outcome(200, Tagged(summary, false), cache[videoId := summary], [FetchVideo, CallPerplexity])
      case Err(pm) =>
        match gemini
        case Ok(summary) =>
          Outcome(200, Tagged(summary, false), cache[videoId := summary], [FetchVideo, CallPerplexity, CallGemini])
        case Err(gm) =>
          Outcome(500, ServerError(AllFailed(pm, gm)), cache, [FetchVideo, CallPerplexity, CallGemini])
  }

  /** Every other video's entry is left as it was. */
  lemma {:induction false} OtherEntriesKept(cache: Cache, videoId: string, refresh: Option<string>, video: Option<VideoData>,
                         perplexity: Result<Object>, gemini: Result<Object>, other: string)
    requires other != videoId
    ensures var r := HandleSummary(cache, videoId, refresh, video, perplexity, gemini);
      (other in r.cache <==> other in cache) && (other in cache ==> r.cache[other] == cache[other])
  {
  }

  /** Asking again without `refresh=true` after a summary was generated gives the same summary from
      the cache, with no call, and `cached` now true. */
  lemma {:induction false} RepeatIsCacheHit(cache: Cache, videoId: string, refresh: Option<string>, video: Option<VideoData>,
                         perplexity: Result<Object>, gemini: Result<Object>,
                         refresh2: Option<string>, video2: Option<VideoData>,
                         perplexity2: Result<Object>, gemini2: Result<Object>)
    requires !ForceRefresh(refresh2)
    requires HandleSummary(cache, videoId, refresh, video, perplexity, gemini).status == 200
    ensures var first := HandleSummary(cache, videoId, refresh, video, perplexity, gemini);
      var second := HandleSummary(first.cache, videoId, refresh2, video2, perplexity2, gemini2);
      second.status == 200 && second.calls == [] && second.cache == first.cache
      && second.body == first.body["cached" := JBool(true)]
  {
    var first := HandleSummary(cache, videoId, refresh, video, perplexity, gemini);
    assert videoId in first.cache;
    var s := first.cache[videoId];
    assert first.body == Tagged(s, false) || first.body == Tagged(s, true);
    assert Tagged(s, false)["cached" := JBool(true)] == Tagged(s, true);
    assert Tagged(s, true)["cached" := JBool(true)] == Tagged(s, true);
  }

  /** `refresh=true` always fetches the video again, whatever is stored. */
  lemma {:induction false} RefreshBypassesCache(cache: Cache, videoId: string, video: Option<VideoData>,
                             perplexity: Result<Object>, gemini: Result<Object>)
    ensures HandleSummary(cache, videoId, Some("true"), video, perplexity, gemini).calls[0] == FetchVideo
  {
  }

  // ---------------------------------------------------------------------------------------------
  // /api/video/:videoId
  // ---------------------------------------------------------------------------------------------

  /** The video data as `res.json` writes it. */
  function VideoJson(v: VideoData): (r: Object)
    ensures r.Keys == {"videoId", "title", "description", "transcript", "hasTranscript"}
    ensures r["videoId"] == JStr(v.videoId) && r["hasTranscript"] == JBool(v.hasTranscript)
    ensures r["title"] == JStr(v.title) && r["description"] == JStr(v.description)
    ensures r["transcript"] == JNull <==> v.transcript.None?
    ensures v.transcript.Some? ==> r["transcript"] == JStr(v.transcript.value)
  {
    map["videoId" := JStr(v.videoId), "title" := JStr(v.title), "description" := JStr(v.description),
        "transcript" := (if v.transcript.Some? then JStr(v.transcript.value) else JNull),
        "hasTranscript" := JBool(v.hasTranscript)]
  }

  /** `GET /api/video/:videoId`, with `video` what `getVideoData` returns. */
  function HandleVideo(video: Option<VideoData>): (r: JsonReply)
    ensures video.None? <==> r.status == 404
    ensures video.None? ==> r.body == map["error" := JStr("Video not found")]
    ensures video.Some? ==> r.status == 200 && r.body == VideoJson(video.value)
  {
    if video.None? then JsonReply(404, map["error" := JStr("Video not found")]) else JsonReply(200, VideoJson(video.value))
  }

  // ---------------------------------------------------------------------------------------------
  // /api/cache
  // ---------------------------------------------------------------------------------------------

  const JsonExtension := ".json"

  /** One line of the listing; a field the stored summary lacks is left out of the reply. */
  datatype Listed = Listed(videoId: string, title: Option<JsonValue>, generatedAt: Option<JsonValue>)

  /** The id shown for a cache file: `f.replace('.json', '')`, which drops the FIRST ".json" of the
      file name. */
  function ListedId(fileName: string): string {
    ReplaceFirst(fileName, JsonExtension, [])
  }

  /** The line listed for the summary `s` stored in the file `videoId + ".json"`. */
  function LineOf(videoId: string, s: Object): Listed {
    Listed(ListedId(videoId + JsonExtension), Property(JObj(s), "title"), Property(JObj(s), "generatedAt"))
  }

  /** `GET /api/cache`. The files are listed in no particular order, so the reply is a set. */
  function ListCache(cache: Cache): (r: set<Listed>)
    ensures forall k :: k in cache ==> LineOf(k, cache[k]) in r
    // and nothing else: every line is the one of some cached summary
    ensures forall e :: e in r ==> exists k :: k in cache && e == LineOf(k, cache[k])
  {
    set k | k in cache :: LineOf(k, cache[k])
  }

  lemma {:induction false} ExtensionNoOverlap()
    ensures NoSelfOverlap(JsonExtension)
  {
    var p := JsonExtension;
    forall m | 0 < m < |p| ensures !(p[m..] <= p) {
      assert p[m..][0] == p[m] != p[0];
    }
  }

  /** For an id without ".json" in it, the listing shows that id. */
  lemma {:induction false} ListedIdOfFile(videoId: string)
    requires !Contains(videoId, JsonExtension)
    ensures ListedId(videoId + JsonExtension) == videoId
  {
    ExtensionNoOverlap();
    ReplaceFirstSuffix(videoId, JsonExtension);
  }

  /** After a summary is generated, the listing shows it with its title and time. */
  lemma {:induction false} GeneratedIsListed(cache: Cache, videoId: string, refresh: Option<string>, video: Option<VideoData>,
                          perplexity: Result<Object>, gemini: Result<Object>)
    requires !Contains(videoId, JsonExtension)
    requires HandleSummary(cache, videoId, refresh, video, perplexity, gemini).status == 200
    ensures var s := HandleSummary(cache, videoId, refresh, video, perplexity, gemini).cache;
      videoId in s
      && Listed(videoId, Property(JObj(s[videoId]), "title"), Property(JObj(s[videoId]), "generatedAt")) in ListCache(s)
  {
    ListedIdOfFile(videoId);
  }
}

=== FILE: text.dfy ===
/**
 * String operations of JavaScript's `String.prototype` that the site's code relies on, over
 * `string` (a sequence of Unicode scalar values). Every function here is the behaviour of one
 * built-in, restricted to the way the source calls it.
 */
module Text {
  import opened Wrappers

  /** The characters matched by the regex class `\s` and removed by `trim()`: ECMAScript's
      WhiteSpace and LineTerminator productions. */
  predicate IsSpace(c: char) {
    || c == '\t' || c == '\n' || c == '\U{000B}' || c == '\U{000C}' || c == '\r' || c == ' '
    || c == '\U{00A0}' || c == '\U{1680}' || ('\U{2000}' <= c <= '\U{200A}')
    || c == '\U{2028}' || c == '\U{2029}' || c == '\U{202F}' || c == '\U{205F}'
    || c == '\U{3000}' || c == '\U{FEFF}'
  }

  predicate IsDigit(c: char) {
    '0' <= c <= '9'
  }

  predicate AllSpace(s: string) {
    forall i :: 0 <= i < |s| ==> IsSpace(s[i])
  }

  /** Number of white-space characters at the start of `s`. */
  function LeadingSpaces(s: string): (n: nat)
    ensures n <= |s|
    ensures forall i :: 0 <= i < n ==> IsSpace(s[i])
    ensures n < |s| ==> !IsSpace(s[n])
  {
    if |s| > 0 && IsSpace(s[0]) then 1 + LeadingSpaces(s[1..]) else 0
  }

  /** Number of white-space characters at the end of `s`. */
  function TrailingSpaces(s: string): (n: nat)
    ensures n <= |s|
    ensures forall i :: |s| - n <= i < |s| ==> IsSpace(s[i])
    ensures n < |s| ==> !IsSpace(s[|s| - n - 1])
  {
    if |s| > 0 && IsSpace(s[|s| - 1]) then 1 + TrailingSpaces(s[..|s| - 1]) else 0
  }

  /** Text with no white space at either end, as `trim()` leaves it. */
  predicate Unpadded(s: string) {
    s == [] || (!IsSpace(s[0]) && !IsSpace(s[|s| - 1]))
  }

  /** `s.trim()`: the text between the leading and the trailing white space. */
  function Trim(s: string): (r: string)
    ensures |r| <= |s|
    ensures Unpadded(r)
    ensures AllSpace(s) <==> r == []
  {
    var lo := LeadingSpaces(s);
    var t := s[lo..];
    var n := TrailingSpaces(t);
    assert AllSpace(s) ==> lo == |s|;
    assert n == |t| ==> AllSpace(s) by {
      assert forall i :: lo <= i < |s| ==> s[i] == t[i - lo];
    }
    t[..|t| - n]
  }

  predicate StartsWith(s: string, p: string) {
    p <= s
  }

  predicate EndsWith(s: string, p: string) {
    |p| <= |s| && s[|s| - |p|..] == p
  }

  /** `p` occurs in `s` starting at index `i`. */
  predicate OccursAt(s: string, p: string, i: int) {
    0 <= i && i + |p| <= |s| && s[i..i + |p|] == p
  }

  /** `s.indexOf(p)`: the leftmost occurrence of `p` in `s`, or `None` for `-1`. */
  function IndexOf(s: string, p: string): (r: Option<nat>)
    ensures r.Some? ==> OccursAt(s, p, r.value) && forall j :: 0 <= j < r.value ==> !OccursAt(s, p, j)
    ensures r.None? ==> forall j :: 0 <= j <= |s| ==> !OccursAt(s, p, j)
    decreases |s|
  {
    if p <= s then
      assert s[0..|p|] == p;
      Some(0)
    else if |s| == 0 then None
    else
      var r := IndexOf(s[1..], p);
      assert forall j :: 1 <= j <= |s| ==> (OccursAt(s, p, j) <==> OccursAt(s[1..], p, j - 1)) by {
        forall j | 1 <= j <= |s| ensures OccursAt(s, p, j) <==> OccursAt(s[1..], p, j - 1) {
          if j + |p| <= |s| { assert s[j..j + |p|] == s[1..][j - 1..j - 1 + |p|]; }
        }
      }
      if r.Some? then Some(r.value + 1) else None
  }

  /** `s.includes(p)`. */
  predicate Contains(s: string, p: string) {
    IndexOf(s, p).Some?
  }

  /** The index of the first occurrence of character `c`, if any. */
  function FirstIndexOfChar(s: string, c: char): (r: Option<nat>)
    ensures r.Some? ==> r.value < |s| && s[r.value] == c && c !in s[..r.value]
    ensures r.None? <==> c !in s
  {
    if |s| == 0 then None
    else if s[0] == c then Some(0)
    else
      var r := FirstIndexOfChar(s[1..], c);
      assert s == [s[0]] + s[1..];
      if r.Some? then
        assert s[..r.value + 1] == [s[0]] + s[1..][..r.value];
        Some(r.value + 1)
      else None
  }

  /** The first occurrence of `c` is at `i` when `s[i]` is `c` and no earlier character is. */
  lemma {:induction false} FirstIndexOfCharAt(s: string, c: char, i: nat)
    requires i < |s| && s[i] == c && c !in s[..i]
    ensures FirstIndexOfChar(s, c) == Some(i)
  {
    assert s[i] in s;
    assert forall k :: i < k <= |s| ==> s[..k][i] == s[i];
    assert forall k :: 0 <= k < i ==> s[..i][k] == s[k];
  }

  /** The index of the last occurrence of character `c`, if any. */
  function LastIndexOfChar(s: string, c: char): (r: Option<nat>)
    ensures r.Some? ==> r.value < |s| && s[r.value] == c && c !in s[r.value + 1..]
    ensures r.None? <==> c !in s
  {
    if |s| == 0 then None
    else if s[|s| - 1] == c then Some(|s| - 1)
    else
      var r := LastIndexOfChar(s[..|s| - 1], c);
      assert s == s[..|s| - 1] + [s[|s| - 1]];
      if r.Some? then
        assert s[r.value + 1..] == s[..|s| - 1][r.value + 1..] + [s[|s| - 1]];
        r
      else None
  }

  /** The last occurrence of `c` is at `i` when `s[i]` is `c` and no later character is. */
  lemma {:induction false} LastIndexOfCharAt(s: string, c: char, i: nat)
    requires i < |s| && s[i] == c && c !in s[i + 1..]
    ensures LastIndexOfChar(s, c) == Some(i)
  {
    assert s[i] in s;
  }

  /** `s.replace(p, rep)` with a string pattern: only the first occurrence is replaced. */
  function ReplaceFirst(s: string, p: string, rep: string): (r: string)
    ensures !Contains(s, p) ==> r == s
    ensures Contains(s, p) ==>
      var i := IndexOf(s, p).value;
      r == s[..i] + rep + s[i + |p|..] && forall j :: 0 <= j < i ==> !OccursAt(s, p, j)
  {
    match IndexOf(s, p)
    case None => s
    case Some(i) => s[..i] + rep + s[i + |p|..]
  }

  /** A character that neither the text nor the replacement holds is not in the result. */
  lemma {:induction false} ReplaceFirstAvoids(s: string, p: string, rep: string, c: char)
    requires c !in s && c !in rep
    ensures c !in ReplaceFirst(s, p, rep)
  {
    if Contains(s, p) {
      var i := IndexOf(s, p).value;
      var a, b := s[..i], s[i + |p|..];
      assert forall k :: 0 <= k < |a| ==> a[k] in s;
      assert forall k :: 0 <= k < |b| ==> b[k] == s[i + |p| + k];
    }
  }

  /** `s.replace(/p/g, rep)` for a literal, non-empty pattern `p`: occurrences are replaced left to
      right, and scanning resumes after each replaced occurrence. */
  function ReplaceAll(s: string, p: string, rep: string): (r: string)
    requires |p| > 0
    ensures |rep| <= |p| ==> |r| <= |s|
    ensures p[0] !in s ==> r == s
    ensures forall i :: 0 <= i < |r| ==> r[i] in s || r[i] in rep
    decreases |s|
  {
    if |s| == 0 then []
    else if p <= s then rep + ReplaceAll(s[|p|..], p, rep)
    else
      assert p[0] !in s ==> p[0] !in s[1..];
      [s[0]] + ReplaceAll(s[1..], p, rep)
  }

  /** Text that cannot start an occurrence is copied unchanged, and scanning resumes after it. */
  lemma {:induction false} ReplaceAllSkip(x: string, y: string, p: string, rep: string)
    requires |p| > 0 && p[0] !in x
    ensures ReplaceAll(x + y, p, rep) == x + ReplaceAll(y, p, rep)
    decreases |x|
  {
    if |x| > 0 {
      assert (x + y)[1..] == x[1..] + y;
      assert (x + y)[0] == x[0];
      ReplaceAllSkip(x[1..], y, p, rep);
      assert x == [x[0]] + x[1..];
    } else {
      assert x + y == y;
    }
  }

  /** An occurrence at the start is replaced, and scanning resumes after it. */
  lemma {:induction false} ReplaceAllAt(p: string, rest: string, rep: string)
    requires |p| > 0
    ensures ReplaceAll(p + rest, p, rep) == rep + ReplaceAll(rest, p, rep)
  {
    assert p <= p + rest;
    assert (p + rest)[|p|..] == rest;
  }

  /** Text that starts no occurrence, and whose later characters cannot start one, is copied. */
  lemma {:induction false} ReplaceAllMiss(x: string, y: string, p: string, rep: string)
    requires |p| > 0 && |x| > 0 && !(p <= x + y) && p[0] !in x[1..]
    ensures ReplaceAll(x + y, p, rep) == x + ReplaceAll(y, p, rep)
  {
    var s, t, r := x + y, x[1..], ReplaceAll(y, p, rep);
    assert ReplaceAll(s, p, rep) == [x[0]] + ReplaceAll(t + y, p, rep) by {
      ReplaceAllStep(s, p, rep);
      assert s[0] == x[0] && s[1..] == t + y;
    }
    assert ReplaceAll(t + y, p, rep) == t + r by {
      ReplaceAllSkip(t, y, p, rep);
    }
    assert [x[0]] + (t + r) == x + r by {
      assert x == [x[0]] + t;
    }
  }

  lemma {:induction false} ReplaceAllStep(s: string, p: string, rep: string)
    requires |p| > 0 && |s| > 0 && !(p <= s)
    ensures ReplaceAll(s, p, rep) == [s[0]] + ReplaceAll(s[1..], p, rep)
  {
  }

  /** Lower-cases ASCII letters and leaves every other character unchanged. */
  function ToLowerAscii(s: string): (r: string)
    ensures |r| == |s|
    ensures forall i :: 0 <= i < |s| && !('A' <= s[i] <= 'Z') ==> r[i] == s[i]
    ensures forall i :: 0 <= i < |r| ==> !('A' <= r[i] <= 'Z')
  {
    if |s| == 0 then []
    else
      var c := s[0];
      var d := if 'A' <= c <= 'Z' then (c as int + 32) as char else c;
      [d] + ToLowerAscii(s[1..])
  }

  /** `s.split(sep)` for a one-character separator. */
  function Split(s: string, sep: char): (parts: seq<string>)
    ensures |parts| >= 1
    ensures forall k :: 0 <= k < |parts| ==> sep !in parts[k]
    ensures Join(parts, [sep]) == s
  {
    match FirstIndexOfChar(s, sep)
    case None => [s]
    case Some(i) =>
      var rest := Split(s[i + 1..], sep);
      assert s == s[..i] + [sep] + s[i + 1..];
      [s[..i]] + rest
  }

  /** `parts.join(sep)`. */
  function Join(parts: seq<string>, sep: string): string {
    if |parts| == 0 then []
    else if |parts| == 1 then parts[0]
    else parts[0] + sep + Join(parts[1..], sep)
  }

  /** `s.split(sep).pop()`: the text after the last separator, or all of `s`. */
  function LastSegment(s: string, sep: char): (r: string)
    ensures sep !in r
    ensures |r| <= |s| && r == s[|s| - |r|..]
    ensures r == s || s[|s| - |r| - 1] == sep
  {
    match LastIndexOfChar(s, sep)
    case None => s
    case Some(i) => s[i + 1..]
  }

  /** The non-white-space characters of `s`, in order. */
  function Visible(s: string): string {
    if |s| == 0 then []
    else if IsSpace(s[0]) then Visible(s[1..])
    else [s[0]] + Visible(s[1..])
  }

  lemma {:induction false} VisibleAppend(a: string, b: string)
    ensures Visible(a + b) == Visible(a) + Visible(b)
    decreases |a|
  {
    if |a| > 0 {
      assert (a + b)[1..] == a[1..] + b;
      VisibleAppend(a[1..], b);
    } else {
      assert a + b == b;
    }
  }

  lemma {:induction false} VisibleOfSpaces(s: string)
    requires AllSpace(s)
    ensures Visible(s) == []
    decreases |s|
  {
    if |s| > 0 {
      VisibleOfSpaces(s[1..]);
    }
  }

  lemma {:induction false} VisibleEmptyIsAllSpace(s: string)
    requires Visible(s) == []
    ensures AllSpace(s)
    decreases |s|
  {
    if |s| > 0 {
      VisibleEmptyIsAllSpace(s[1..]);
    }
  }

  /** No two white-space characters are adjacent, and the only white space is the plain space. */
  predicate Collapsed(s: string) {
    && (forall i :: 0 <= i < |s| && IsSpace(s[i]) ==> s[i] == ' ')
    && (forall i :: 0 <= i < |s| - 1 && IsSpace(s[i]) ==> !IsSpace(s[i + 1]))
  }

  /** `s.replace(/\s+/g, ' ')`: every maximal run of white space becomes one space. */
  function Collapse(s: string): (r: string)
    ensures Collapsed(r)
    ensures Visible(r) == Visible(s)
    ensures |s| > 0 ==> |r| > 0 && (IsSpace(r[0]) <==> IsSpace(s[0]))
    decreases |s|
  {
    if |s| == 0 then []
    else if IsSpace(s[0]) then
      var n := LeadingSpaces(s);
      var rest := Collapse(s[n..]);
      assert s == s[..n] + s[n..];
      VisibleAppend(s[..n], s[n..]);
      VisibleOfSpaces(s[..n]);
      " " + rest
    else
      assert s == [s[0]] + s[1..];
      [s[0]] + Collapse(s[1..])
  }

  lemma {:induction false} CollapsedSlice(s: string, lo: nat, hi: nat)
    requires Collapsed(s) && lo <= hi <= |s|
    ensures Collapsed(s[lo..hi])
  {
    assert forall i :: 0 <= i < hi - lo ==> s[lo..hi][i] == s[lo + i];
  }

  /** `Trim(s)` is a slice of `s` with only white space cut off either side. */
  lemma {:induction false} TrimLayout(s: string) returns (lo: nat, hi: nat)
    ensures lo <= hi <= |s| && Trim(s) == s[lo..hi]
    ensures AllSpace(s[..lo]) && AllSpace(s[hi..])
  {
    lo := LeadingSpaces(s);
    var t := s[lo..];
    var n := TrailingSpaces(t);
    hi := |s| - n;
    assert t[..|t| - n] == s[lo..hi];
    assert forall i :: 0 <= i < |s| - hi ==> s[hi..][i] == t[|t| - n + i];
  }

  /** Trimming a collapsed string keeps it collapsed and removes only white space. */
  lemma {:induction false} TrimKeepsCollapsed(s: string)
    requires Collapsed(s)
    ensures Collapsed(Trim(s))
    ensures Visible(Trim(s)) == Visible(s)
  {
    var lo, hi := TrimLayout(s);
    CollapsedSlice(s, lo, hi);
    var a, m, b := s[..lo], s[lo..hi], s[hi..];
    assert s == a + (m + b);
    VisibleAppend(a, m + b);
    VisibleAppend(m, b);
    VisibleOfSpaces(a);
    VisibleOfSpaces(b);
  }

  /** Collapsing text that is already collapsed changes nothing. */
  lemma {:induction false} CollapseCollapsed(s: string)
    requires Collapsed(s)
    ensures Collapse(s) == s
    decreases |s|
  {
    if |s| > 0 {
      CollapsedSlice(s, 1, |s|);
      CollapseCollapsed(s[1..]);
      if IsSpace(s[0]) {
        assert LeadingSpaces(s) == 1 by {
          assert |s| > 1 ==> !IsSpace(s[1]);
        }
        assert s == [s[0]] + s[1..];
      }
    }
  }

  /** Trimming text that neither starts nor ends with white space changes nothing. */
  lemma {:induction false} TrimNoEdges(s: string)
    requires Unpadded(s)
    ensures Trim(s) == s
  {
    assert LeadingSpaces(s) == 0;
    assert s[0..] == s;
    assert TrailingSpaces(s) == 0;
  }

  /** Cutting text short keeps a prefix of its visible characters. */
  lemma {:induction false} VisiblePrefix(s: string, n: nat)
    requires n <= |s|
    ensures Visible(s[..n]) <= Visible(s)
  {
    assert s == s[..n] + s[n..];
    VisibleAppend(s[..n], s[n..]);
  }

  /** No proper suffix of `p` is also a prefix of it, so two occurrences never overlap. */
  predicate NoSelfOverlap(p: string) {
    forall m :: 0 < m < |p| ==> !(p[m..] <= p)
  }

  /** `x` followed by `p`: when `p` occurs nowhere in `x` and cannot overlap itself, its first
      occurrence is the one right after `x`. */
  lemma {:induction false} IndexOfAfter(x: string, p: string, rest: string)
    requires |p| > 0 && !Contains(x, p) && NoSelfOverlap(p)
    ensures IndexOf(x + p + rest, p) == Some(|x|)
  {
    var s := x + p + rest;
    assert s[|x|..|x| + |p|] == p;
    assert OccursAt(s, p, |x|);
    forall j | 0 <= j < |x| ensures !OccursAt(s, p, j) {
      if j + |p| <= |x| {
        assert s[j..j + |p|] == x[j..j + |p|];
        assert !OccursAt(x, p, j);
      } else {
        StraddlingOccurrence(x, p, rest, j);
      }
    }
  }

  /** An occurrence that starts inside `x` and ends inside the `p` after it overlaps `p`. */
  lemma {:induction false} StraddlingOccurrence(x: string, p: string, rest: string, j: nat)
    requires j < |x| < j + |p|
    ensures OccursAt(x + p + rest, p, j) ==> p[|x| - j..] <= p
  {
    var s := x + p + rest;
    var m := |x| - j;
    assert forall k :: |x| <= k < j + |p| ==> s[k] == p[k - |x|];
    var w := s[j..j + |p|];
    assert forall k :: m <= k < |p| ==> w[k] == p[k - m];
  }

  /** `p` does not occur in what follows the first character. */
  lemma {:induction false} NotContainsTail(x: string, p: string)
    requires |x| > 0 && !Contains(x, p)
    ensures !Contains(x[1..], p)
  {
    forall j | 0 <= j <= |x| - 1 ensures !OccursAt(x[1..], p, j) {
      if j + |p| <= |x| - 1 {
        assert x[1..][j..j + |p|] == x[j + 1..j + 1 + |p|];
        assert !OccursAt(x, p, j + 1);
      }
    }
  }

  /** `s.replace(p, '')` on `x + p` gives back `x` under the conditions of `IndexOfAfter`. */
  lemma {:induction false} ReplaceFirstSuffix(x: string, p: string)
    requires |p| > 0 && !Contains(x, p) && NoSelfOverlap(p)
    ensures ReplaceFirst(x + p, p, "") == x
  {
    IndexOfAfter(x, p, []);
    assert x + p + [] == x + p;
    assert (x + p)[..|x|] == x;
  }
}

=== FILE: video_page.dfy ===
/**
 * `getVideoData`: the watch page of a video is fetched, the player response embedded in it is
 * parsed for the title, the description and the caption tracks, the English track (or else the
 * first) is turned into a transcript, and the page's `<title>` stands in for a missing title.
 */
module VideoPage {
  import opened Wrappers
  import opened Text
  import opened Scan
  import opened Json
  import opened Http
  import Captions

  const WatchPrefix := "https://www.youtube.com/watch?v="
  const TitleSuffix := " - YouTube"
  const ObjectEnd := "};"

  /** `var ytInitialPlayerResponse\s*=\s*{` */
  const PlayerPattern: seq<Token> :=
    [Lit("var ytInitialPlayerResponse"), Spaces, Lit("="), Spaces, Lit("{")]

  /** What `getVideoData` returns for a page it could read. The transcript is `None` when a caption
      track was fetched and failed, and the empty string when there was nothing to fetch. */
  datatype VideoData = VideoData(
    videoId: string, title: string, description: string,
    transcript: Option<string>, hasTranscript: bool)

  /** The fields read from the player response inside the inner `try`. */
  datatype PlayerFields = PlayerFields(title: string, description: string, transcript: Option<string>)

  const NoFields := PlayerFields([], [], Some([]))

  function WatchUrl(videoId: string): (r: string)
    ensures WatchPrefix <= r && r[|WatchPrefix|..] == videoId
  {
    WatchPrefix + videoId
  }

  // ---------------------------------------------------------------------------------------------
  // The player response
  // ---------------------------------------------------------------------------------------------

  /** `\{.+?\};` after the opening brace: `.+?` is lazy, so the object ends at the first `};` that
      leaves at least one character between the braces. */
  function LazyObject(u: string): (r: Option<string>)
    ensures r.Some? ==> |r.value| >= 3 && r.value[0] == '{' && r.value[|r.value| - 1] == '}'
    ensures r.Some? ==> r.value[1..|r.value| - 1] <= u && ObjectEnd <= u[|r.value| - 2..]
    ensures r.None? <==> |u| == 0 || !Contains(u[1..], ObjectEnd)
    // the lazy `.+?` stops at the first `};` after at least one character
    ensures r.Some? ==> forall j :: 1 <= j < |r.value| - 2 ==> !OccursAt(u, ObjectEnd, j)
  {
    if |u| == 0 then None
    else
      match IndexOf(u[1..], ObjectEnd)
      case None => None
      case Some(k) =>
        var r := "{" + u[..k + 1] + "}";
        assert r[1..|r| - 1] == u[..k + 1];
        assert u[1..][k..k + 2] == u[k + 1..k + 3];
        forall j | 1 <= j < |r| - 2 ensures !OccursAt(u, ObjectEnd, j) {
          assert !OccursAt(u[1..], ObjectEnd, j - 1);
          assert j + 2 <= |u| ==> u[1..][j - 1..j + 1] == u[j..j + 2];
        }
        Some(r)
  }

  /** `toks(\{.+?\});` anchored at the start of `s`, with its capture. */
  function ObjectAfter(toks: seq<Token>, s: string): (r: Option<string>)
    ensures r.Some? ==> |r.value| >= 3 && r.value[0] == '{' && r.value[|r.value| - 1] == '}'
  {
    match MatchTokens(toks, s)
    case None => None
    case Some(n) => LazyObject(s[n..])
  }

  /** The capture of the leftmost match of `toks(\{.+?\});`. */
  function FirstObject(toks: seq<Token>, html: string): (r: Option<string>)
    ensures r.Some? ==> |r.value| >= 3 && r.value[0] == '{' && r.value[|r.value| - 1] == '}'
    ensures r.Some? <==> exists j :: 0 <= j <= |html| && ObjectAfter(toks, html[j..]).Some?
  {
    FirstCapture(s => ObjectAfter(toks, s), html)
  }

  /** `html.match(/var ytInitialPlayerResponse\s*=\s*(\{.+?\});/s)?.[1]`. */
  function PlayerJson(html: string): (r: Option<string>)
    ensures r.Some? ==> |r.value| >= 3 && r.value[0] == '{' && r.value[|r.value| - 1] == '}'
  {
    FirstObject(PlayerPattern, html)
  }

  /** `v || ''` for a value used as text; a truthy value that is not a string is read as absent. */
  function TextOr(v: Option<JsonValue>): (r: string)
    ensures r != [] <==> v.Some? && v.value.JStr? && v.value.s != []
    ensures r != [] ==> v == Some(JStr(r))
  {
    if v.Some? && v.value.JStr? then v.value.s else []
  }

  /** `x?.key` along a chain of optional values. */
  function Step(x: Option<JsonValue>, key: string): (r: Option<JsonValue>)
    ensures r.Some? ==> x.Some? && Property(x.value, key) == r
  {
    if x.None? then None else Property(x.value, key)
  }

  /** The outcome of `captionTracks.find(t => t.languageCode === 'en')`, which throws when it reaches
      a `null` track before an English one. */
  datatype Search = Found(track: JsonValue) | Missing | Halted

  predicate IsEnglish(t: JsonValue) {
    Property(t, "languageCode") == Some(JStr("en"))
  }

  function FindEnglish(ts: seq<JsonValue>): (r: Search)
    ensures SearchOutcome(ts, r)
    decreases |ts|
  {
    if |ts| == 0 then Missing
    else if ts[0] == JNull then Halted
    else if IsEnglish(ts[0]) then Found(ts[0])
    else
      var r := FindEnglish(ts[1..]);
      SearchPastFirst(ts, r);
      r
  }

  /** What the search promises of its outcome `r` on the tracks `ts`: it finds a track exactly when an
      English track comes before any `null` one, and that track is the first English one; it misses
      exactly when no track is `null` or English; otherwise it halted on a `null` track. */
  predicate SearchOutcome(ts: seq<JsonValue>, r: Search) {
    && (r.Found? <==> exists i :: 0 <= i < |ts| && IsEnglish(ts[i]) && forall k :: 0 <= k < i ==> ts[k] != JNull && !IsEnglish(ts[k]))
    && (r.Found? ==> IsEnglish(r.track) && r.track in ts)
    && (r.Missing? <==> forall k :: 0 <= k < |ts| ==> ts[k] != JNull && !IsEnglish(ts[k]))
    && (forall i :: 0 <= i < |ts| && IsEnglish(ts[i]) && (forall k :: 0 <= k < i ==> ts[k] != JNull && !IsEnglish(ts[k])) ==>
          r == Found(ts[i]))
  }

  /** A first track that is neither `null` nor English does not change the outcome of the search. */
  lemma {:induction false} SearchPastFirst(ts: seq<JsonValue>, r: Search)
    requires |ts| > 0 && ts[0] != JNull && !IsEnglish(ts[0])
    requires SearchOutcome(ts[1..], r)
    ensures SearchOutcome(ts, r)
  {
    assert forall i :: 1 <= i < |ts| ==> ts[1..][i - 1] == ts[i];
    assert r.Found? ==> exists i :: 0 <= i < |ts| - 1 && IsEnglish(ts[1..][i]) && forall k :: 0 <= k < i ==> ts[1..][k] != JNull && !IsEnglish(ts[1..][k]);
  }

  /** The track chosen: the English one, else the first; `None` when the search threw. */
  function ChooseTrack(ts: seq<JsonValue>): (r: Option<JsonValue>)
    requires |ts| > 0
    ensures r.Some? ==> r.value in ts && r.value != JNull
    ensures (exists i :: 0 <= i < |ts| && IsEnglish(ts[i])) && r.Some? ==> IsEnglish(r.value)
    ensures r.None? <==> FindEnglish(ts).Halted?
    // the first English track, when the search reaches one
    ensures forall i :: 0 <= i < |ts| && IsEnglish(ts[i]) && (forall k :: 0 <= k < i ==> ts[k] != JNull && !IsEnglish(ts[k])) ==>
      r == Some(ts[i])
    // otherwise the first track
    ensures (forall k :: 0 <= k < |ts| ==> ts[k] != JNull && !IsEnglish(ts[k])) ==> r == Some(ts[0])
  {
    match FindEnglish(ts)
    case Found(t) => Some(t)
    case Missing => Some(ts[0])
    case Halted => None
  }

  /** `playerData.captions?.playerCaptionsTracklistRenderer?.captionTracks` when it is an array,
      and no tracks otherwise. */
  function TrackList(player: JsonValue): (r: seq<JsonValue>)
    ensures |r| > 0 ==> Step(Step(Property(player, "captions"), "playerCaptionsTracklistRenderer"), "captionTracks") == Some(JArr(r))
  {
    match Step(Step(Property(player, "captions"), "playerCaptionsTracklistRenderer"), "captionTracks")
    case Some(JArr(items)) => items
    case _ => []
  }

  /** The transcript step of the inner `try`: only a non-empty array of tracks leads to a fetch
      (any other value either fails the length test or throws on `find`, both leaving `''`). */
  function TrackTranscript(player: JsonValue, web: Web): (r: Option<string>)
    // no track list, or a search that threw: the transcript stays ''
    ensures |TrackList(player)| == 0 || ChooseTrack(TrackList(player)).None? ==> r == Some([])
    // otherwise the captions of the chosen track's `baseUrl`, when it has one
    ensures |TrackList(player)| > 0 && ChooseTrack(TrackList(player)).Some? ==>
      var url := TextOr(Property(ChooseTrack(TrackList(player)).value, "baseUrl"));
      (url == [] ==> r == Some([])) && (url != [] ==> r == Captions.FetchCaptions(url, web))
  {
    var tracks := TrackList(player);
    if |tracks| > 0 then
      match ChooseTrack(tracks)
      case None => Some([])
      case Some(track) =>
        var url := TextOr(Property(track, "baseUrl"));
        if url == [] then Some([]) else Captions.FetchCaptions(url, web)
    else Some([])
  }

  /** The inner `try`: `JSON.parse` failing (`None`) or giving `null` throws before any field is
      read. */
  function ReadPlayer(parsed: Option<JsonValue>, web: Web): (r: PlayerFields)
    ensures parsed.None? || parsed == Some(JNull) ==> r == NoFields
    ensures parsed.Some? && parsed.value != JNull ==>
      var details := Or(Property(parsed.value, "videoDetails"), JObj(map[]));
      r.title == TextOr(Property(details, "title")) && r.description == TextOr(Property(details, "shortDescription"))
    // the transcript is the one of the chosen caption track
    ensures parsed.Some? && parsed.value != JNull ==> r.transcript == TrackTranscript(parsed.value, web)
  {
    match parsed
    case None => NoFields
    case Some(player) =>
      if player == JNull then NoFields
      else
        var details := Or(Property(player, "videoDetails"), JObj(map[]));
        PlayerFields(TextOr(Property(details, "title")), TextOr(Property(details, "shortDescription")),
                     TrackTranscript(player, web))
  }

  // ---------------------------------------------------------------------------------------------
  // The title fallback
  // ---------------------------------------------------------------------------------------------

  /** `open([^<]+)close` anchored at the start of `s`. */
  function TitleWith(open: string, close: string, s: string): (r: Option<string>)
    ensures r.Some? ==> |r.value| > 0 && '<' !in r.value && open + r.value <= s
  {
    if !(open <= s) then None
    else
      var u := s[|open|..];
      match FirstIndexOfChar(u, '<')
      case None => None
      case Some(k) =>
        if k > 0 && close <= u[k..] then
          assert s == open + u && u == u[..k] + u[k..];
          Some(u[..k])
        else None
  }

  function TitleAt(s: string): Option<string> {
    TitleWith("<title>", "</title>", s)
  }

  /** `html.match(/<title>([^<]+)<\/title>/)`, with ` - YouTube` removed once and the result
      trimmed; the empty string when the page has no title element. */
  function PageTitle(html: string): (r: string)
    ensures FirstCapture(TitleAt, html).None? ==> r == []
    ensures FirstCapture(TitleAt, html).Some? ==>
      r == Trim(ReplaceFirst(FirstCapture(TitleAt, html).value, TitleSuffix, []))
  {
    match FirstCapture(TitleAt, html)
    case None => []
    case Some(t) => Trim(ReplaceFirst(t, TitleSuffix, []))
  }

  /** `getVideoData(videoId)`: `None` (JavaScript's `null`) when the watch page cannot be fetched. */
  function GetVideoData(videoId: string, web: Web, parse: string -> Option<JsonValue>): (r: Option<VideoData>)
    ensures r.None? <==> !IsOk(web(WatchUrl(videoId)))
    ensures r.Some? ==> r.value.videoId == videoId
    ensures r.Some? ==> (r.value.hasTranscript <==> r.value.transcript.Some? && r.value.transcript.value != [])
    ensures r.Some? && PlayerJson(web(WatchUrl(videoId)).text).None? ==>
      r.value.description == [] && r.value.transcript == Some([]) && r.value.title == PageTitle(web(WatchUrl(videoId)).text)
    // with a player response, its fields are used, and the `<title>` only when it has no title
    ensures r.Some? && PlayerJson(web(WatchUrl(videoId)).text).Some? ==>
      var html := web(WatchUrl(videoId)).text;
      var f := ReadPlayer(parse(PlayerJson(html).value), web);
      r.value.description == f.description && r.value.transcript == f.transcript
      && r.value.title == (if f.title == [] then PageTitle(html) else f.title)
  {
    var reply := web(WatchUrl(videoId));
    if !IsOk(reply) then None
    else
      var html := reply.text;
      var fields := match PlayerJson(html) case None => NoFields case Some(j) => ReadPlayer(parse(j), web);
      var title := if fields.title == [] then PageTitle(html) else fields.title;
      var t := fields.transcript;
      Some(VideoData(videoId, title, fields.description, t, t.Some? && t.value != []))
  }

  // ---------------------------------------------------------------------------------------------
  // Round trips: what is written into a page is what is read back
  // ---------------------------------------------------------------------------------------------

  lemma {:induction false} ObjectEndNoOverlap()
    ensures NoSelfOverlap(ObjectEnd)
  {
    var p := ObjectEnd;
    assert p[1..][0] == p[1];
  }

  lemma {:induction false} TitleSuffixNoOverlap()
    ensures NoSelfOverlap(TitleSuffix)
  {
    var p := TitleSuffix;
    forall m | 0 < m < |p| ensures !(p[m..] <= p) {
      assert p[m..][0] == p[m];
      assert m == 2 ==> p[m..][1] == p[3];
    }
  }

  /** The object body ends at the first `};`. */
  lemma {:induction false} LazyObjectOf(inner: string, rest: string)
    requires |inner| > 0 && !Contains(inner, ObjectEnd)
    ensures LazyObject(inner + ObjectEnd + rest) == Some("{" + inner + "}")
  {
    var u := inner + ObjectEnd + rest;
    assert IndexOf(u[1..], ObjectEnd) == Some(|inner| - 1) by {
      NotContainsTail(inner, ObjectEnd);
      ObjectEndNoOverlap();
      IndexOfAfter(inner[1..], ObjectEnd, rest);
      assert u[1..] == inner[1..] + ObjectEnd + rest;
    }
    assert u[..|inner|] == inner;
    LazyObjectAt(u, |inner| - 1);
  }

  /** `LazyObject` when the first `};` after the first character is at `k + 1`. */
  lemma {:induction false} LazyObjectAt(u: string, k: nat)
    requires |u| > 0 && IndexOf(u[1..], ObjectEnd) == Some(k)
    ensures LazyObject(u) == Some("{" + u[..k + 1] + "}")
  {
  }

  lemma {:induction false} PlayerPatternWellFormed()
    ensures WellFormed(PlayerPattern)
  {
  }

  /** A player response written into a page is captured in full, provided nothing before it could
      start the pattern and `};` does not occur inside it. */
  lemma {:induction false} PlayerRoundTrip(prefix: string, gaps: seq<string>, inner: string, rest: string)
    requires 'v' !in prefix && |gaps| == |PlayerPattern|
    requires forall i :: 0 <= i < |gaps| && PlayerPattern[i].Spaces? ==> AllSpace(gaps[i])
    requires |inner| > 0 && !Contains(inner, ObjectEnd)
    ensures PlayerJson(prefix + Render(PlayerPattern, gaps) + inner + ObjectEnd + rest) == Some("{" + inner + "}")
  {
    PlayerPatternWellFormed();
    ObjectRendered(PlayerPattern, gaps, prefix, inner, rest);
  }

  lemma {:induction false} ObjectRendered(toks: seq<Token>, gaps: seq<string>, prefix: string, inner: string, rest: string)
    requires WellFormed(toks) && |gaps| == |toks|
    requires forall i :: 0 <= i < |toks| && toks[i].Spaces? ==> AllSpace(gaps[i])
    requires |toks| > 0 && toks[0].Lit? && toks[0].text[0] !in prefix
    requires |inner| > 0 && !Contains(inner, ObjectEnd)
    ensures FirstObject(toks, prefix + Render(toks, gaps) + inner + ObjectEnd + rest) == Some("{" + inner + "}")
  {
    var r := Render(toks, gaps);
    var after := inner + ObjectEnd + rest;
    var tail := r + after;
    assert prefix + r + inner + ObjectEnd + rest == prefix + tail;
    MatchRendered(toks, gaps, after);
    assert tail[|r|..] == after;
    LazyObjectOf(inner, rest);
    assert ObjectAfter(toks, tail) == Some("{" + inner + "}");
    forall j | 0 <= j < |prefix| ensures ObjectAfter(toks, (prefix + tail)[j..]).None? {
      assert (prefix + tail)[j..][0] == prefix[j];
    }
    FirstCaptureAt(s => ObjectAfter(toks, s), prefix, tail);
  }

  /** A `<title>` element written into a page reads back as its trimmed text. */
  lemma {:induction false} TitleRoundTrip(prefix: string, name: string, rest: string)
    requires '<' !in prefix && |name| > 0 && '<' !in name && !Contains(name, TitleSuffix)
    ensures PageTitle(prefix + "<title>" + name + TitleSuffix + "</title>" + rest) == Trim(name)
  {
    var shown := name + TitleSuffix;
    var tail := "<title>" + shown + "</title>" + rest;
    assert prefix + "<title>" + name + TitleSuffix + "</title>" + rest == prefix + tail;
    assert '<' !in shown;
    TitleElement("<title>", "</title>", shown, rest);
    TitleBehind(prefix, tail);
    TitleSuffixNoOverlap();
    ReplaceFirstSuffix(name, TitleSuffix);
  }

  /** Text without `<` in front of a title element does not change which title is read. */
  lemma {:induction false} TitleBehind(prefix: string, tail: string)
    requires '<' !in prefix && TitleAt(tail).Some?
    ensures FirstCapture(TitleAt, prefix + tail) == TitleAt(tail)
  {
    var html := prefix + tail;
    forall j | 0 <= j < |prefix| ensures TitleAt(html[j..]).None? {
      assert html[j..][0] == prefix[j];
    }
    FirstCaptureAt(TitleAt, prefix, tail);
  }

  lemma {:induction false} TitleElement(open: string, close: string, shown: string, rest: string)
    requires |shown| > 0 && '<' !in shown && |close| > 0 && close[0] == '<'
    ensures TitleWith(open, close, open + shown + close + rest) == Some(shown)
  {
    var s := open + shown + close + rest;
    var u := s[|open|..];
    assert u == shown + [close[0]] + (close[1..] + rest);
    FirstIndexOfCharAt(u, '<', |shown|);
    assert u[|shown|..] == close + rest;
    assert u[..|shown|] == shown;
  }

  /** The English track is preferred wherever it stands, as long as no `null` track precedes it. */
  lemma {:induction false} EnglishTrackChosen(ts: seq<JsonValue>, i: nat)
    requires i < |ts| && IsEnglish(ts[i])
    requires forall k :: 0 <= k < i ==> ts[k] != JNull
    ensures exists j :: 0 <= j <= i && ChooseTrack(ts) == Some(ts[j]) && IsEnglish(ts[j])
                        && forall k :: 0 <= k < j ==> !IsEnglish(ts[k])
    ensures (forall k :: 0 <= k < i ==> !IsEnglish(ts[k])) ==> ChooseTrack(ts) == Some(ts[i])
  {
    FirstEnglish(ts, i);
    var j :| 0 <= j <= i && IsEnglish(ts[j]) && forall k :: 0 <= k < j ==> !IsEnglish(ts[k]);
    var r := FindEnglish(ts);
    assert r.Found? by {
      assert forall k :: 0 <= k < j ==> ts[k] != JNull && !IsEnglish(ts[k]);
    }
    assert ChooseTrack(ts) == Some(ts[j]);
  }

  lemma {:induction false} FirstEnglish(ts: seq<JsonValue>, i: nat)
    requires i < |ts| && IsEnglish(ts[i])
    ensures exists j :: 0 <= j <= i && IsEnglish(ts[j]) && forall k :: 0 <= k < j ==> !IsEnglish(ts[k])
    decreases i
  {
    if exists k :: 0 <= k < i && IsEnglish(ts[k]) {
      var k :| 0 <= k < i && IsEnglish(ts[k]);
      FirstEnglish(ts, k);
    }
  }

  /** The title from the player response wins over the page's `<title>`. */
  lemma {:induction false} PlayerTitleWins(videoId: string, web: Web, parse: string -> Option<JsonValue>, name: string)
    requires IsOk(web(WatchUrl(videoId))) && name != []
    requires var j := PlayerJson(web(WatchUrl(videoId)).text);
      j.Some? && parse(j.value).Some? && parse(j.value).value.JObj?
      && Property(parse(j.value).value, "videoDetails") == Some(JObj(map["title" := JStr(name)]))
    ensures GetVideoData(videoId, web, parse).value.title == name
  {
    var j := PlayerJson(web(WatchUrl(videoId)).text).value;
    ReadPlayerTitle(parse(j), web, name);
  }

  /** The transcript comes from the first English caption track of the player response. */
  lemma {:induction false} EnglishTrackTranscript(videoId: string, web: Web, parse: string -> Option<JsonValue>,
                                                  ts: seq<JsonValue>, i: nat, url: string)
    requires IsOk(web(WatchUrl(videoId)))
    requires var j := PlayerJson(web(WatchUrl(videoId)).text);
      j.Some? && parse(j.value).Some? && parse(j.value).value != JNull && TrackList(parse(j.value).value) == ts
    requires i < |ts| && IsEnglish(ts[i]) && forall k :: 0 <= k < i ==> ts[k] != JNull && !IsEnglish(ts[k])
    requires TextOr(Property(ts[i], "baseUrl")) == url && url != []
    ensures GetVideoData(videoId, web, parse).value.transcript == Captions.FetchCaptions(url, web)
  {
    var player := parse(PlayerJson(web(WatchUrl(videoId)).text).value).value;
    assert ChooseTrack(ts) == Some(ts[i]);
    assert TrackTranscript(player, web) == Captions.FetchCaptions(url, web);
  }

  lemma {:induction false} ReadPlayerTitle(parsed: Option<JsonValue>, web: Web, name: string)
    requires parsed.Some? && parsed.value.JObj? && name != []
    requires Property(parsed.value, "videoDetails") == Some(JObj(map["title" := JStr(name)]))
    ensures ReadPlayer(parsed, web).title == name
  {
    var details := JObj(map["title" := JStr(name)]);
    DetailsTitle(details, name);
    assert Or(Property(parsed.value, "videoDetails"), JObj(map[])) == details;
  }

  lemma {:induction false} DetailsTitle(details: JsonValue, name: string)
    requires details == JObj(map["title" := JStr(name)])
    ensures TextOr(Property(details, "title")) == name
  {
    assert Property(details, "title") == Some(JStr(name));
  }
}

=== FILE: wrappers.dfy ===
/** Failure-carrying values shared by every module of the model. */
module Wrappers {

  /** A value that may be absent: JavaScript's `null`/`undefined` on one side, a value on the other. */
  datatype Option<+T> = None | Some(value: T) {
    function GetOr(default: T): T {
      match this
      case Some(v) => v
      case None => default
    }
  }

  /** The outcome of an operation that may throw: `Err` carries the thrown error's message. */
  datatype Result<+T> = Ok(value: T) | Err(message: string)
}
